=== FILE: README.md ===
# nideriji-download: a Dafny model of the diary reconstruction core

`nideriji-download` exports the diaries of a nideriji account. The service sends
each diary as a record holding a date, a title, weather and mood tags and a body.
The body may contain two things:

- **privacy blocks**: AES-encrypted text between two fixed marker strings;
- **image placeholders**: `[图N]`, where N is a decimal id.

Three scripts turn such records into files:

- `plan.py`, the newer exporter (`DiaryDownloader`), decrypts the blocks,
  collects image ids, and writes one Markdown file per diary under
  `<myself|partner>/markdown/YYYY-MM/<date text>.md`. The base folder is
  `partner` when exporting the partner's diaries and `myself` otherwise. It
  then downloads each month's images once per (month, id).
- `main.py`, the older exporter, does the same with its own marker text, key
  derivation, decoding order and file layout.
- `trans.py`, the HTML step, reads every `.md` file under `markdown/` of the
  directory it runs in, in sorted path order. It drops each file's first line,
  points image links at a shared `./Pictures/` folder, and wraps each diary in
  an `<article>` dated from its file name. It then substitutes the articles into
  the page template `html/template.html`. `plan.py` starts it in its own working
  directory and passes the base folder as an argument, which `trans.py` never
  reads. The files `plan.py` wrote are therefore read only when `trans.py` runs
  inside the base folder.

The model covers the pure text, date and set logic of all three:

| Module | What it models |
|---|---|
| `Privacy` | The marker search, key derivation, decode order, pad rule and splice of `plan.py`. |
| `MainPrivacy`, `MainSubstitution` | The same for `main.py`, with `clean_unicode`. |
| `Images` | Placeholder extraction and rewrite, the Markdown image-target scan, and the choice of image file extension. |
| `Export` | File text and layout, month grouping and download tasks, and the two date filters. |
| `Dates` | `strptime("%Y-%m-%d")`, the Gregorian weekday, and the last day of a month. |
| `Sorting` | A stable sort. |
| `Render` | `trans.py`. |
| `Text`, `Bytes`, `Wrappers` | The Python string and byte behaviour the rest relies on. |

AES-ECB decryption, base64 decoding and lenient UTF-8 decoding are library code.
They are fields of a `Crypto` record, so every property holds for any
implementation of them. The Markdown converter and today's date are parameters.

Behaviours of the code that the model makes explicit:

- **Keys.** `plan.py` truncates the key to 16 bytes. `main.py` pads it to 16
  bytes but never truncates it. AES accepts keys of 16, 24 or 32 bytes, so an
  account id whose UTF-8 is longer than 16 bytes and neither 24 nor 32 bytes
  long makes `main.py` raise as soon as a block is present.
- **Decode order.** `plan.py` tries base64 first. `main.py` tries hex first,
  then base64, and puts the block back unchanged when both fail.
- **Pad rule.** `plan.py` strips the pad whenever the last decrypted byte is at
  most 16. A last byte of 0, or one larger than the data, leaves nothing.
- **Whitespace around ciphertext.** `plan.py` rebuilds the search string from the
  stripped ciphertext. A block with whitespace around its ciphertext is therefore
  never replaced.
- **Misaligned ciphertext.** In `plan.py`, a block that decodes to misaligned
  bytes ends the loop. Earlier blocks stay replaced.
- **Leading zeros.** `[图007]` yields id 7, but the link `plan.py` writes for it
  is `Pictures/007.jpg`.
- **PNG images.** A PNG is saved as `.png`, but `plan.py` always links a `.jpg`.
- **Repeated image targets.** `trans.py` collects the targets once and then
  replaces each one globally, so a target listed twice is rewritten twice. A
  `plan.py` link used twice becomes `././Pictures/N.jpg`, which still names the
  same file. A bare target such as `x` becomes `./Pictures/./Pictures/x`.
- **File names.** `plan.py` names each file after the service's date text as
  sent, and only the month folder after the parsed date. Path order is date
  order only for zero-padded texts. For `2024-3-5` and `2024-3-12`, 12 March
  sorts first in the HTML page.
- **File-name dates.** A file name that does not parse as a date is shown in
  `trans.py` with today's date.
- **HTML order.** The HTML step always orders files ascending by path.

## Model

| member | source | states |
|---|---|---|
| Privacy.FindBlockSpec | plan.py:218-219 | The block found opens at the leftmost begin marker and closes at the first end marker that leaves room for the minimum body. No block is found exactly when no begin marker is followed by an end marker far enough on. |
| Privacy.FindBlockAt | plan.py:218-219 | Conversely, a begin and an end occurrence with no earlier begin and no earlier fitting end are exactly the block the search returns. |
| Privacy.FindBlock | plan.py:218-219 | A block found has room for the begin marker, the minimum body and the end marker inside the text. Its full meaning is stated by Privacy.FindBlockSpec and Privacy.FindBlockAt. |
| Privacy.FindAllBodies | plan.py:218-219 | No contract of its own. Privacy.OnlyBlock states what it returns for a text with one block. |
| Privacy.OnlyBlock | plan.py:218-219 | In a text with a single begin marker and a single end marker, `findall` returns just the body between them, and nothing is found after the block. |
| Privacy.PlanKey | plan.py:230-237 | The `plan.py` key is always 16 bytes: the UTF-8 digits of the account id, cut to 16 or padded with zero bytes. |
| Privacy.MainKey | main.py:41-42 | The `main.py` key holds the id's bytes followed by zero bytes up to 16, and is never truncated. |
| Privacy.KeysAgree | plan.py:230-237 | Both key derivations agree for ids of at most 16 bytes and differ for longer ids. |
| Privacy.KeyOf12345 | plan.py:230-237 | Account 12345 gets the key `12345` followed by eleven zero bytes, in both generations. |
| Privacy.MarkersUsable | plan.py:218 | The marker texts of both generations can be searched for, and the two generations' markers differ. |
| Privacy.StripPad | plan.py:257-262 | The pad rule only ever drops a tail: the result is a prefix of the decrypted bytes. A last byte above 16 keeps everything. A last byte of 0 or beyond the length leaves nothing. Otherwise exactly that many bytes are dropped. Empty input stays empty. |
| Privacy.StripPadOfPad | plan.py:257-262 | Stripping undoes PKCS#7 padding of any message. |
| Privacy.PlanDecode | plan.py:242-251 | Base64 is tried first, and hex only when base64 fails. |
| Privacy.PlanBlock | plan.py:224-275 | One pass of the block loop raises exactly when the stripped ciphertext decodes to bytes that are not whole AES blocks. An empty or undecodable block leaves the content as it was. |
| Privacy.PlanBlocks | plan.py:224-277 | No contract of its own. Privacy.UndecodableBlockSkipped, Privacy.MisalignedBlockStops and Privacy.PlanRoundTrip state how the loop goes on, stops and round-trips. |
| Privacy.DecryptPlan | plan.py:211-222 | The content comes back unchanged when it is empty, when the account id is missing or zero, and when no begin marker is followed by an end marker. |
| Privacy.UndecodableBlockSkipped | plan.py:242-251 | A block that is empty after stripping, or that neither base64 nor hex decodes, is skipped, and the blocks after it are still processed. |
| Privacy.MisalignedBlockStops | plan.py:216-281 | At the first block whose bytes are misaligned the loop ends: earlier blocks stay replaced, and that block and all later ones stay as they were. |
| Privacy.StrippedBlockAbsent | plan.py:272-275 | When the ciphertext has whitespace around it, the search string rebuilt from the stripped ciphertext does not occur in a text with one begin marker. |
| Privacy.PaddedBlockUnchanged | plan.py:224-275 | Such a whitespace-padded block either raises or leaves the content exactly as it was. |
| Privacy.ReplaceOnlyBlock | plan.py:272-275 | Replacing a block in a text whose only begin marker is the block's own replaces that block and nothing else. |
| Privacy.PlanSingleBlock | plan.py:224-277 | For a single stripped, decodable block that decrypts to a padded message, the result replaces every copy of the block with the wrapped, stripped plaintext. |
| Privacy.PlanRoundTrip | plan.py:211-277 | Round trip: a text with one block holding the encoding of an encrypted padded message decrypts to the same text with that block replaced by the wrapped plaintext. |
| MainPrivacy.MainBlock | main.py:39-51 | A block's replacement is either the whole original match or the plaintext between `[隐私区域开始]` and `[隐私区域结束]`. |
| MainPrivacy.MainBlockHex | main.py:43-45 | Case split of MainPrivacy.MainBlock: hex of whole AES blocks is decrypted and wrapped, without trying base64. It unfolds one branch and adds no meaning of its own. MainSubstitution.MainRoundTrip is the partner law of `decrypt_privacy`. |
| MainPrivacy.MainBlockBase64 | main.py:46-49 | Case split of MainPrivacy.MainBlock: when hex fails or is misaligned, base64 of whole blocks is decrypted and wrapped. It unfolds one branch; the partner law is MainSubstitution.MainRoundTrip. |
| MainPrivacy.MainBlockKept | main.py:50-51 | Case split of MainPrivacy.MainBlock: when neither decoding gives whole blocks, the whole match, markers included, is put back. It unfolds one branch; the partner law is MainSubstitution.MainRoundTrip. |
| MainPrivacy.DecryptMain | main.py:37-54 | `main.py` raises exactly when the key has an unusable length and at least one block (non-empty body) is present. A text without a block is returned unchanged. |
| MainPrivacy.SubBlocks | main.py:52-54 | No contract of its own. MainSubstitution.SubBlocksOnly states what it does to a text with one block, and MainPrivacy.DecryptMain what it does without one. |
| MainPrivacy.CleanUnicode | main.py:30-34 | No contract of its own. MainPrivacy.CleanUnicodeShrinks and MainPrivacy.CleanUnicodeDeletes state what it keeps and what it deletes. |
| MainPrivacy.RemoveAllShrinks | main.py:32-33 | Deleting, in turn, patterns that all start with one character never lengthens the text, and a text without that character is unchanged. |
| MainPrivacy.CleanUnicodeShrinks | main.py:30-34 | `clean_unicode` never lengthens the text, and leaves text without a backslash unchanged. |
| MainPrivacy.CleanUnicodeDeletes | main.py:30-34 | An escaped `\ud83d` between text without backslashes is deleted, and the text on both sides is kept as it was. |
| MainSubstitution.SubBlocksOnly | main.py:52-54 | In a text with one block, the substitution replaces that block with the callback's text and keeps everything around it. |
| MainSubstitution.MainRoundTrip | main.py:37-54 | Round trip: a text with one block holding the hex of whole AES blocks decrypts with the `main.py` key, wrapped in the plaintext markers, with the rest of the text kept. |
| Bytes.FromHexToHex | plan.py:248 | `bytes.fromhex` reads back any byte string written in hex. |
| Bytes.Utf8EncodeAscii | plan.py:231 | The UTF-8 of an ASCII text is its code points, one byte each. |
| Images.Placeholders | plan.py:288-289 | Every captured placeholder id is a non-empty run of decimal digits. |
| Images.ExtractImageIds | plan.py:283-299 | `extract_image_ids` holds exactly the integer values of the placeholders found, with repeats collapsed, and is empty for empty content. |
| Images.Rewrite | plan.py:383 | No contract of its own. Images.RewriteWeave, Images.RewriteIdentity and Images.RewriteNoPlaceholder state what it changes and what it keeps. The `main.py` rewrite at main.py:153-154 is the same function with `main.py`'s link. |
| Images.GapsCount | plan.py:383 | A text splits into one more piece of plain text than it has placeholders. |
| Images.GapsWeave | plan.py:383 | Interleaving the plain pieces with the placeholders, in order, gives back the text. |
| Images.RewriteWeave | plan.py:379-383 | The rewrite interleaves the same plain pieces with the links of the placeholders, in order. Nothing but the placeholders changes. |
| Images.RewriteIdentity | plan.py:383 | Rewriting each placeholder to itself leaves any text unchanged. |
| Images.RewriteNoPlaceholder | plan.py:383 | A text without placeholders is left unchanged by any rewrite. |
| Images.PlaceholderAlone | plan.py:379-383 | A lone placeholder `[图d]` is found as `d` and rewritten to the link of `d`. |
| Images.LeadingZeros | plan.py:289-295 | `[图007]` yields id 7, but its link in `plan.py` names `Pictures/007.jpg`. |
| Images.TargetOfImage | trans.py:32 | Where an image begins, the pattern `!\[.*?\]\((.*?)\)` captures exactly its target when alt and target hold no `]`, `)` or line break, and the scan resumes right after it. |
| Images.Targets | trans.py:32 | No contract of its own. Images.TargetsOfImage, Images.OneImageTarget and Images.PlanLinksFound state which targets it finds. |
| Images.TargetsOfImage | trans.py:32 | An image at the front contributes its target first, and the scan continues after it. |
| Images.TargetsLink | trans.py:32 | A link written by `plan.py` is found with target `Pictures/N.jpg`. |
| Images.OneImageTarget | trans.py:32 | A text with one image and no other `!` yields just that target. |
| Images.PlanLinksFound | trans.py:32 | In a body without `!`, the HTML step finds exactly the targets of the links `plan.py` wrote, one per placeholder, in order. |
| Images.ReplaceInImage | trans.py:39 | Replacing a target that occurs only inside its own image changes only that image's target. |
| Images.HasSubContains | plan.py:313 | `in` on strings holds exactly when the pattern occurs somewhere. |
| Images.ChooseExtension | plan.py:312-324 | The extension is `.png` exactly when the content type names png and neither jpeg nor jpg, or when the type names none of them and the bytes carry the PNG signature without the JPEG one. Otherwise it is `.jpg`. |
| Images.PngLinkMismatch | plan.py:321-322 | A PNG served without a content type is saved as `.png`, while every link `plan.py` writes ends in `.jpg`. |
| Export.PathJoin | plan.py:355 | `os.path.join` keeps both parts and puts a `/` between them, unless the second part is absolute and replaces the first. |
| Export.Enrich | plan.py:184-192 | Non-empty content is decrypted and its image ids are collected; empty content has no ids. The other fields are kept. |
| Export.DropIndent | plan.py:374-375 | A line loses its leading four spaces when it has them and is otherwise kept. |
| Export.DeIndentLines | plan.py:373-376 | Read back line by line, the de-indented text has one line per source line, each without its four-space indent. |
| Export.DeIndentUnindented | plan.py:373-376 | A text without indented lines passes unchanged. |
| Export.Tags | plan.py:394-400 | The tag line names the weather, the mood, or both separated by ` \| `, according to which are present. |
| Export.PlanLines | plan.py:386-404 | The header and a blank line come first, then `# title` and a blank line only when there is a title, then the tag line and a blank line only when there are tags, then the body and a final empty line. |
| Export.PlanSave | plan.py:340-417 | `save_diary_markdown` returns nothing exactly for an empty or unparsable date. Otherwise it writes `<base>/markdown/<YYYY-MM>/<date text>.md` with the Monday-first weekday and the de-indented, link-rewritten body, and passes the image ids on. |
| Export.MonthKeyShape | plan.py:354 | From year 1000 on, the month key is the zero-padded `YYYY-MM`, the first seven characters of the ISO date. |
| Export.PlanTextFraming | plan.py:386-409 | Every file starts with `==date weekday==` and a blank line, and ends with the body and a line break. |
| Export.PlanTextLines | plan.py:386-409 | When no field holds a line break, the file reads back line by line as exactly the lines written. |
| Export.Group | plan.py:467-480 | No two buckets share a month. Export.GroupContents states which months and ids they hold. |
| Export.Tasks | plan.py:483-500 | No contract of its own. Export.TaskCount and Export.TasksSplit state how many tasks there are and how they split by month. |
| Export.AddSaved | plan.py:471-480 | Recording a save adds its month if unseen, with its pictures folder, and unions its ids into that month's set. Other months are untouched. |
| Export.GroupContents | plan.py:467-480 | The month map has a bucket for exactly the months of the saved diaries, and each bucket holds the union of that month's ids. |
| Export.TasksSplit | plan.py:490-500 | The tasks of all months are those of the earlier months plus those of the last one, and the two never overlap. |
| Export.TaskCount | plan.py:483-500 | There is one download task per (month, id), and their number equals the sum of the per-month set sizes. An id used by several diaries of a month is fetched once for it. |
| Export.PlanFilter | plan.py:641-656 | The `plan.py` filter keeps exactly the diaries whose date parses and lies within start..end inclusive. Empty or unparsable dates are dropped silently. |
| Export.Keep | plan.py:641-656 | A kept element occurs in the result as often as in the input, and a dropped one not at all. |
| Export.KeepConcat | plan.py:643-653 | Filtering a concatenation gives the part kept from the front followed by the part kept from the back: input order is kept. |
| Export.PlanFilterInOrder | plan.py:643-653 | The `plan.py` filter keeps input order, and keeps a single diary exactly when it is in range. |
| Export.KeepIdempotent | plan.py:641-656 | Filtering an already filtered list changes nothing. |
| Export.MainFilter | main.py:103-109 | `filter_diaries_by_date` raises exactly when some date does not parse. Otherwise it returns a permutation of the in-range diaries. |
| Export.MainFilterOrder | main.py:107 | The result is ordered by date text, ascending or descending as configured, and diaries with equal dates keep their input order. |
| Export.MainFilterChronological | main.py:103-109 | With zero-padded dates the result is in calendar order: oldest first when ascending, newest first otherwise. |
| Export.TextOrderIsDateOrder | main.py:107 | For zero-padded date texts, text order and calendar order agree. |
| Export.MainContent | main.py:95-98 | Content is cleaned and then decrypted. It never raises for ids of at most 16 bytes, and without a block it is just the cleaned text. |
| Export.MainSave | main.py:112-154 | `save_diary` raises exactly for an unparsable date. Otherwise it writes `YYYY-MM/YYYY-MM-DD.md`. The final file holds the header, title line and content as `replace_images_in_markdown` reads them back in text mode, with `\r\n` and `\r` turned into `\n`, and with every placeholder turned into a `../Pictures` link. Text without `\r` reads back as written. |
| Export.MainSaveNameParses | main.py:114-118 | The `main.py` file name is the zero-padded date, and it parses back to the diary's date even when the service's date text is not padded. |
| Dates.ParseDate | plan.py:348 | A parsed date is always a valid calendar date. |
| Dates.FormatDate | trans.py:53 | No contract of its own. Dates.ParseFormat states that it is zero-padded ISO text that parses back, and Dates.FormatOrder that it orders as the dates do. |
| Dates.MonthKey | plan.py:354 | No contract of its own. Export.MonthKeyShape states its shape and its relation to the ISO date. |
| Dates.Weekday | plan.py:364 | The weekday is an index 0..6. Dates.WeekdayAnchors and Dates.NextDayWeekday state that 0 is Monday and that it advances by one each day. |
| Dates.ParseFormat | main.py:118 | `str(date)` has the shape `DDDD-DD-DD` and parses back to the same date. |
| Dates.FormatParse | trans.py:45 | A zero-padded date text that parses is exactly the text of the parsed date. |
| Dates.FormatOrder | main.py:107 | Zero-padded date texts compare as their dates do. |
| Dates.NextDayOrdinal | plan.py:364 | The next day's ordinal is one more. |
| Dates.NextDayWeekday | plan.py:364 | The weekday advances by one, cyclically, from each day to the next. |
| Dates.WeekdayAnchors | plan.py:363-364 | 0001-01-01 is a Monday (index 0 of the Monday-first tables) and 2024-03-05 a Tuesday. |
| Dates.NextOfPrevDay | main.py:179-180 | Subtracting one day and adding it back gives the same date. |
| Dates.EndDay | main.py:179-180 | For a valid year and month, `end_day` is the month's number of days. |
| Dates.ResolveRange | main.py:178-181 | The range is built exactly when both years and months are valid. It runs from the first of the start month to the last valid day of the end month. |
| Sorting.SortBy | main.py:107 | The sort returns a permutation of its input. |
| Sorting.SortBySorted | main.py:107 | The result is ordered by key, ascending or descending. |
| Sorting.SortByStable | main.py:107 | Elements with equal keys keep their relative order. |
| Text.IndexFromSpec | plan.py:313 | The search returns the first occurrence at or after its start, and nothing exactly when there is none. |
| Text.Newlines | main.py:151 | Reading in text mode leaves no carriage return and never lengthens the text. |
| Text.NewlinesPlain | main.py:151 | Text without a carriage return reads back exactly as stored, so a second read-back changes nothing. |
| Text.NewlinesExample | main.py:151 | `a\r\nb\rc` reads back as `a\nb\nc`. |
| Text.ReplaceAll | plan.py:275 | No contract of its own. Text.ReplaceAllAbsent, Text.ReplaceAllOnce and Text.ReplaceAllLength state what `str.replace` does with no, one and any number of occurrences. |
| Text.ReplaceAllAbsent | plan.py:272-275 | `str.replace` of an absent pattern changes nothing. |
| Text.ReplaceAllOnce | plan.py:272-275 | `str.replace` of a pattern occurring once replaces just that occurrence. |
| Text.ReplaceAllLength | plan.py:272-275 | The length changes by the number of occurrences times the difference in length. |
| Text.Strip | plan.py:225 | `strip` leaves text with no whitespace at either end, found inside the input between runs of whitespace, and keeps text already without it. |
| Text.JoinSplit | plan.py:373-376 | Splitting on a character and joining with it gives back the text. |
| Text.SplitJoin | plan.py:373-376 | Joining lines without the separator and splitting again gives back the lines. |
| Text.PadDigitsOrder | main.py:107 | Zero-padded numerals of one width compare as their numbers do. |
| Render.StripFirstLine | trans.py:30 | What remains is a suffix of the input, and a text without a line break is unchanged. |
| Render.StripFirstLineSpec | trans.py:30 | The text removed is the longest prefix matching `^\s*.*\n`, and nothing is removed when no prefix matches. |
| Render.StripHeaderLine | trans.py:30 | A first line that starts with a non-space character is removed together with its line break, and nothing else is. |
| Render.PlanHeaderDropped | trans.py:30 | On a file written by `plan.py`, exactly the `==date weekday==` line is dropped. |
| Render.Basename | trans.py:33 | The base name is a `/`-free tail of the path, preceded by a `/` unless it is the whole path. |
| Render.RewriteTargets | trans.py:32-39 | A text without image targets passes unchanged. Render.OneImage and Render.RepeatedPlanLink state what happens to one image and to a repeated one. |
| Render.OneImage | trans.py:32-39 | A diary with one image whose target occurs nowhere else gets that target replaced by `./Pictures/<basename>` and nothing else changed. |
| Render.RepeatedTarget | trans.py:32-39 | Two images sharing a bare one-character target both end up at `./Pictures/./Pictures/<target>`: the rewrite is not idempotent. |
| Render.RepeatedPlanLink | trans.py:32-39 | A `plan.py` link used twice ends up as `././Pictures/N.jpg` in both places, which still names the same file. |
| Render.Stem | trans.py:25 | The stem is a prefix of the name. Render.StemOfMarkdown states that `<stem>.md` gives back the stem. |
| Render.StemOfMarkdown | trans.py:25 | `splitext` of `<stem>.md` gives the stem when the stem has no dot. |
| Render.StemDate | trans.py:44-47 | A stem that parses gives that date, and any other stem gives today's date. |
| Render.RenderFile | trans.py:24-60 | No contract of its own. Render.RenderDatedFile states which date and weekday an ISO-named file shows, and Render.StemDate the fallback to today. |
| Render.RenderDatedFile | trans.py:24-60 | A file named `<ISO date>.md` shows that date text and its Monday-first weekday label, whatever today is. |
| Render.Document | trans.py:23-65 | A template without `{{CONTENT_HTML}}` is written out unchanged. Render.DocumentOrder states which articles fill the slot and in what order. |
| Render.FillOneSlot | trans.py:63-65 | A template with a single `{{CONTENT_HTML}}` gets the articles, joined by line breaks, exactly there. |
| Render.FillNoSlot | trans.py:65 | A template without the slot is written out unchanged. |
| Render.PlanPath | plan.py:407 | No contract of its own. Render.PlanSavePath states that it is where `plan.py` writes, and Render.PlanPathOrder and Render.UnpaddedNamesMisorder when its order is date order. |
| Render.PlanSavePath | plan.py:407 | Saved under the working directory, a diary's file is at `markdown/<month key>/<date text>.md`: its own date text names the file. |
| Render.PlanPathOrder | trans.py:23 | For zero-padded date texts from year 1000 on, the path of a file written by `plan.py` sorts before another's exactly when its date is earlier. |
| Render.UnpaddedNamesMisorder | trans.py:23 | The unpadded texts `2024-3-5` and `2024-3-12` both parse, yet the file of 12 March sorts before that of 5 March. |
| Render.SortedPathsChronological | trans.py:23 | Files with zero-padded date names, in sorted path order, are in ascending date order. |
| Render.DocumentOrder | trans.py:23-65 | The page holds the articles of a permutation of the files, sorted by path. |

## Left out

- HTTP: login, the sync and detail calls, and the image GET. These are network I/O. Only what they return enters the model, as parameters.
- Thread pools, timeouts, `as_completed` and `tqdm`. The grouping runs single-threaded after the fetches, and the model is sequential.
- Filesystem effects: `makedirs`, file writes and reads, `shutil.copy2`, copying the logo and template, and `export_stats.json`. Paths and file texts are modelled as values instead.
- The `Logger` class and console output, which are I/O.
- `main.py`'s `input()` prompts and `datetime.now()`, and `plan.py`'s `date.today()`. The typed numbers and today's date are parameters.
- `markdown.markdown` and the `subprocess` hand-off to `trans.py`. The converter is a function parameter of the HTML step.
- The descending sort in `plan.py`'s `get_sync_data` (plan.py:153). Its output order does not affect any file `plan.py` writes.
- AES, base64 and UTF-8 decoding. These are library internals, given as opaque fields of `Crypto`. Only the rule that ECB decryption raises on data that is not whole 16-byte blocks is modelled.
- Privacy.Decrypt: models the library's error on misaligned data only, not what AES computes.
- Dates.ParseDate: reads ASCII digits only. `strptime`'s `\d` also accepts other Unicode decimal digits.
- Images.Placeholders: the placeholder digits are ASCII and full-width. Other Unicode decimal digits that Python's `\d` matches are treated as plain text.
- Images.LowerAscii: lowers ASCII letters only. `str.lower` maps other letters too, but none of them to a letter of `jpeg`, `jpg` or `png`, so the extension choice is the same.
- Export.Tasks: a set of (month, id) pairs rather than `plan.py`'s list. Export.TaskCount shows that the list has no repeats, so nothing is lost.
- The `plan.py` fallback `[隐私内容解密失败]` (plan.py:268-269): UTF-8 decoding with `errors='ignore'` never raises, so it cannot be reached.
- Dates: years are limited to 1..9999, as in Python's `date`.
- Render.RenderFile: the text of a Markdown file is taken as stored. `trans.py` reads it in text mode (trans.py:27), which turns `\r\n` and `\r` into `\n` as Text.Newlines does. The header line `plan.py` writes holds no `\r`, so only a title or body containing one would differ.
- Render.PlanSavePath: uses the base folder `""`, the case of `trans.py` run inside the base folder. `plan.py`'s own hand-off (plan.py:565-573) starts `trans.py` in its working directory and never passes it the folder, so there `trans.py` does not read the files `plan.py` wrote. Process launching is not modelled.
- Export.PathJoin, Render.Basename: posixpath semantics. On Windows (`plan.py:570` decodes `trans.py`'s output as `gbk` for it), `ntpath` joins with `\`, also splits on `\`, and treats drive letters specially. That is not modelled.
- Render.PlanPathOrder, Render.SortedPathsChronological: promise date order only for zero-padded date texts. Render.UnpaddedNamesMisorder shows that unpadded texts break it.

=== FILE: bytes.dfy ===
/** Byte strings: `str.encode('utf-8')`, `bytes.fromhex` and `bytes.hex`. */
module Bytes {
  import opened Wrappers
  import opened Text

  type byte = x: int | 0 <= x < 256

  /** The UTF-8 encoding of one code point. */
  function Utf8Char(c: char): (r: seq<byte>)
    ensures 1 <= |r| <= 4
    ensures c as int < 0x80 ==> r == [c as int]
  {
    var v := c as int;
    if v < 0x80 then [v]
    else if v < 0x800 then [0xC0 + v / 64, 0x80 + v % 64]
    else if v < 0x10000 then [0xE0 + v / 4096, 0x80 + (v / 64) % 64, 0x80 + v % 64]
    else [0xF0 + (v / 262144) % 8, 0x80 + (v / 4096) % 64, 0x80 + (v / 64) % 64, 0x80 + v % 64]
  }

  /** `s.encode('utf-8')`. */
  function Utf8Encode(s: string): seq<byte>
    decreases |s|
  {
    if s == [] then [] else Utf8Char(s[0]) + Utf8Encode(s[1..])
  }

  /** ASCII text encodes to one byte per character, its code. */
  lemma {:induction false} Utf8EncodeAscii(s: string)
    requires forall i :: 0 <= i < |s| ==> s[i] as int < 0x80
    ensures |Utf8Encode(s)| == |s|
    ensures forall i :: 0 <= i < |s| ==> Utf8Encode(s)[i] == s[i] as int
    decreases |s|
  {
    if s != [] {
      Utf8EncodeAscii(s[1..]);
    }
  }

  /** The ASCII whitespace `bytes.fromhex` skips before a pair of digits. */
  predicate IsAsciiSpace(c: char) {
    c == ' ' || '\t' <= c <= '\r'
  }

  predicate IsHexDigit(c: char) {
    '0' <= c <= '9' || 'a' <= c <= 'f' || 'A' <= c <= 'F'
  }

  function HexValue(c: char): (v: nat)
    requires IsHexDigit(c)
    ensures v < 16
  {
    if '0' <= c <= '9' then c as int - '0' as int
    else if 'a' <= c <= 'f' then c as int - 'a' as int + 10
    else c as int - 'A' as int + 10
  }

  /** The lower-case hexadecimal digit `bytes.hex()` writes. */
  function HexChar(v: nat): (c: char)
    requires v < 16
    ensures IsHexDigit(c) && !IsAsciiSpace(c) && HexValue(c) == v
  {
    if v < 10 then ('0' as int + v) as char else ('a' as int + v - 10) as char
  }

  /** `bytes.fromhex(s)`, with `None` where it raises: whitespace may stand
      before each pair of hexadecimal digits, anything else is an error. */
  function FromHex(s: string): (r: Option<seq<byte>>)
    ensures r.Some? ==> 2 * |r.value| <= |s|
    decreases |s|
  {
    if s == [] then Some([])
    else if IsAsciiSpace(s[0]) then FromHex(s[1..])
    else if |s| >= 2 && IsHexDigit(s[0]) && IsHexDigit(s[1]) then
      match FromHex(s[2..])
      case None => None
      case Some(rest) => Some([HexValue(s[0]) * 16 + HexValue(s[1])] + rest)
    else None
  }

  /** `b.hex()`. */
  function ToHex(b: seq<byte>): (s: string)
    ensures |s| == 2 * |b|
    decreases |b|
  {
    if b == [] then [] else [HexChar(b[0] / 16), HexChar(b[0] % 16)] + ToHex(b[1..])
  }

  /** `bytes.fromhex(b.hex()) == b`. */
  lemma {:induction false} FromHexToHex(b: seq<byte>)
    ensures FromHex(ToHex(b)) == Some(b)
    decreases |b|
  {
    if b != [] {
      var s := ToHex(b);
      assert s[2..] == ToHex(b[1..]);
      FromHexToHex(b[1..]);
      assert b == [b[0]] + b[1..];
    }
  }

  /** Hexadecimal text never contains whitespace or non-hexadecimal characters. */
  lemma {:induction false} ToHexDigits(b: seq<byte>)
    ensures forall i :: 0 <= i < |ToHex(b)| ==> IsHexDigit(ToHex(b)[i]) && !IsSpace(ToHex(b)[i])
    decreases |b|
  {
    if b != [] {
      ToHexDigits(b[1..]);
      var s := ToHex(b);
      assert s == [HexChar(b[0] / 16), HexChar(b[0] % 16)] + ToHex(b[1..]);
    }
  }
}

=== FILE: dates.dfy ===
/** Calendar dates the way Python's `datetime.date` sees them: the proleptic
    Gregorian calendar on years 1..9999, `datetime.strptime(s, "%Y-%m-%d")`,
    `str(date)`, `date.weekday()` and the "last day of a month" computation
    that the exporter's date-range prompt performs. */
module Dates {
  import opened Wrappers
  import opened Text

  datatype Date = Date(year: int, month: int, day: int)

  predicate IsLeap(y: int) {
    y % 4 == 0 && (y % 100 != 0 || y % 400 == 0)
  }

  function DaysInMonth(y: int, m: int): int
    requires 1 <= m <= 12
  {
    if m == 2 then (if IsLeap(y) then 29 else 28)
    else if m == 4 || m == 6 || m == 9 || m == 11 then 30
    else 31
  }

  /** `datetime.date(year, month, day)` accepts the triple. */
  predicate Valid(d: Date) {
    && 1 <= d.year <= 9999
    && 1 <= d.month <= 12
    && 1 <= d.day <= DaysInMonth(d.year, d.month)
  }

  /** `a < b` on dates: year, then month, then day. */
  predicate Before(a: Date, b: Date) {
    || a.year < b.year
    || (a.year == b.year && a.month < b.month)
    || (a.year == b.year && a.month == b.month && a.day < b.day)
  }

  /** `a <= b` on dates. */
  predicate NotAfter(a: Date, b: Date) {
    !Before(b, a)
  }

  // ---------------------------------------------------------------------
  // Day arithmetic and weekday
  // ---------------------------------------------------------------------

  const First: Date := Date(1, 1, 1)
  const Last: Date := Date(9999, 12, 31)

  /** `d + timedelta(days=1)`. */
  function NextDay(d: Date): Date
    requires Valid(d)
  {
    if d.day < DaysInMonth(d.year, d.month) then Date(d.year, d.month, d.day + 1)
    else if d.month < 12 then Date(d.year, d.month + 1, 1)
    else Date(d.year + 1, 1, 1)
  }

  /** `d - timedelta(days=1)`. */
  function PrevDay(d: Date): Date
    requires Valid(d)
  {
    if d.day > 1 then Date(d.year, d.month, d.day - 1)
    else if d.month > 1 then Date(d.year, d.month - 1, DaysInMonth(d.year, d.month - 1))
    else Date(d.year - 1, 12, 31)
  }

  /** The day after `d` is the earliest date later than `d`. */
  lemma NextDayIsSuccessor(d: Date, e: Date)
    requires Valid(d) && d != Last && Valid(e)
    ensures Valid(NextDay(d)) && Before(d, NextDay(d))
    ensures Before(d, e) ==> NotAfter(NextDay(d), e)
  {
  }

  /** Going back a day and forward again returns to the same date. */
  lemma NextOfPrevDay(d: Date)
    requires Valid(d) && d != First
    ensures Valid(PrevDay(d)) && NextDay(PrevDay(d)) == d
  {
  }

  function DaysBeforeYear(y: int): int
    requires y >= 1
  {
    var p := y - 1;
    p * 365 + p / 4 - p / 100 + p / 400
  }

  /** Days in the year before the first of month `m`, from the table the
      `datetime` module keeps (one more after February in a leap year). */
  function DaysBeforeMonth(y: int, m: int): int
    requires 1 <= m <= 12
  {
    var table := [0, 31, 59, 90, 120, 151, 181, 212, 243, 273, 304, 334];
    table[m - 1] + (if m > 2 && IsLeap(y) then 1 else 0)
  }

  /** `d.toordinal()`: 0001-01-01 is day 1. */
  function Ordinal(d: Date): int
    requires Valid(d)
  {
    DaysBeforeYear(d.year) + DaysBeforeMonth(d.year, d.month) + d.day
  }

  /** `d.weekday()`: 0 is Monday and 6 is Sunday. */
  function Weekday(d: Date): (w: int)
    requires Valid(d)
    ensures 0 <= w < 7
  {
    (Ordinal(d) + 6) % 7
  }

  lemma DivStep(q: int)
    requires q >= 1
    ensures q / 4 - (q - 1) / 4 == (if q % 4 == 0 then 1 else 0)
    ensures q / 100 - (q - 1) / 100 == (if q % 100 == 0 then 1 else 0)
    ensures q / 400 - (q - 1) / 400 == (if q % 400 == 0 then 1 else 0)
  {
  }

  /** A year has 365 days, 366 in a leap year. */
  lemma DaysBeforeNextYear(y: int)
    requires y >= 1
    ensures DaysBeforeYear(y + 1) == DaysBeforeYear(y) + DaysBeforeMonth(y, 12) + 31
  {
    DivStep(y);
    assert y * 365 == (y - 1) * 365 + 365;
  }

  /** Each day's ordinal is one more than the day before's. */
  lemma {:induction false} NextDayOrdinal(d: Date)
    requires Valid(d) && d != Last
    ensures Valid(NextDay(d)) && Ordinal(NextDay(d)) == Ordinal(d) + 1
  {
    if d.day == DaysInMonth(d.year, d.month) && d.month == 12 {
      DaysBeforeNextYear(d.year);
    }
  }

  /** The weekday advances by one, Sunday wrapping to Monday. */
  lemma NextDayWeekday(d: Date)
    requires Valid(d) && d != Last
    ensures Valid(NextDay(d)) && Weekday(NextDay(d)) == (Weekday(d) + 1) % 7
  {
    NextDayOrdinal(d);
    WeekStep(Ordinal(d) + 6);
  }

  lemma WeekStep(n: int)
    ensures (n + 1) % 7 == (n % 7 + 1) % 7
  {
    var q, r := n / 7, n % 7;
    if r < 6 {
      assert n + 1 == 7 * q + (r + 1);
    } else {
      assert n + 1 == 7 * (q + 1);
    }
  }

  /** 0001-01-01 was a Monday and 2024-03-05 a Tuesday. */
  lemma WeekdayAnchors()
    ensures Weekday(First) == 0
    ensures Weekday(Date(2024, 3, 5)) == 1
  {
    assert IsLeap(2024);
    assert DaysBeforeYear(2024) == 738885;
    assert Ordinal(Date(2024, 3, 5)) == 738950;
  }

  // ---------------------------------------------------------------------
  // Text forms
  // ---------------------------------------------------------------------

  /** `str(d)`: `YYYY-MM-DD`, zero-padded. */
  function FormatDate(d: Date): string
    requires Valid(d)
  {
    PadDigits(d.year, 4) + "-" + PadDigits(d.month, 2) + "-" + PadDigits(d.day, 2)
  }

  /** `f"{d.year}-{d.month:02d}"`: the month folder name (the year is not padded). */
  function MonthKey(d: Date): string
    requires Valid(d)
  {
    NatToString(d.year) + "-" + PadDigits(d.month, 2)
  }

  /** The `%m` field and the index just past the `-` that must follow it.
      The alternatives `1[0-2]`, `0[1-9]`, `[1-9]` are tried in this order,
      backtracking when the `-` is missing. */
  function MonthField(s: string): Option<(int, nat)>
    requires |s| >= 5
  {
    if |s| >= 8 && s[5] == '1' && '0' <= s[6] <= '2' && s[7] == '-' then Some((10 + DigitValue(s[6]), 8))
    else if |s| >= 8 && s[5] == '0' && '1' <= s[6] <= '9' && s[7] == '-' then Some((DigitValue(s[6]), 8))
    else if |s| >= 7 && '1' <= s[5] <= '9' && s[6] == '-' then Some((DigitValue(s[5]), 7))
    else None
  }

  /** The `%d` field, which must reach the end of the text. The regular
      expression stops at the first alternative of `3[01]|[12]\d|0[1-9]|[1-9]| [1-9]`
      that matches, and only then is leftover text refused. */
  function DayField(t: string): Option<int> {
    if |t| >= 2 && t[0] == '3' && '0' <= t[1] <= '1' then
      (if |t| == 2 then Some(30 + DigitValue(t[1])) else None)
    else if |t| >= 2 && '1' <= t[0] <= '2' && IsDigit(t[1]) then
      (if |t| == 2 then Some(10 * DigitValue(t[0]) + DigitValue(t[1])) else None)
    else if |t| >= 2 && t[0] == '0' && '1' <= t[1] <= '9' then
      (if |t| == 2 then Some(DigitValue(t[1])) else None)
    else if |t| >= 1 && '1' <= t[0] <= '9' then
      (if |t| == 1 then Some(DigitValue(t[0])) else None)
    else if |t| >= 2 && t[0] == ' ' && '1' <= t[1] <= '9' then
      (if |t| == 2 then Some(DigitValue(t[1])) else None)
    else None
  }

  /** `datetime.strptime(s, "%Y-%m-%d").date()`, with `None` where it raises:
      a field that does not match, text left over, or a triple that is not
      a calendar date. */
  function ParseDate(s: string): (r: Option<Date>)
    ensures r.Some? ==> Valid(r.value)
  {
    if |s| < 5 || !(IsDigit(s[0]) && IsDigit(s[1]) && IsDigit(s[2]) && IsDigit(s[3])) || s[4] != '-' then None
    else
      match MonthField(s)
      case None => None
      case Some((month, k)) =>
        match DayField(s[k..])
        case None => None
        case Some(day) =>
          var d := Date(DecimalValue(s[..4]), month, day);
          if Valid(d) then Some(d) else None
  }

  /** Text of the shape `DDDD-DD-DD` in ASCII digits. */
  predicate IsoShaped(s: string) {
    |s| == 10 && s[4] == '-' && s[7] == '-'
    && AllDigits(s[..4]) && AllDigits(s[5..7]) && AllDigits(s[8..])
  }

  /** `strptime` reads back what `str(date)` writes. */
  lemma ParseFormat(d: Date)
    requires Valid(d)
    ensures IsoShaped(FormatDate(d))
    ensures ParseDate(FormatDate(d)) == Some(d)
  {
    var s := FormatDate(d);
    var ys, ms, ds := PadDigits(d.year, 4), PadDigits(d.month, 2), PadDigits(d.day, 2);
    PadDigitsDigits(d.year, 4);
    PadDigitsValue(d.year, 4);
    PadDigitsDigits(d.month, 2);
    PadDigitsDigits(d.day, 2);
    FieldsAt(ys, ms, ds);
    MonthFieldPad(s, d.month);
    DayFieldPad(s[8..], d.day);
  }

  /** Where the three fields of `str(date)` sit. */
  lemma FieldsAt(ys: string, ms: string, ds: string)
    requires |ys| == 4 && |ms| == 2 && |ds| == 2
    ensures var s := ys + "-" + ms + "-" + ds;
      |s| == 10 && s[..4] == ys && s[4] == '-' && s[5..7] == ms && s[7] == '-' && s[8..] == ds
  {
  }

  lemma MonthFieldPad(s: string, m: int)
    requires 1 <= m <= 12 && |s| >= 8 && s[5..7] == PadDigits(m, 2) && s[7] == '-'
    ensures MonthField(s) == Some((m, 8))
  {
    assert PadDigits(m, 2) == [DigitChar(m / 10), DigitChar(m % 10)];
    assert s[5] == DigitChar(m / 10) && s[6] == DigitChar(m % 10);
  }

  lemma DayFieldPad(t: string, day: int)
    requires 1 <= day <= 31 && t == PadDigits(day, 2)
    ensures DayField(t) == Some(day)
  {
    assert PadDigits(day, 2) == [DigitChar(day / 10), DigitChar(day % 10)];
  }

  /** A date in canonical `YYYY-MM-DD` form is exactly `str()` of the date it
      parses to. */
  lemma FormatParse(s: string)
    requires IsoShaped(s) && ParseDate(s).Some?
    ensures FormatDate(ParseDate(s).value) == s
  {
    var d := ParseDate(s).value;
    var y, m, dd := s[..4], s[5..7], s[8..];
    assert AllDigits(y) && AllDigits(m) && AllDigits(dd);
    PadDigitsOfDigits(y);
    PadDigitsOfDigits(m);
    PadDigitsOfDigits(dd);
    assert m[..1] == [m[0]] && dd[..1] == [dd[0]];
    assert DayField(s[7..]) == None;
    DecimalValueTwo(m);
    DecimalValueTwo(dd);
    assert d.month == DecimalValue(m);
    assert d.day == DecimalValue(dd);
    assert s == y + "-" + m + "-" + dd;
  }

  lemma DecimalValueTwo(ds: string)
    requires |ds| == 2 && AllDecimal(ds)
    ensures DecimalValue(ds) == DigitValue(ds[0]) * 10 + DigitValue(ds[1])
  {
    var one := ds[..1];
    assert one[..0] == [] && one[0] == ds[0];
    assert DecimalValue(one) == DigitValue(ds[0]);
  }

  /** `a-b-c` strings with equally long fields compare field by field. */
  lemma LexFields(a: string, b: string, c: string, a': string, b': string, c': string)
    requires |a| == |a'| && |b| == |b'|
    ensures LexLess(a + "-" + b + "-" + c, a' + "-" + b' + "-" + c') <==>
              || LexLess(a, a')
              || (a == a' && LexLess(b, b'))
              || (a == a' && b == b' && LexLess(c, c'))
  {
    LexIrreflexive("-");
    assert a + "-" + b + "-" + c == a + ("-" + (b + ("-" + c)));
    assert a' + "-" + b' + "-" + c' == a' + ("-" + (b' + ("-" + c')));
    LexConcat(a, "-" + (b + ("-" + c)), a', "-" + (b' + ("-" + c')));
    LexConcat("-", b + ("-" + c), "-", b' + ("-" + c'));
    LexConcat(b, "-" + c, b', "-" + c');
    LexConcat("-", c, "-", c');
  }

  /** Chronological order of two dates is the string order of their `str()`
      forms. */
  lemma FormatOrder(d: Date, e: Date)
    requires Valid(d) && Valid(e)
    ensures LexLess(FormatDate(d), FormatDate(e)) <==> Before(d, e)
  {
    PadDigitsOrder(d.year, e.year, 4);
    PadDigitsOrder(d.month, e.month, 2);
    PadDigitsOrder(d.day, e.day, 2);
    PadDigitsValue(d.year, 4);
    PadDigitsValue(e.year, 4);
    PadDigitsValue(d.month, 2);
    PadDigitsValue(e.month, 2);
    LexFields(PadDigits(d.year, 4), PadDigits(d.month, 2), PadDigits(d.day, 2),
              PadDigits(e.year, 4), PadDigits(e.month, 2), PadDigits(e.day, 2));
  }

  // ---------------------------------------------------------------------
  // The end of the requested range
  // ---------------------------------------------------------------------

  /** The `end_day` expression of the date-range prompt: the day before the
      first of the following month when the month is below 12, and 31
      otherwise. Building a date that does not exist raises. */
  function EndDay(endYear: int, endMonth: int): (r: Result<int>)
    ensures 1 <= endYear <= 9999 && 1 <= endMonth <= 12 ==>
              r == Success(DaysInMonth(endYear, endMonth))
  {
    if endMonth < 12 then
      var first := Date(endYear, endMonth + 1, 1);
      if !Valid(first) || first == First then Failure(InvalidDate)
      else Success(PrevDay(first).day)
    else Success(31)
  }

  /** `start_date` and `end_date` from the four numbers typed at the prompt:
      the first day of the start month and the last day of the end month. */
  function ResolveRange(startYear: int, startMonth: int, endYear: int, endMonth: int): (r: Result<(Date, Date)>)
    ensures r.Success? <==> (1 <= startYear <= 9999 && 1 <= startMonth <= 12
                             && 1 <= endYear <= 9999 && 1 <= endMonth <= 12)
    ensures r.Success? ==> r.value.0 == Date(startYear, startMonth, 1)
    ensures r.Success? ==> var e := r.value.1;
              && Valid(e) && e.year == endYear && e.month == endMonth
              && !Valid(Date(endYear, endMonth, e.day + 1))
  {
    var start := Date(startYear, startMonth, 1);
    if !Valid(start) then Failure(InvalidDate)
    else
      match EndDay(endYear, endMonth)
      case Failure(err) => Failure(err)
      case Success(day) =>
        var end := Date(endYear, endMonth, day);
        if Valid(end) then Success((start, end)) else Failure(InvalidDate)
  }
}

=== FILE: export.dfy ===
/** Turning diary records into Markdown files, in the two exporter
    generations: `plan.py` (`DiaryDownloader`) and `main.py`. Covered here:
    the per-diary text and file layout, the date filters, the order of
    `main.py`'s output, the per-month image bookkeeping and the download
    task list. */
module Export {
  import opened Wrappers
  import opened Text
  import opened Dates
  import opened Privacy
  import opened MainPrivacy
  import opened Images
  import opened Sorting

  /** A diary record. Text fields the service leaves out are empty;
      `weekday` is the service's own label (used by `main.py` only) and
      `imageIds` is filled in by `plan.py` after decryption. */
  datatype Diary = Diary(
    id: int,
    createddate: string,
    title: string,
    content: string,
    weather: string,
    mood: string,
    weekday: string,
    imageIds: set<nat>)

  // ---------------------------------------------------------------------
  // Paths
  // ---------------------------------------------------------------------

  /** `os.path.join(a, b)` on POSIX: an absolute `b` replaces `a`, and a
      separator is added unless `a` is empty or already ends in one. */
  function PathJoin(a: string, b: string): (r: string)
    ensures |b| > 0 && b[0] == '/' ==> r == b
    ensures !(|b| > 0 && b[0] == '/') ==> |r| >= |a| + |b| && r[..|a|] == a && r[|r| - |b|..] == b
    ensures !(|b| > 0 && b[0] == '/') && a != [] && a[|a| - 1] != '/' ==> |r| > |a| && r[|a|] == '/'
  {
    if |b| > 0 && b[0] == '/' then b
    else if a == [] || a[|a| - 1] == '/' then a + b
    else a + "/" + b
  }

  // ---------------------------------------------------------------------
  // plan.py: get_full_diary_content
  // ---------------------------------------------------------------------

  /** The record `get_full_diary_content` builds: non-empty content is
      decrypted with the author's key and then searched for image ids;
      empty content has none. */
  function Enrich(c: Crypto, d: Diary, authorId: Option<int>): (r: Diary)
    ensures r.id == d.id && r.createddate == d.createddate && r.title == d.title
    ensures r.weather == d.weather && r.mood == d.mood
    ensures d.content == [] ==> r.content == [] && r.imageIds == {}
    ensures d.content != [] ==> r.content == DecryptPlan(c, PlanMarkers, d.content, authorId)
    ensures r.imageIds == ImageIds(r.content)
  {
    MarkersUsable();
    if d.content == [] then d.(imageIds := {})
    else
      var content := DecryptPlan(c, PlanMarkers, d.content, authorId);
      d.(content := content, imageIds := ImageIds(content))
  }

  // ---------------------------------------------------------------------
  // plan.py: save_diary_markdown
  // ---------------------------------------------------------------------

  const WeekdayNames: seq<string> := ["星期一", "星期二", "星期三", "星期四", "星期五", "星期六", "星期日"]

  /** A line indented by four spaces loses exactly those four. */
  function DropIndent(line: string): (r: string)
    ensures |line| >= 4 && line[..4] == "    " ==> line == "    " + r
    ensures !(|line| >= 4 && line[..4] == "    ") ==> r == line
  {
    if |line| >= 4 && line[..4] == "    " then line[4..] else line
  }

  function DropIndents(ls: seq<string>): (r: seq<string>)
    ensures |r| == |ls| && forall i :: 0 <= i < |ls| ==> r[i] == DropIndent(ls[i])
  {
    if ls == [] then [] else [DropIndent(ls[0])] + DropIndents(ls[1..])
  }

  /** The de-indent step: split on line breaks, drop each line's leading
      four spaces, join again. */
  function DeIndent(content: string): string {
    Join(DropIndents(Split(content, '\n')), "\n")
  }

  /** Read back line by line, the de-indented text has exactly the source's
      lines, each without a leading four-space indent. */
  lemma DeIndentLines(content: string)
    ensures Split(DeIndent(content), '\n') == DropIndents(Split(content, '\n'))
  {
    var ls := DropIndents(Split(content, '\n'));
    forall i | 0 <= i < |ls| ensures '\n' !in ls[i] {
      var line := Split(content, '\n')[i];
      assert '\n' !in line;
      if |line| >= 4 && line[..4] == "    " {
        assert ls[i] == line[4..];
      }
    }
    SplitJoin(ls, '\n');
  }

  /** A text without indented lines passes unchanged. */
  lemma DeIndentUnindented(content: string)
    requires forall i :: 0 <= i < |Split(content, '\n')| ==> !(|Split(content, '\n')[i]| >= 4 && Split(content, '\n')[i][..4] == "    ")
    ensures DeIndent(content) == content
  {
    var ls := Split(content, '\n');
    assert DropIndents(ls) == ls;
    JoinSplit(content, '\n');
  }

  /** The weather and mood line without its `**` markers. */
  function Tags(weather: string, mood: string): (r: string)
    ensures weather != [] && mood != [] ==> r == "天气: " + weather + " | 心情: " + mood
    ensures weather != [] && mood == [] ==> r == "天气: " + weather
    ensures weather == [] && mood != [] ==> r == "心情: " + mood
  {
    var tags := (if weather != [] then ["天气: " + weather] else []) + (if mood != [] then ["心情: " + mood] else []);
    assert weather != [] && mood == [] ==> tags == ["天气: " + weather];
    assert weather == [] && mood != [] ==> tags == ["心情: " + mood];
    assert weather != [] && mood != [] ==> Join(tags, " | ") == tags[0] + " | " + Join(tags[1..], " | ");
    assert weather != [] && mood != [] ==> tags[1..] == ["心情: " + mood];
    Join(tags, " | ")
  }

  /** The lines of a `plan.py` Markdown file: the header and a blank line,
      `# title` and a blank line when there is a title, the tag line and a
      blank line when there is weather or mood, the body, and a final empty
      line. */
  function PlanLines(dateStr: string, weekday: string, title: string,
                     weather: string, mood: string, body: string): (ls: seq<string>)
    ensures var t := if title != [] then 2 else 0;
            var g := if weather != [] || mood != [] then 2 else 0;
            && |ls| == 4 + t + g
            && ls[0] == "==" + dateStr + " " + weekday + "==" && ls[1] == ""
            && (title != [] ==> ls[2] == "# " + title && ls[3] == "")
            && (weather != [] || mood != [] ==> ls[2 + t] == "**" + Tags(weather, mood) + "**" && ls[3 + t] == "")
            && ls[|ls| - 2] == body && ls[|ls| - 1] == ""
  {
    ["==" + dateStr + " " + weekday + "==", ""]
    + (if title != [] then ["# " + title, ""] else [])
    + (if weather != [] || mood != [] then ["**" + Tags(weather, mood) + "**", ""] else [])
    + [body, ""]
  }

  /** What `save_diary_markdown` writes and returns. */
  datatype Saved = Saved(
    filePath: string,
    monthFolder: string,
    yearMonth: string,
    picturesFolder: string,
    text: string,
    imageIds: set<nat>)

  /** `save_diary_markdown(diary, base_folder)`: nothing for an empty or
      unparsable date; otherwise the file `<base>/markdown/<YYYY-MM>/<date>.md`
      named after the date text as given, with the weekday computed from
      the date, the content de-indented and its placeholders turned into
      links to the month's `Pictures` folder. */
  function PlanSave(d: Diary, base: string): (r: Option<Saved>)
    ensures r.None? <==> d.createddate == [] || ParseDate(d.createddate).None?
    ensures r.Some? ==>
              var date := ParseDate(d.createddate).value;
              && r.value.yearMonth == MonthKey(date)
              && r.value.monthFolder == PathJoin(PathJoin(base, "markdown"), MonthKey(date))
              && r.value.picturesFolder == PathJoin(r.value.monthFolder, "Pictures")
              && r.value.filePath == PathJoin(r.value.monthFolder, d.createddate + ".md")
              && r.value.imageIds == d.imageIds
              && r.value.text == Join(PlanLines(d.createddate, WeekdayNames[Weekday(date)], d.title,
                                                d.weather, d.mood, Rewrite(DeIndent(d.content), PlanLink)), "\n")
  {
    if d.createddate == [] then None
    else
      match ParseDate(d.createddate)
      case None => None
      case Some(date) =>
        var ym := MonthKey(date);
        var folder := PathJoin(PathJoin(base, "markdown"), ym);
        var body := Rewrite(DeIndent(d.content), PlanLink);
        var lines := PlanLines(d.createddate, WeekdayNames[Weekday(date)], d.title, d.weather, d.mood, body);
        Some(Saved(PathJoin(folder, d.createddate + ".md"), folder, ym,
                   PathJoin(folder, "Pictures"), Join(lines, "\n"), d.imageIds))
  }

  /** The month folder name is `YYYY-MM` with a two-digit month, and the
      four-digit year of every date from year 1000 on. */
  lemma MonthKeyShape(d: Date)
    requires Valid(d) && d.year >= 1000
    ensures |MonthKey(d)| == 7 && MonthKey(d)[4] == '-'
    ensures MonthKey(d) == FormatDate(d)[..7]
  {
    NatToStringFourDigits(d.year);
    assert FormatDate(d) == MonthKey(d) + "-" + PadDigits(d.day, 2);
  }

  /** Every file `plan.py` writes starts with the header naming its date
      and weekday followed by a blank line, and ends with the body followed
      by a line break. */
  lemma PlanTextFraming(dateStr: string, weekday: string, title: string,
                        weather: string, mood: string, body: string)
    ensures var text := Join(PlanLines(dateStr, weekday, title, weather, mood, body), "\n");
            var header := "==" + dateStr + " " + weekday + "==";
            && |text| >= |header| + 2 && text[..|header| + 2] == header + "\n\n"
            && |text| >= |body| + 1 && text[|text| - |body| - 1..] == body + "\n"
  {
    var ls := PlanLines(dateStr, weekday, title, weather, mood, body);
    JoinFraming(ls, "\n");
    JoinFront(ls, "\n");
    assert ls[0] + "\n" + ls[1] + "\n" == "==" + dateStr + " " + weekday + "==" + "\n\n";
    assert ls[|ls| - 2] + "\n" + ls[|ls| - 1] == body + "\n";
  }

  /** When no field holds a line break, the file reads back line by line as
      exactly the lines that were written. */
  lemma PlanTextLines(dateStr: string, weekday: string, title: string,
                      weather: string, mood: string, body: string)
    requires '\n' !in dateStr && '\n' !in weekday && '\n' !in title
    requires '\n' !in weather && '\n' !in mood && '\n' !in body
    ensures Split(Join(PlanLines(dateStr, weekday, title, weather, mood, body), "\n"), '\n')
            == PlanLines(dateStr, weekday, title, weather, mood, body)
  {
    var ls := PlanLines(dateStr, weekday, title, weather, mood, body);
    var t := Tags(weather, mood);
    assert '\n' !in t;
    assert forall i :: 0 <= i < |ls| ==> '\n' !in ls[i];
    SplitJoin(ls, '\n');
  }

  /** Joining keeps the last two elements at the back. */
  lemma {:induction false} JoinFraming(ls: seq<string>, sep: string)
    requires |ls| >= 2
    ensures var j := Join(ls, sep);
            var tail := ls[|ls| - 2] + sep + ls[|ls| - 1];
            |j| >= |tail| && j[|j| - |tail|..] == tail
    decreases |ls|
  {
    if |ls| > 2 {
      JoinFraming(ls[1..], sep);
      assert Join(ls, sep) == ls[0] + sep + Join(ls[1..], sep);
      assert ls[1..][|ls[1..]| - 2] == ls[|ls| - 2];
    } else {
      assert Join(ls, sep) == ls[0] + sep + Join(ls[1..], sep);
      assert Join(ls[1..], sep) == ls[1];
    }
  }

  /** Joining keeps the first two elements at the front. */
  lemma JoinFront(ls: seq<string>, sep: string)
    requires |ls| >= 3
    ensures var j := Join(ls, sep);
            |j| >= |ls[0]| + |sep| + |ls[1]| + |sep|
            && j[..|ls[0]| + |sep| + |ls[1]| + |sep|] == ls[0] + sep + ls[1] + sep
  {
    assert Join(ls, sep) == ls[0] + sep + Join(ls[1..], sep);
    assert Join(ls[1..], sep) == ls[1] + sep + Join(ls[2..], sep);
  }

  // ---------------------------------------------------------------------
  // plan.py: the per-month image map and the download tasks
  // ---------------------------------------------------------------------

  /** One entry of `month_image_map`: the pictures folder of the first
      diary saved for the month, and the union of the month's image ids. */
  datatype Bucket = Bucket(month: string, folder: string, ids: set<nat>)

  predicate DistinctMonths(gs: seq<Bucket>) {
    forall i, j :: 0 <= i < j < |gs| ==> gs[i].month != gs[j].month
  }

  function MonthsOf(gs: seq<Bucket>): set<string> {
    set i | 0 <= i < |gs| :: gs[i].month
  }

  /** Where month `m` sits in the map, if it is there. */
  function MonthIndex(gs: seq<Bucket>, m: string): (r: Option<nat>)
    ensures r.Some? ==> r.value < |gs| && gs[r.value].month == m
    ensures r.None? ==> m !in MonthsOf(gs)
    decreases |gs|
  {
    if gs == [] then None
    else if gs[|gs| - 1].month == m then Some(|gs| - 1)
    else
      var r := MonthIndex(gs[..|gs| - 1], m);
      assert r.None? ==> forall i :: 0 <= i < |gs| ==> gs[i].month != m by {
        if r.None? {
          forall i | 0 <= i < |gs| - 1 ensures gs[i].month != m {
            assert gs[..|gs| - 1][i] == gs[i];
          }
        }
      }
      r
  }

  /** Records one saved diary: an unseen month is added with the diary's
      pictures folder, and the diary's ids join the month's set. */
  function AddSaved(gs: seq<Bucket>, s: Saved): (r: seq<Bucket>)
    requires DistinctMonths(gs)
    ensures DistinctMonths(r)
    ensures MonthsOf(r) == MonthsOf(gs) + {s.yearMonth}
    ensures |r| == |gs| <==> s.yearMonth in MonthsOf(gs)
    ensures |r| != |gs| ==> r == gs + [Bucket(s.yearMonth, s.picturesFolder, s.imageIds)]
    ensures forall i :: 0 <= i < |gs| ==> r[i].month == gs[i].month && r[i].folder == gs[i].folder
    ensures forall i :: 0 <= i < |gs| ==>
              r[i].ids == gs[i].ids + (if gs[i].month == s.yearMonth then s.imageIds else {})
  {
    match MonthIndex(gs, s.yearMonth)
    case Some(k) =>
      var r := gs[k := gs[k].(ids := gs[k].ids + s.imageIds)];
      assert MonthsOf(r) == MonthsOf(gs) by {
        forall m | m in MonthsOf(gs) ensures m in MonthsOf(r) {
          var i :| 0 <= i < |gs| && gs[i].month == m;
          assert r[i].month == m;
        }
      }
      r
    case None =>
      var r := gs + [Bucket(s.yearMonth, s.picturesFolder, s.imageIds)];
      assert MonthsOf(r) == MonthsOf(gs) + {s.yearMonth} by {
        forall m | m in MonthsOf(gs) ensures m in MonthsOf(r) {
          var i :| 0 <= i < |gs| && gs[i].month == m;
          assert r[i].month == m;
        }
        assert r[|gs|].month == s.yearMonth;
      }
      r
  }

  /** The month map after saving each diary in turn; diaries whose save
      returned nothing are skipped. */
  function Group(saves: seq<Option<Saved>>): (gs: seq<Bucket>)
    ensures DistinctMonths(gs)
    decreases |saves|
  {
    if saves == [] then []
    else
      var g := Group(saves[..|saves| - 1]);
      match saves[|saves| - 1]
      case None => g
      case Some(s) => AddSaved(g, s)
  }

  /** The months some saved diary falls in. */
  function SavedMonths(saves: seq<Option<Saved>>): set<string> {
    set i | 0 <= i < |saves| && saves[i].Some? :: saves[i].value.yearMonth
  }

  /** The image ids of the saved diaries of month `m`. */
  function MonthIds(saves: seq<Option<Saved>>, m: string): set<nat> {
    set i, n | 0 <= i < |saves| && saves[i].Some? && saves[i].value.yearMonth == m
               && n in saves[i].value.imageIds :: n
  }

  /** What one more save adds to the reference sets. */
  lemma SavedStep(saves: seq<Option<Saved>>, m: string)
    requires saves != []
    ensures var init := saves[..|saves| - 1];
            var last := saves[|saves| - 1];
            && SavedMonths(saves) == SavedMonths(init) + (if last.Some? then {last.value.yearMonth} else {})
            && MonthIds(saves, m) == MonthIds(init, m)
                 + (if last.Some? && last.value.yearMonth == m then last.value.imageIds else {})
  {
    var init := saves[..|saves| - 1];
    var last := saves[|saves| - 1];
    forall x | x in SavedMonths(init) ensures x in SavedMonths(saves) {
      var i :| 0 <= i < |init| && init[i].Some? && init[i].value.yearMonth == x;
      assert saves[i] == init[i];
    }
    forall x | x in SavedMonths(saves) ensures x in SavedMonths(init) || (last.Some? && x == last.value.yearMonth) {
      var i :| 0 <= i < |saves| && saves[i].Some? && saves[i].value.yearMonth == x;
      if i < |init| {
        assert init[i] == saves[i];
      }
    }
    if last.Some? {
      assert last.value.yearMonth in SavedMonths(saves);
    }
    forall n | n in MonthIds(init, m) ensures n in MonthIds(saves, m) {
      var i :| 0 <= i < |init| && init[i].Some? && init[i].value.yearMonth == m && n in init[i].value.imageIds;
      assert saves[i] == init[i];
    }
    forall n | n in MonthIds(saves, m)
      ensures n in MonthIds(init, m) || (last.Some? && last.value.yearMonth == m && n in last.value.imageIds)
    {
      var i :| 0 <= i < |saves| && saves[i].Some? && saves[i].value.yearMonth == m && n in saves[i].value.imageIds;
      if i < |init| {
        assert init[i] == saves[i];
      }
    }
    if last.Some? && last.value.yearMonth == m {
      forall n | n in last.value.imageIds ensures n in MonthIds(saves, m) {
        assert saves[|saves| - 1] == last;
      }
    }
  }

  /** The map has a bucket for exactly the months some saved diary falls
      in, and each bucket holds the ids of all of that month's diaries. */
  lemma {:induction false} GroupContents(saves: seq<Option<Saved>>)
    ensures MonthsOf(Group(saves)) == SavedMonths(saves)
    ensures forall i :: 0 <= i < |Group(saves)| ==> Group(saves)[i].ids == MonthIds(saves, Group(saves)[i].month)
    decreases |saves|
  {
    if saves != [] {
      var init := saves[..|saves| - 1];
      GroupContents(init);
      var g := Group(init);
      var gs := Group(saves);
      SavedStep(saves, "");
      forall i | 0 <= i < |gs| ensures gs[i].ids == MonthIds(saves, gs[i].month) {
        SavedStep(saves, gs[i].month);
        match saves[|saves| - 1]
        case None =>
        case Some(s) =>
          if i >= |g| {
            assert gs[i].month == s.yearMonth && s.yearMonth !in MonthsOf(g);
          }
      }
    }
  }

  /** The download tasks: one per month and id of that month. */
  function Tasks(gs: seq<Bucket>): set<(string, nat)> {
    set i, n | 0 <= i < |gs| && n in gs[i].ids :: (gs[i].month, n)
  }

  /** `total_images`: the sum of the bucket sizes. */
  function TotalImages(gs: seq<Bucket>): nat {
    if gs == [] then 0 else TotalImages(gs[..|gs| - 1]) + |gs[|gs| - 1].ids|
  }

  /** The tasks of one month. */
  function MonthTasks(m: string, ids: set<nat>): set<(string, nat)> {
    set n | n in ids :: (m, n)
  }

  lemma {:induction false} MonthTasksSize(m: string, ids: set<nat>)
    ensures |MonthTasks(m, ids)| == |ids|
    decreases |ids|
  {
    if ids != {} {
      var x :| x in ids;
      MonthTasksSize(m, ids - {x});
      assert MonthTasks(m, ids) == MonthTasks(m, ids - {x}) + {(m, x)};
    }
  }

  /** The tasks of all months but the last, and those of the last. */
  lemma TasksSplit(gs: seq<Bucket>)
    requires gs != [] && DistinctMonths(gs)
    ensures var init := gs[..|gs| - 1];
            var last := gs[|gs| - 1];
            && Tasks(gs) == Tasks(init) + MonthTasks(last.month, last.ids)
            && Tasks(init) !! MonthTasks(last.month, last.ids)
  {
    var init := gs[..|gs| - 1];
    var last := gs[|gs| - 1];
    forall t | t in Tasks(gs) ensures t in Tasks(init) + MonthTasks(last.month, last.ids) {
      var i, n :| 0 <= i < |gs| && n in gs[i].ids && t == (gs[i].month, n);
      if i < |init| {
        assert init[i] == gs[i];
      }
    }
    forall t | t in Tasks(init) ensures t in Tasks(gs) && t !in MonthTasks(last.month, last.ids) {
      var i, n :| 0 <= i < |init| && n in init[i].ids && t == (init[i].month, n);
      assert gs[i] == init[i];
    }
    forall t | t in MonthTasks(last.month, last.ids) ensures t in Tasks(gs) {
      var n :| n in last.ids && t == (last.month, n);
      assert gs[|gs| - 1] == last;
    }
  }

  /** Months are distinct, so no task is counted twice: the number of
      download tasks is the sum of the per-month set sizes, and an id used
      by several diaries of one month is fetched once for that month. */
  lemma {:induction false} TaskCount(gs: seq<Bucket>)
    requires DistinctMonths(gs)
    ensures |Tasks(gs)| == TotalImages(gs)
    decreases |gs|
  {
    if gs != [] {
      var init := gs[..|gs| - 1];
      var last := gs[|gs| - 1];
      assert DistinctMonths(init) by {
        forall i, j | 0 <= i < j < |init| ensures init[i].month != init[j].month {
          assert init[i] == gs[i] && init[j] == gs[j];
        }
      }
      TaskCount(init);
      MonthTasksSize(last.month, last.ids);
      TasksSplit(gs);
    }
  }

  // ---------------------------------------------------------------------
  // Date filters
  // ---------------------------------------------------------------------

  /** The diary's date parses and lies within `start..end`, both ends
      included. */
  predicate InRange(d: Diary, start: Date, end: Date) {
    ParseDate(d.createddate).Some?
    && NotAfter(start, ParseDate(d.createddate).value)
    && NotAfter(ParseDate(d.createddate).value, end)
  }

  /** The elements satisfying `p`, in their order. */
  function Keep<T(!new)>(xs: seq<T>, p: T -> bool): (r: seq<T>)
    ensures forall x :: x in r <==> x in xs && p(x)
    ensures forall x :: multiset(r)[x] == if p(x) then multiset(xs)[x] else 0
    ensures |r| <= |xs|
    decreases |xs|
  {
    if xs == [] then []
    else
      assert xs == [xs[0]] + xs[1..];
      (if p(xs[0]) then [xs[0]] else []) + Keep(xs[1..], p)
  }

  /** Filtering runs through the list in order: the part kept from a
      concatenation is the part kept from the front followed by the part
      kept from the back. */
  lemma {:induction false} KeepConcat<T(!new)>(xs: seq<T>, ys: seq<T>, p: T -> bool)
    ensures Keep(xs + ys, p) == Keep(xs, p) + Keep(ys, p)
    decreases |xs|
  {
    if xs == [] {
      assert xs + ys == ys;
    } else {
      assert (xs + ys)[0] == xs[0];
      assert (xs + ys)[1..] == xs[1..] + ys;
      KeepConcat(xs[1..], ys, p);
    }
  }

  /** Keeping what is kept again changes nothing. */
  lemma {:induction false} KeepIdempotent<T(!new)>(xs: seq<T>, p: T -> bool)
    ensures Keep(Keep(xs, p), p) == Keep(xs, p)
    decreases |xs|
  {
    if xs != [] {
      KeepIdempotent(xs[1..], p);
      var rest := Keep(xs[1..], p);
      if p(xs[0]) {
        assert Keep(xs, p) == [xs[0]] + rest;
        assert ([xs[0]] + rest)[1..] == rest;
        assert Keep([xs[0]] + rest, p) == [xs[0]] + Keep(rest, p);
      } else {
        assert Keep(xs, p) == rest;
      }
    }
  }

  /** Nothing is dropped when everything satisfies `p`. */
  lemma {:induction false} KeepAll<T(!new)>(xs: seq<T>, p: T -> bool)
    requires forall i :: 0 <= i < |xs| ==> p(xs[i])
    ensures Keep(xs, p) == xs
    decreases |xs|
  {
    if xs != [] {
      KeepAll(xs[1..], p);
    }
  }

  /** `plan.py`'s filter in `main()`: keeps, in order, the diaries within
      the range; an empty or unparsable date is dropped silently. */
  function PlanFilter(ds: seq<Diary>, start: Date, end: Date): (r: seq<Diary>)
    ensures forall d :: d in r <==> d in ds && InRange(d, start, end)
  {
    Keep(ds, d => InRange(d, start, end))
  }

  /** The filter keeps the input order: a diary kept from an earlier part
      of the list comes before one kept from a later part, and a single
      diary is kept exactly when it is in range. */
  lemma PlanFilterInOrder(xs: seq<Diary>, ys: seq<Diary>, start: Date, end: Date)
    ensures PlanFilter(xs + ys, start, end) == PlanFilter(xs, start, end) + PlanFilter(ys, start, end)
    ensures forall d :: PlanFilter([d], start, end) == if InRange(d, start, end) then [d] else []
  {
    KeepConcat(xs, ys, d => InRange(d, start, end));
    forall d ensures PlanFilter([d], start, end) == if InRange(d, start, end) then [d] else [] {
      assert [d][1..] == [];
    }
  }

  /** The first diary whose date `strptime` refuses, if any. */
  function FirstUnparsable(ds: seq<Diary>): (r: Option<string>)
    ensures r.None? <==> forall i :: 0 <= i < |ds| ==> ParseDate(ds[i].createddate).Some?
    ensures r.Some? ==> ParseDate(r.value).None?
    decreases |ds|
  {
    if ds == [] then None
    else if ParseDate(ds[0].createddate).None? then Some(ds[0].createddate)
    else FirstUnparsable(ds[1..])
  }

  function CreatedDate(d: Diary): string {
    d.createddate
  }

  /** `main.py`'s `filter_diaries_by_date`: every date is parsed, and one
      that does not parse raises; the diaries within the range are then
      sorted stably by their date text, ascending when `oldToNew` and
      descending otherwise. */
  function MainFilter(ds: seq<Diary>, start: Date, end: Date, oldToNew: bool): (r: Result<seq<Diary>>)
    ensures r.Failure? <==> exists i :: 0 <= i < |ds| && ParseDate(ds[i].createddate).None?
    ensures r.Failure? ==> r.error.UnparsableDate? && ParseDate(r.error.text).None?
    ensures r.Success? ==> multiset(r.value) == multiset(PlanFilter(ds, start, end))
  {
    match FirstUnparsable(ds)
    case Some(text) => Failure(UnparsableDate(text))
    case None => Success(SortBy(PlanFilter(ds, start, end), CreatedDate, !oldToNew))
  }

  /** The result of `filter_diaries_by_date` is ordered by date text and,
      among equal dates, keeps the input order. */
  lemma MainFilterOrder(ds: seq<Diary>, start: Date, end: Date, oldToNew: bool, k: string)
    requires MainFilter(ds, start, end, oldToNew).Success?
    ensures Sorted(MainFilter(ds, start, end, oldToNew).value, CreatedDate, !oldToNew)
    ensures KeyFilter(MainFilter(ds, start, end, oldToNew).value, CreatedDate, k)
            == KeyFilter(PlanFilter(ds, start, end), CreatedDate, k)
  {
    SortBySorted(PlanFilter(ds, start, end), CreatedDate, !oldToNew);
    SortByStable(PlanFilter(ds, start, end), CreatedDate, !oldToNew, k);
  }

  /** With zero-padded date texts, the text order is the calendar order:
      the diaries come out oldest first when `oldToNew`, newest first
      otherwise. */
  lemma MainFilterChronological(ds: seq<Diary>, start: Date, end: Date, oldToNew: bool)
    requires forall i :: 0 <= i < |ds| ==> IsoShaped(ds[i].createddate)
    requires MainFilter(ds, start, end, oldToNew).Success?
    ensures var r := MainFilter(ds, start, end, oldToNew).value;
            forall i, j :: 0 <= i < j < |r| ==>
              && ParseDate(r[i].createddate).Some? && ParseDate(r[j].createddate).Some?
              && var a := ParseDate(r[i].createddate).value;
                 var b := ParseDate(r[j].createddate).value;
                 if oldToNew then NotAfter(a, b) else NotAfter(b, a)
  {
    var kept := PlanFilter(ds, start, end);
    var r := MainFilter(ds, start, end, oldToNew).value;
    SortBySorted(kept, CreatedDate, !oldToNew);
    forall i | 0 <= i < |r| ensures IsoShaped(r[i].createddate) && ParseDate(r[i].createddate).Some? {
      assert r[i] in multiset(kept);
      assert r[i] in ds && InRange(r[i], start, end);
    }
    SortedChronological(r, !oldToNew);
  }

  /** A list sorted by zero-padded date texts is sorted by date. */
  lemma SortedChronological(r: seq<Diary>, desc: bool)
    requires forall i :: 0 <= i < |r| ==> IsoShaped(r[i].createddate) && ParseDate(r[i].createddate).Some?
    requires Sorted(r, CreatedDate, desc)
    ensures forall i, j :: 0 <= i < j < |r| ==>
              && ParseDate(r[i].createddate).Some? && ParseDate(r[j].createddate).Some?
              && var a := ParseDate(r[i].createddate).value;
                 var b := ParseDate(r[j].createddate).value;
                 if desc then NotAfter(b, a) else NotAfter(a, b)
  {
    forall i, j | 0 <= i < j < |r|
      ensures && ParseDate(r[i].createddate).Some? && ParseDate(r[j].createddate).Some?
              && var a := ParseDate(r[i].createddate).value;
                 var b := ParseDate(r[j].createddate).value;
                 if desc then NotAfter(b, a) else NotAfter(a, b)
    {
      assert !Precedes(CreatedDate(r[j]), CreatedDate(r[i]), desc);
      TextOrderIsDateOrder(r[i].createddate, r[j].createddate, desc);
    }
  }

  /** For zero-padded date texts, "not after in text order" is "not after
      in calendar order". */
  lemma TextOrderIsDateOrder(si: string, sj: string, desc: bool)
    requires IsoShaped(si) && IsoShaped(sj) && ParseDate(si).Some? && ParseDate(sj).Some?
    requires !Precedes(sj, si, desc)
    ensures var a := ParseDate(si).value;
            var b := ParseDate(sj).value;
            if desc then NotAfter(b, a) else NotAfter(a, b)
  {
    var a, b := ParseDate(si).value, ParseDate(sj).value;
    FormatParse(si);
    FormatParse(sj);
    FormatOrder(a, b);
    FormatOrder(b, a);
  }

  // ---------------------------------------------------------------------
  // main.py: get_diary_full, save_diary, replace_images_in_markdown
  // ---------------------------------------------------------------------

  /** The content `get_diary_full` keeps: escaped surrogates removed, then
      privacy blocks decrypted. */
  function MainContent(c: Crypto, content: string, userId: int): (r: Result<string>)
    ensures |IdBytes(userId)| <= 16 ==> r.Success?
    ensures FindBlock(CleanUnicode(content), MainMarkers.begin, MainMarkers.end, 1).None? ==>
              r == Success(CleanUnicode(content))
  {
    MarkersUsable();
    var cleaned := CleanUnicode(content);
    assert |IdBytes(userId)| <= 16 ==> DecryptMain(c, MainMarkers, cleaned, userId).Success? by {
      if |IdBytes(userId)| <= 16 {
        ShortIdNeverRaises(c, MainMarkers, cleaned, userId);
      }
    }
    DecryptMain(c, MainMarkers, cleaned, userId)
  }

  /** The text `save_diary` writes: the header, the title line and the
      content. */
  function MainText(d: Diary): string {
    "==" + d.createddate + " " + d.weekday + "==\n" + d.title + "\n" + d.content
  }

  /** `save_diary` followed by `replace_images_in_markdown`: the file
      `YYYY-MM/YYYY-MM-DD.md` named from the parsed date. It holds the text
      `save_diary` wrote as read back in text mode, with every placeholder
      turned into a link one folder up. An unparsable date raises. */
  function MainSave(d: Diary): (r: Result<(string, string)>)
    ensures r.Failure? <==> ParseDate(d.createddate).None?
    ensures r.Success? ==>
              var date := ParseDate(d.createddate).value;
              && r.value.0 == PathJoin(MonthKey(date), FormatDate(date) + ".md")
              && r.value.1 == Rewrite(Newlines(MainText(d)), MainLink)
    ensures r.Success? && '\r' !in MainText(d) ==> r.value.1 == Rewrite(MainText(d), MainLink)
  {
    match ParseDate(d.createddate)
    case None => Failure(UnparsableDate(d.createddate))
    case Some(date) =>
      assert '\r' !in MainText(d) ==> Newlines(MainText(d)) == MainText(d) by {
        if '\r' !in MainText(d) {
          NewlinesPlain(MainText(d));
        }
      }
      Success((PathJoin(MonthKey(date), FormatDate(date) + ".md"), Rewrite(Newlines(MainText(d)), MainLink)))
  }

  /** `main.py`'s file name is the zero-padded date, which reads back as
      the same date: the file name and the diary's date agree even when
      the service's date text is not padded. */
  lemma MainSaveNameParses(d: Diary)
    requires MainSave(d).Success?
    ensures var date := ParseDate(d.createddate).value;
            var path := MainSave(d).value.0;
            |path| >= 13 && path[|path| - 13..] == FormatDate(date) + ".md"
            && ParseDate(FormatDate(date)) == Some(date)
  {
    var date := ParseDate(d.createddate).value;
    ParseFormat(date);
    assert |FormatDate(date)| == 10;
  }
}

=== FILE: images.dfy ===
/** Image placeholders. The diary service writes an image into the text as
    `[图N]`, N a run of decimal digits. The exporter collects the ids
    (`extract_image_ids`), rewrites each placeholder to a Markdown image
    link (two link shapes, one per exporter generation), and the HTML step
    later finds the link targets again with the pattern `!\[.*?\]\((.*?)\)`.
    The regular expressions are modelled as scanners over the text: each
    tries to match at the front and otherwise moves on by one character. */
module Images {
  import opened Wrappers
  import opened Text
  import opened Bytes

  // ---------------------------------------------------------------------
  // The placeholder pattern `\[图(\d+)\]`
  // ---------------------------------------------------------------------

  /** The end of the run of decimal digits starting at `k`. */
  function DigitRunEnd(s: string, k: nat): (j: nat)
    requires k <= |s|
    ensures k <= j <= |s|
    ensures forall i :: k <= i < j ==> IsDecimal(s[i])
    ensures j == |s| || !IsDecimal(s[j])
    decreases |s| - k
  {
    if k == |s| || !IsDecimal(s[k]) then k else DigitRunEnd(s, k + 1)
  }

  /** A placeholder at the front of `s`: the index of its closing bracket.
      `\d+` is greedy and `]` is not a digit, so the digit run must be the
      longest one and be followed by `]`. */
  function PlaceholderAt(s: string): (r: Option<nat>)
    ensures r.Some? ==> 3 <= r.value < |s| && s[r.value] == ']'
    ensures r.Some? ==> s[..2] == "[图" && AllDecimal(s[2..r.value])
  {
    if |s| < 3 || s[0] != '[' || s[1] != '图' then None
    else
      var j := DigitRunEnd(s, 2);
      if j > 2 && j < |s| && s[j] == ']' then Some(j) else None
  }

  /** A placeholder exactly as the service writes it. */
  function Placeholder(d: string): string {
    "[图" + d + "]"
  }

  /** The placeholder scanner recognises precisely the written form: a
      non-empty digit run between `[图` and `]`, whatever follows it. */
  lemma PlaceholderAtWritten(d: string, rest: string)
    requires d != [] && AllDecimal(d)
    ensures PlaceholderAt(Placeholder(d) + rest) == Some(|d| + 2)
  {
    var s := Placeholder(d) + rest;
    assert forall i :: 2 <= i < |d| + 2 ==> s[i] == d[i - 2];
    assert s[|d| + 2] == ']';
  }

  /** `re.findall(r'\[图(\d+)\]', s)`: the digit texts of all placeholders,
      in order. */
  function Placeholders(s: string): (ds: seq<string>)
    ensures forall i :: 0 <= i < |ds| ==> ds[i] != [] && AllDecimal(ds[i])
    decreases |s|
  {
    if s == [] then []
    else
      match PlaceholderAt(s)
      case Some(j) => [s[2..j]] + Placeholders(s[j + 1..])
      case None => Placeholders(s[1..])
  }

  /** `re.sub(r'\[图(\d+)\]', f, s)` with `f` building the replacement from
      the digit text. */
  function Rewrite(s: string, link: string -> string): string
    decreases |s|
  {
    if s == [] then []
    else
      match PlaceholderAt(s)
      case Some(j) => link(s[2..j]) + Rewrite(s[j + 1..], link)
      case None => [s[0]] + Rewrite(s[1..], link)
  }

  /** `plan.py`'s link: alt text `图片N`, file in the sibling `Pictures`
      folder, always `.jpg`. */
  function PlanLink(d: string): string {
    "![图片" + d + "](Pictures/" + d + ".jpg)"
  }

  /** `main.py`'s link: alt text `img`, `Pictures` one level up. */
  function MainLink(d: string): string {
    "![img](../Pictures/" + d + ".jpg)"
  }

  /** `f` applied to each element. */
  function Links(f: string -> string, ds: seq<string>): (ls: seq<string>)
    ensures |ls| == |ds| && forall i :: 0 <= i < |ds| ==> ls[i] == f(ds[i])
  {
    if ds == [] then [] else [f(ds[0])] + Links(f, ds[1..])
  }

  /** The text between the placeholders, the first piece before the first
      placeholder and the last one after the last (see `GapsCount`). */
  function Gaps(s: string): (gs: seq<string>)
    ensures gs != []
    decreases |s|
  {
    if s == [] then [[]]
    else
      match PlaceholderAt(s)
      case Some(j) => [[]] + Gaps(s[j + 1..])
      case None =>
        var g := Gaps(s[1..]);
        [[s[0]] + g[0]] + g[1..]
  }

  /** `gs[0] + ls[0] + gs[1] + ... + ls[n-1] + gs[n]` for `n` links and
      `n + 1` gaps, the shape `GapsCount` guarantees. */
  function Weave(gs: seq<string>, ls: seq<string>): string
    decreases |ls|
  {
    if gs == [] then []
    else if ls == [] then gs[0]
    else gs[0] + ls[0] + Weave(gs[1..], ls[1..])
  }

  /** There is one more gap than there are placeholders. */
  lemma {:induction false} GapsCount(s: string)
    ensures |Gaps(s)| == |Placeholders(s)| + 1
    decreases |s|
  {
    if s != [] {
      match PlaceholderAt(s)
      case Some(j) =>
        GapsCount(s[j + 1..]);
        PiecesAt(s, j);
      case None =>
        GapsCount(s[1..]);
    }
  }

  /** The rewrite replaces each placeholder by its link and keeps every
      character between placeholders: whatever the link shape, the result
      is the same gaps woven with the links. */
  lemma {:induction false} RewriteWeave(s: string, link: string -> string)
    ensures Rewrite(s, link) == Weave(Gaps(s), Links(link, Placeholders(s)))
    decreases |s|
  {
    if s != [] {
      match PlaceholderAt(s)
      case Some(j) =>
        RewriteWeave(s[j + 1..], link);
        WeaveAtPlaceholder(s, link, j);
      case None =>
        RewriteWeave(s[1..], link);
        WeaveAtText(s, link);
    }
  }

  /** The step of `RewriteWeave` at a placeholder. */
  lemma WeaveAtPlaceholder(s: string, link: string -> string, j: nat)
    requires PlaceholderAt(s) == Some(j)
    requires Rewrite(s[j + 1..], link) == Weave(Gaps(s[j + 1..]), Links(link, Placeholders(s[j + 1..])))
    ensures Rewrite(s, link) == Weave(Gaps(s), Links(link, Placeholders(s)))
  {
    var d, rest := s[2..j], s[j + 1..];
    var ps := Placeholders(rest);
    PiecesAt(s, j);
    RewriteAt(s, link, j);
    assert Links(link, [d] + ps) == [link(d)] + Links(link, ps);
    WeaveFront([], Gaps(rest), link(d), Links(link, ps));
    assert [] + link(d) == link(d);
  }

  /** The step of `RewriteWeave` at a character that starts no
      placeholder. */
  lemma WeaveAtText(s: string, link: string -> string)
    requires s != [] && PlaceholderAt(s).None?
    requires Rewrite(s[1..], link) == Weave(Gaps(s[1..]), Links(link, Placeholders(s[1..])))
    ensures Rewrite(s, link) == Weave(Gaps(s), Links(link, Placeholders(s)))
  {
    WeavePrepend([s[0]], Gaps(s[1..]), Links(link, Placeholders(s[1..])));
  }

  /** Weaving starts with the first gap and the first link. */
  lemma WeaveFront(g: string, gs: seq<string>, l: string, ls: seq<string>)
    requires gs != []
    ensures Weave([g] + gs, [l] + ls) == g + l + Weave(gs, ls)
  {
    assert ([g] + gs)[1..] == gs && ([l] + ls)[1..] == ls;
  }

  /** Text put in front of the first gap comes out in front. */
  lemma WeavePrepend(c: string, gs: seq<string>, ls: seq<string>)
    requires gs != []
    ensures Weave([c + gs[0]] + gs[1..], ls) == c + Weave(gs, ls)
  {
    var hs := [c + gs[0]] + gs[1..];
    if ls != [] {
      assert hs[1..] == gs[1..];
      assert Weave(hs, ls) == (c + gs[0]) + ls[0] + Weave(gs[1..], ls[1..]);
    }
  }

  /** The text is its gaps woven with its placeholders. */
  lemma GapsWeave(s: string)
    ensures s == Weave(Gaps(s), Links(Placeholder, Placeholders(s)))
  {
    RewriteWeave(s, Placeholder);
    RewriteIdentity(s);
  }

  /** Rewriting each placeholder into itself changes nothing: the scanner
      and the rewrite cut the text at the same places. */
  lemma {:induction false} RewriteIdentity(s: string)
    ensures Rewrite(s, Placeholder) == s
    decreases |s|
  {
    if s != [] {
      match PlaceholderAt(s)
      case Some(j) =>
        RewriteIdentity(s[j + 1..]);
        IdentityAtPlaceholder(s, j);
      case None =>
        RewriteIdentity(s[1..]);
        assert s == [s[0]] + s[1..];
    }
  }

  /** A placeholder at the front is the first one found and ends an
      empty first gap. */
  lemma PiecesAt(s: string, j: nat)
    requires PlaceholderAt(s) == Some(j)
    ensures Placeholders(s) == [s[2..j]] + Placeholders(s[j + 1..])
    ensures Gaps(s) == [[]] + Gaps(s[j + 1..])
  {
    PlaceholdersAt(s, j);
    GapsAt(s, j);
  }

  lemma PlaceholdersAt(s: string, j: nat)
    requires PlaceholderAt(s) == Some(j)
    ensures Placeholders(s) == [s[2..j]] + Placeholders(s[j + 1..])
  {
  }

  lemma GapsAt(s: string, j: nat)
    requires PlaceholderAt(s) == Some(j)
    ensures Gaps(s) == [[]] + Gaps(s[j + 1..])
  {
  }

  /** A placeholder at the front is rewritten to its link. */
  lemma RewriteAt(s: string, link: string -> string, j: nat)
    requires PlaceholderAt(s) == Some(j)
    ensures Rewrite(s, link) == link(s[2..j]) + Rewrite(s[j + 1..], link)
  {
  }

  /** The step of `RewriteIdentity` at a placeholder. */
  lemma IdentityAtPlaceholder(s: string, j: nat)
    requires PlaceholderAt(s) == Some(j)
    requires Rewrite(s[j + 1..], Placeholder) == s[j + 1..]
    ensures Rewrite(s, Placeholder) == s
  {
    var d, rest := s[2..j], s[j + 1..];
    RewriteAt(s, Placeholder, j);
    Reassemble(s, 2, j);
    assert s[..2] == "[图" && [s[j]] == "]";
    Rename4(s, s[..2], "[图", d, [s[j]], "]", rest);
  }

  /** Text without placeholders is left as it is. */
  lemma {:induction false} RewriteNoPlaceholder(s: string, link: string -> string)
    requires Placeholders(s) == []
    ensures Rewrite(s, link) == s
    decreases |s|
  {
    if s != [] {
      assert PlaceholderAt(s).None?;
      RewriteNoPlaceholder(s[1..], link);
      assert s == [s[0]] + s[1..];
    }
  }

  /** The ids of `extract_image_ids`: `int(N)` of each digit text. */
  function IdValue(d: string): nat {
    if AllDecimal(d) then DecimalValue(d) else 0
  }

  /** `extract_image_ids`: the set of the integer values of all
      placeholders; repeated placeholders give one element, and empty
      content gives the empty set. */
  method ExtractImageIds(content: string) returns (ids: set<nat>)
    ensures forall n :: n in ids <==>
              exists i :: 0 <= i < |Placeholders(content)| && IdValue(Placeholders(content)[i]) == n
    ensures content == [] ==> ids == {}
    ensures ids == ImageIds(content)
  {
    var ds := Placeholders(content);
    ids := {};
    if content == [] {
      assert ds == [];
    } else {
      var k := 0;
      while k < |ds|
        invariant 0 <= k <= |ds|
        invariant forall n :: n in ids <==> exists i :: 0 <= i < k && IdValue(ds[i]) == n
      {
        ids := ids + {IdValue(ds[k])};
        k := k + 1;
      }
    }
    assert ids == IdsOf(ds);
    forall n ensures n in ids <==> exists i :: 0 <= i < |ds| && IdValue(ds[i]) == n {
      assert n in ids <==> n in IdsOf(ds);
    }
  }

  /** The ids of a list of digit texts. */
  function IdsOf(ds: seq<string>): (ids: set<nat>)
    ensures forall n :: n in ids <==> exists i :: 0 <= i < |ds| && IdValue(ds[i]) == n
  {
    set i | 0 <= i < |ds| :: IdValue(ds[i])
  }

  /** The set `extract_image_ids` returns, as a function of the content. */
  function ImageIds(content: string): set<nat> {
    IdsOf(Placeholders(content))
  }

  /** `"007"` is a digit text and `int("007")` is 7. */
  lemma ZeroPaddedValue()
    ensures AllDecimal("007") && DecimalValue("007") == 7
  {
    var z := "007";
    assert z[0] == '0' && z[1] == '0' && z[2] == '7';
    assert z[..2] == "00" && "00"[..1] == "0" && "0"[..0] == [];
    assert DecimalValue("0") == 0;
    assert DecimalValue("00") == 0;
  }

  /** The id and the link disagree on leading zeros: `[图007]` yields id 7,
      so the image is fetched as `7`, but the link names `Pictures/007.jpg`. */
  lemma LeadingZeros()
    ensures Placeholders(Placeholder("007")) == ["007"]
    ensures IdValue("007") == 7
    ensures Rewrite(Placeholder("007"), PlanLink) == PlanLink("007")
    ensures PlanTarget("007") == "Pictures/007.jpg"
  {
    ZeroPaddedValue();
    PlaceholderAlone("007", PlanLink);
  }

  /** A lone placeholder yields its digit text and is rewritten to its
      link. */
  lemma PlaceholderAlone(d: string, link: string -> string)
    requires d != [] && AllDecimal(d)
    ensures Placeholders(Placeholder(d)) == [d]
    ensures Rewrite(Placeholder(d), link) == link(d)
  {
    var s := Placeholder(d);
    PlaceholderAtWritten(d, []);
    assert s == Placeholder(d) + [];
    var j := |d| + 2;
    assert s[j + 1..] == [] && s[2..j] == d;
    PiecesAt(s, j);
    RewriteAt(s, link, j);
  }

  // ---------------------------------------------------------------------
  // The link pattern `!\[.*?\]\((.*?)\)` of the HTML step
  // ---------------------------------------------------------------------

  /** A Markdown image at the front of `t`: the bounds of its target. The
      alt text runs to the first `](` and the target to the first `)` after
      it; neither may contain a line break, as `.` does not match one. */
  function TargetAt(t: string): (r: Option<(nat, nat)>)
    ensures r.Some? ==> 4 <= r.value.0 <= r.value.1 < |t| && t[r.value.1] == ')'
  {
    if |t| < 2 || t[0] != '!' || t[1] != '[' then None
    else
      match IndexFrom(t, "](", 2)
      case None => None
      case Some(k) =>
        if '\n' in t[2..k] then None
        else
          match IndexFrom(t, ")", k + 2)
          case None => None
          case Some(m) =>
            IndexFromSpec(t, ")", k + 2);
            if '\n' in t[k + 2..m] then None else Some((k + 2, m))
  }

  /** `re.findall(r'!\[.*?\]\((.*?)\)', md)`: all link targets, in order. */
  function Targets(t: string): seq<string>
    decreases |t|
  {
    if t == [] then []
    else
      match TargetAt(t)
      case Some((a, m)) => [t[a..m]] + Targets(t[m + 1..])
      case None => Targets(t[1..])
  }

  /** Where `plan.py` says the picture for digit text `d` is. */
  function PlanTarget(d: string): string {
    "Pictures/" + d + ".jpg"
  }

  /** An image `![alt](target)` at the front is found whole when the alt
      text has no `]`, the target no `)`, and neither a line break. */
  lemma TargetOfImage(alt: string, target: string, rest: string)
    requires forall i :: 0 <= i < |alt| ==> alt[i] != ']' && alt[i] != '\n'
    requires forall i :: 0 <= i < |target| ==> target[i] != ')' && target[i] != '\n'
    ensures var t := "![" + alt + "](" + target + ")" + rest;
            var a := |alt| + 4;
            TargetAt(t) == Some((a, a + |target|)) && t[a..a + |target|] == target
            && t[a + |target| + 1..] == rest
  {
    var t := "![" + alt + "](" + target + ")" + rest;
    AltScan(alt, target, rest);
    TargetScan(alt, target, rest);
  }

  /** The alt text runs to the first `](`. */
  lemma AltScan(alt: string, target: string, rest: string)
    requires forall i :: 0 <= i < |alt| ==> alt[i] != ']' && alt[i] != '\n'
    ensures var t := "![" + alt + "](" + target + ")" + rest;
            IndexFrom(t, "](", 2) == Some(|alt| + 2) && t[2..|alt| + 2] == alt
  {
    var t := "![" + alt + "](" + target + ")" + rest;
    var k := |alt| + 2;
    forall i | 2 <= i < k ensures !OccursAt(t, "](", i) {
      assert t[i] == alt[i - 2];
      assert t[i..i + 2][0] == t[i];
    }
    assert OccursAt(t, "](", k) by { assert t[k..k + 2] == "]("; }
    FirstOccurrence(t, "](", 2, k);
    assert t[2..k] == alt;
  }

  /** The target runs to the first `)` after the alt text. */
  lemma TargetScan(alt: string, target: string, rest: string)
    requires forall i :: 0 <= i < |target| ==> target[i] != ')' && target[i] != '\n'
    ensures var t := "![" + alt + "](" + target + ")" + rest;
            var a := |alt| + 4;
            IndexFrom(t, ")", a) == Some(a + |target|) && t[a..a + |target|] == target
            && t[a + |target| + 1..] == rest
  {
    var t := "![" + alt + "](" + target + ")" + rest;
    var a := |alt| + 4;
    var m := a + |target|;
    forall i | a <= i < m ensures !OccursAt(t, ")", i) {
      assert t[i] == target[i - a];
      assert t[i..i + 1][0] == t[i];
    }
    assert OccursAt(t, ")", m) by { assert t[m..m + 1] == ")"; }
    FirstOccurrence(t, ")", a, m);
    assert t[a..m] == target;
    assert t[m + 1..] == rest;
  }

  /** A `plan.py` link at the front is found whole, whatever follows. */
  lemma TargetOfPlanLink(d: string, rest: string)
    requires AllDecimal(d)
    ensures var t := PlanLink(d) + rest;
            TargetAt(t) == Some((|d| + 6, |PlanLink(d)| - 1))
            && t[|d| + 6..|PlanLink(d)| - 1] == PlanTarget(d)
            && t[|PlanLink(d)|..] == rest
  {
    var alt := "图片" + d;
    var target := PlanTarget(d);
    PlanAltPlain(d);
    PlanTargetPlain(d);
    assert PlanLink(d) + rest == "![" + alt + "](" + target + ")" + rest;
    TargetOfImage(alt, target, rest);
  }

  /** The alt text of a `plan.py` link holds no `]` and no line break. */
  lemma PlanAltPlain(d: string)
    requires AllDecimal(d)
    ensures var alt := "图片" + d;
            forall i :: 0 <= i < |alt| ==> alt[i] != ']' && alt[i] != '\n'
  {
    var alt := "图片" + d;
    forall i | 2 <= i < |alt| ensures alt[i] != ']' && alt[i] != '\n' {
      assert alt[i] == d[i - 2] && IsDecimal(d[i - 2]);
    }
  }

  /** The target of a `plan.py` link holds no `)` and no line break. */
  lemma PlanTargetPlain(d: string)
    requires AllDecimal(d)
    ensures var t := PlanTarget(d);
            forall i :: 0 <= i < |t| ==> t[i] != ')' && t[i] != '\n'
  {
    var t := PlanTarget(d);
    forall i | 9 <= i < 9 + |d| ensures t[i] != ')' && t[i] != '\n' {
      assert t[i] == d[i - 9] && IsDecimal(d[i - 9]);
    }
  }

  /** A character other than `!` at the front starts no image. */
  lemma TargetsSkip(c: char, rest: string)
    requires c != '!'
    ensures Targets([c] + rest) == Targets(rest)
  {
    assert ([c] + rest)[1..] == rest;
  }

  /** An image at the front contributes its target first. */
  lemma TargetsOfImage(alt: string, target: string, rest: string)
    requires forall i :: 0 <= i < |alt| ==> alt[i] != ']' && alt[i] != '\n'
    requires forall i :: 0 <= i < |target| ==> target[i] != ')' && target[i] != '\n'
    ensures Targets(Image(alt, target) + rest) == [target] + Targets(rest)
  {
    TargetOfImage(alt, target, rest);
  }

  /** Text without `!` holds no image. */
  lemma {:induction false} TargetsNone(s: string)
    requires '!' !in s
    ensures Targets(s) == []
    decreases |s|
  {
    if s != [] {
      assert '!' !in s[1..];
      TargetsNone(s[1..]);
      TargetsSkip(s[0], s[1..]);
      assert s == [s[0]] + s[1..];
    }
  }

  /** Text without `!` in front of an image adds no target. */
  lemma {:induction false} TargetsAfterPlain(pre: string, rest: string)
    requires '!' !in pre
    ensures Targets(pre + rest) == Targets(rest)
    decreases |pre|
  {
    if pre != [] {
      assert '!' !in pre[1..];
      TargetsAfterPlain(pre[1..], rest);
      TargetsSkip(pre[0], pre[1..] + rest);
      assert pre + rest == [pre[0]] + (pre[1..] + rest);
    } else {
      assert pre + rest == rest;
    }
  }

  /** A Markdown image. */
  function Image(alt: string, target: string): string {
    "![" + alt + "](" + target + ")"
  }

  /** Replacing a target that occurs only inside its image. */
  lemma ReplaceInImage(pre: string, alt: string, target: string, rep: string, post: string)
    requires target != []
    requires forall i :: OccursAt(pre + Image(alt, target) + post, target, i) ==> i == |pre| + |alt| + 4
    ensures ReplaceAll(pre + Image(alt, target) + post, target, rep) == pre + Image(alt, rep) + post
  {
    var front, back := pre + "![" + alt + "](", ")" + post;
    ImageSplit(pre, alt, target, post);
    ImageSplit(pre, alt, rep, post);
    ReplaceAllOnce(front, back, target, rep);
  }

  /** An image between two texts, cut around its target. */
  lemma ImageSplit(pre: string, alt: string, t: string, post: string)
    ensures pre + Image(alt, t) + post == (pre + "![" + alt + "](") + t + (")" + post)
    ensures |pre + "![" + alt + "](" | == |pre| + |alt| + 4
  {
  }

  /** The one image's target is the only one found. */
  lemma OneImageTarget(pre: string, alt: string, target: string, post: string)
    requires '!' !in pre && '!' !in post
    requires forall i :: 0 <= i < |alt| ==> alt[i] != ']' && alt[i] != '\n'
    requires forall i :: 0 <= i < |target| ==> target[i] != ')' && target[i] != '\n'
    ensures Targets(pre + Image(alt, target) + post) == [target]
  {
    TargetsOfImage(alt, target, post);
    TargetsNone(post);
    TargetsAfterPlain(pre, Image(alt, target) + post);
    Regroup3(pre, Image(alt, target), post);
  }

  /** A `plan.py` link at the front contributes its own target first. */
  lemma TargetsLink(d: string, rest: string)
    requires AllDecimal(d)
    ensures Targets(PlanLink(d) + rest) == [PlanTarget(d)] + Targets(rest)
  {
    TargetOfPlanLink(d, rest);
  }

  /** The targets the HTML step finds in `plan.py`'s Markdown are exactly
      the pictures of the placeholders, in order, provided the diary text
      has no `!` of its own that could start another image. */
  lemma {:induction false} PlanLinksFound(s: string)
    requires '!' !in s
    ensures Targets(Rewrite(s, PlanLink)) == Links(PlanTarget, Placeholders(s))
    decreases |s|
  {
    if s != [] {
      match PlaceholderAt(s)
      case Some(j) =>
        assert '!' !in s[j + 1..];
        PlanLinksFound(s[j + 1..]);
        TargetsLink(s[2..j], Rewrite(s[j + 1..], PlanLink));
      case None =>
        assert '!' !in s[1..];
        PlanLinksFound(s[1..]);
        TargetsSkip(s[0], Rewrite(s[1..], PlanLink));
    }
  }

  // ---------------------------------------------------------------------
  // File extension of a downloaded image
  // ---------------------------------------------------------------------

  /** ASCII lower-casing. `str.lower` also maps other letters, but none of
      them to a letter of `jpeg`, `jpg` or `png`, so the tests below come
      out the same. */
  function LowerAscii(s: string): (r: string)
    ensures |r| == |s|
    ensures forall i :: 0 <= i < |s| ==> r[i] == if 'A' <= s[i] <= 'Z' then (s[i] as int + 32) as char else s[i]
  {
    seq(|s|, i requires 0 <= i < |s| => if 'A' <= s[i] <= 'Z' then (s[i] as int + 32) as char else s[i])
  }

  /** `p in s` for strings. */
  predicate HasSub(s: string, p: string) {
    IndexFrom(s, p, 0).Some?
  }

  lemma HasSubContains(s: string, p: string)
    ensures HasSub(s, p) <==> Contains(s, p)
  {
    IndexFromSpec(s, p, 0);
  }

  const JpegMagic: seq<byte> := [0xFF, 0xD8, 0xFF]
  const PngMagic: seq<byte> := [0x89, 0x50, 0x4E, 0x47, 0x0D, 0x0A, 0x1A, 0x0A]

  /** The extension `download_image` saves an image under: the content
      type decides first, then the leading bytes, and `.jpg` is the
      default. */
  function ChooseExtension(contentType: string, body: seq<byte>): (ext: string)
    ensures ext == ".jpg" || ext == ".png"
    ensures var ct := LowerAscii(contentType);
            ext == ".png" <==>
              if HasSub(ct, "jpeg") || HasSub(ct, "jpg") then false
              else HasSub(ct, "png") || (JpegMagic != body[..if |body| < 3 then |body| else 3]
                                         && PngMagic == body[..if |body| < 8 then |body| else 8])
  {
    var ct := LowerAscii(contentType);
    if HasSub(ct, "jpeg") || HasSub(ct, "jpg") then ".jpg"
    else if HasSub(ct, "png") then ".png"
    else if |body| >= 3 && body[..3] == JpegMagic then ".jpg"
    else if |body| >= 8 && body[..8] == PngMagic then ".png"
    else ".jpg"
  }

  /** A PNG served without a content type is saved as `.png`, yet the
      Markdown link `plan.py` writes for it names a `.jpg` file. */
  lemma PngLinkMismatch(d: string)
    ensures ChooseExtension("", PngMagic) == ".png"
    ensures PlanTarget(d)[|PlanTarget(d)| - 4..] == ".jpg"
  {
    assert LowerAscii("") == "";
    assert PngMagic[..3][0] != JpegMagic[0];
  }
}

=== FILE: main_privacy.dfy ===
/** The older privacy-block decryptor, `decrypt_privacy` of `main.py`,
    and the `clean_unicode` pass run before it. Blocks are found with the
    same leftmost-shortest search as in `Privacy`; the key, the decoding
    order and the error behaviour are `main.py`'s own. */
module MainPrivacy {
  import opened Wrappers
  import opened Text
  import opened Bytes
  import opened Privacy

  /** `r` opens with `open` and closes with `close`. */
  predicate Wrapped(r: string, open: string, close: string) {
    |open| + |close| <= |r| && r[..|open|] == open && r[|r| - |close|..] == close
  }

  /** The text of one block in `main.py`: hexadecimal first, then base64,
      each attempt failing over on a decode error or a misaligned decrypt;
      when both fail the whole match is put back. No padding is removed. */
  function MainBlock(c: Crypto, mk: Markers, key: seq<byte>, whole: string, body: string): (r: string)
    ensures r == whole || Wrapped(r, mk.open, mk.close)
  {
    var hex := FromHex(body);
    if hex.Some? && |hex.value| % 16 == 0 then mk.open + c.utf8(c.aes(key, hex.value)) + mk.close
    else
      var b64 := c.base64(body);
      if b64.Some? && |b64.value| % 16 == 0 then mk.open + c.utf8(c.aes(key, b64.value)) + mk.close
      else whole
  }

  /** Hexadecimal of whole blocks is decrypted without trying base64. */
  lemma MainBlockHex(c: Crypto, mk: Markers, key: seq<byte>, whole: string, body: string, cipher: seq<byte>)
    requires FromHex(body) == Some(cipher) && |cipher| % 16 == 0
    ensures MainBlock(c, mk, key, whole, body) == mk.open + c.utf8(c.aes(key, cipher)) + mk.close
  {
  }

  /** Text that is not hexadecimal of whole blocks falls over to base64,
      which is decrypted when it decodes to whole blocks. */
  lemma MainBlockBase64(c: Crypto, mk: Markers, key: seq<byte>, whole: string, body: string, cipher: seq<byte>)
    requires !(FromHex(body).Some? && |FromHex(body).value| % 16 == 0)
    requires c.base64(body) == Some(cipher) && |cipher| % 16 == 0
    ensures MainBlock(c, mk, key, whole, body) == mk.open + c.utf8(c.aes(key, cipher)) + mk.close
  {
  }

  /** When neither decoding yields whole blocks, the match is put back as
      it was, markers included. */
  lemma MainBlockKept(c: Crypto, mk: Markers, key: seq<byte>, whole: string, body: string)
    requires !(FromHex(body).Some? && |FromHex(body).value| % 16 == 0)
    requires !(c.base64(body).Some? && |c.base64(body).value| % 16 == 0)
    ensures MainBlock(c, mk, key, whole, body) == whole
  {
  }

  /** `decrypt_block`, the callback of `main.py`, bound to one key: it is
      given the whole match and the body between the markers. */
  function Decryptor(c: Crypto, mk: Markers, key: seq<byte>): (string, string) -> string {
    (whole: string, body: string) => MainBlock(c, mk, key, whole, body)
  }

  /** `pattern.sub(callback, s)` when the callback does not raise: each
      block found is replaced by the callback's text and the scan resumes
      after it. */
  function SubBlocks(mk: Markers, callback: (string, string) -> string, s: string): string
    requires Usable(mk)
    decreases |s|
  {
    var found := FindBlock(s, mk.begin, mk.end, 1);
    if found.None? then s
    else
      var i, j := found.value.0, found.value.1;
      s[..i] + callback(s[i..j + |mk.end|], s[i + |mk.begin|..j])
      + SubBlocks(mk, callback, s[j + |mk.end|..])
  }

  /** `decrypt_privacy` of `main.py`. The key is handed to `AES.new` inside
      the callback, so an unusable key raises on the first block found and
      not at all when there is none. */
  function DecryptMain(c: Crypto, mk: Markers, content: string, userId: int): (r: Result<string>)
    requires Usable(mk)
    ensures r.Failure? <==> !ValidAesKey(MainKey(userId)) && FindBlock(content, mk.begin, mk.end, 1).Some?
    ensures FindBlock(content, mk.begin, mk.end, 1).None? ==> r == Success(content)
  {
    var key := MainKey(userId);
    if FindBlock(content, mk.begin, mk.end, 1).Some? && !ValidAesKey(key) then Failure(InvalidKeyLength(|key|))
    else Success(SubBlocks(mk, Decryptor(c, mk, key), content))
  }

  /** An id of at most 16 bytes always gives a usable key, so `main.py`
      never raises for it, whatever the ciphertext. */
  lemma ShortIdNeverRaises(c: Crypto, mk: Markers, content: string, userId: int)
    requires Usable(mk)
    requires |IdBytes(userId)| <= 16
    ensures DecryptMain(c, mk, content, userId).Success?
  {
  }

  // ---------------------------------------------------------------------
  // clean_unicode
  // ---------------------------------------------------------------------

  /** The escaped high surrogates `main.py` deletes, in the order it deletes
      them: a backslash, `u`, and four hexadecimal digits. */
  const SurrogateEscapes: seq<string> := ["\\ud83c", "\\ud83d", "\\ud83e"]

  /** Deletes every occurrence of each escape in turn. */
  function RemoveAll(s: string, pats: seq<string>): string
    decreases |pats|
  {
    if pats == [] then s else RemoveAll(ReplaceAll(s, pats[0], ""), pats[1..])
  }

  /** `clean_unicode`. */
  function CleanUnicode(s: string): string {
    RemoveAll(s, SurrogateEscapes)
  }

  /** An escaped `U+D83D` between text with no backslash is deleted and
      nothing else is touched. */
  lemma CleanUnicodeDeletes(a: string, b: string)
    requires '\\' !in a && '\\' !in b
    ensures CleanUnicode(a + "\\ud83d" + b) == a + b
  {
    var e := "\\ud83d";
    var s := a + e + b;
    NoOtherEscape(a, b);
    ReplaceAllAbsent(s, "\\ud83c", "");
    assert a + e + b == a + (e + b);
    ReplaceAfterHeadFree(a, e, b, "");
    AbsentHead(b, e);
    ReplaceAllAbsent(b, e, "");
    assert a + ("" + b) == a + b;
    AbsentHead(a + b, "\\ud83e");
    ReplaceAllAbsent(a + b, "\\ud83e", "");
    assert SurrogateEscapes[1..] == ["\\ud83d", "\\ud83e"] && SurrogateEscapes[2..] == ["\\ud83e"];
    assert CleanUnicode(s) == RemoveAll(s, ["\\ud83d", "\\ud83e"]);
    assert ["\\ud83d", "\\ud83e"][1..] == ["\\ud83e"] && ["\\ud83e"][1..] == [];
  }

  /** The only backslash of `a + "\\ud83d" + b` starts an escape other than
      `\\ud83c`. */
  lemma NoOtherEscape(a: string, b: string)
    requires '\\' !in a && '\\' !in b
    ensures !Contains(a + "\\ud83d" + b, "\\ud83c")
  {
    var e, p := "\\ud83d", "\\ud83c";
    var s := a + e + b;
    forall i ensures !OccursAt(s, p, i) {
      if 0 <= i && i + 6 <= |s| {
        assert s[i..i + 6][0] == s[i] && s[i..i + 6][5] == s[i + 5];
        if i < |a| {
          assert s[i] == a[i];
        } else if i >= |a| + 6 {
          assert s[i] == b[i - |a| - 6];
        } else if i > |a| {
          assert s[i] == e[i - |a|];
        } else {
          assert s[i + 5] == e[5];
        }
      }
    }
  }

  /** A text without the first character of a pattern does not contain it. */
  lemma AbsentHead(s: string, p: string)
    requires p != [] && p[0] !in s
    ensures !Contains(s, p)
  {
    forall i ensures !OccursAt(s, p, i) {
      if 0 <= i < |s| && i + |p| <= |s| {
        assert s[i..i + |p|][0] == s[i] != p[0];
      }
    }
  }

  /** Deleting non-empty patterns never lengthens the text, and a text
      without the patterns' common first character is kept as it is. */
  lemma {:induction false} RemoveAllShrinks(s: string, pats: seq<string>, head: char)
    requires forall k :: 0 <= k < |pats| ==> pats[k] != [] && pats[k][0] == head
    ensures |RemoveAll(s, pats)| <= |s|
    ensures head !in s ==> RemoveAll(s, pats) == s
    decreases |pats|
  {
    if pats != [] {
      DeleteShrinks(s, pats[0], head);
      assert forall k :: 0 <= k < |pats[1..]| ==> pats[1..][k] == pats[k + 1];
      RemoveAllShrinks(ReplaceAll(s, pats[0], ""), pats[1..], head);
    }
  }

  /** Deleting one non-empty pattern never lengthens the text, and a text
      without the pattern's first character is kept as it is. */
  lemma DeleteShrinks(s: string, p: string, head: char)
    requires p != [] && p[0] == head
    ensures |ReplaceAll(s, p, "")| <= |s|
    ensures head !in s ==> ReplaceAll(s, p, "") == s
  {
    ReplaceAllLength(s, p, "");
    NonNegativeProduct(Count(s, p), |p|);
    if head !in s {
      AbsentHead(s, p);
      ReplaceAllAbsent(s, p, "");
    }
  }

  lemma NonNegativeProduct(a: nat, b: nat)
    ensures a * b >= 0
  {
  }

  /** `clean_unicode` never lengthens a text and leaves any text without a
      backslash untouched. */
  lemma CleanUnicodeShrinks(s: string)
    ensures |CleanUnicode(s)| <= |s|
    ensures '\\' !in s ==> CleanUnicode(s) == s
  {
    RemoveAllShrinks(s, SurrogateEscapes, '\\');
  }
}

=== FILE: main_substitution.dfy ===
/** How the substitution of `main.py`'s `decrypt_privacy` unfolds block by
    block, and its round trip against encryption followed by `bytes.hex`. */
module MainSubstitution {
  import opened Wrappers
  import opened Text
  import opened Bytes
  import opened Privacy
  import opened MainPrivacy

  /** Text without a block is kept. */
  lemma SubBlocksNone(mk: Markers, callback: (string, string) -> string, s: string)
    requires Usable(mk)
    requires FindBlock(s, mk.begin, mk.end, 1) == None
    ensures SubBlocks(mk, callback, s) == s
  {
  }

  /** The first block found is replaced in front of the substituted rest. */
  lemma SubBlocksFound(mk: Markers, callback: (string, string) -> string, s: string)
    requires Usable(mk)
    requires FindBlock(s, mk.begin, mk.end, 1).Some?
    ensures var f := FindBlock(s, mk.begin, mk.end, 1).value;
      SubBlocks(mk, callback, s)
      == s[..f.0] + callback(s[f.0..f.1 + |mk.end|], s[f.0 + |mk.begin|..f.1]) + SubBlocks(mk, callback, s[f.1 + |mk.end|..])
  {
  }

  /** A text whose only block is the one found is that block replaced by
      the callback's text, given the whole match and the body, between the
      text before it and the text after it. */
  lemma SubBlocksOnly(mk: Markers, callback: (string, string) -> string, pre: string, body: string, post: string)
    requires Usable(mk)
    requires FindBlock(pre + mk.begin + body + mk.end + post, mk.begin, mk.end, 1)
             == Some((|pre|, |pre| + |mk.begin| + |body|))
    requires FindBlock(post, mk.begin, mk.end, 1) == None
    ensures SubBlocks(mk, callback, pre + mk.begin + body + mk.end + post)
            == pre + callback(mk.begin + body + mk.end, body) + post
  {
    var s := pre + mk.begin + body + mk.end + post;
    Slices5(pre, mk.begin, body, mk.end, post);
    SubBlocksFound(mk, callback, s);
    SubBlocksNone(mk, callback, post);
  }

  /** A body holding one hexadecimal block decrypts to the plaintext wrapper
      with the text around it unchanged: the round trip of `main.py`'s
      decryption against encryption followed by `bytes.hex`. */
  lemma MainRoundTrip(c: Crypto, mk: Markers, userId: int, pre: string, cipher: seq<byte>, post: string)
    requires Usable(mk)
    requires |IdBytes(userId)| <= 16
    requires cipher != [] && |cipher| % 16 == 0
    requires forall k :: OccursAt(pre + mk.begin + ToHex(cipher) + mk.end + post, mk.begin, k) ==> k == |pre|
    requires forall k :: OccursAt(pre + mk.begin + ToHex(cipher) + mk.end + post, mk.end, k)
                         ==> k == |pre| + |mk.begin| + |ToHex(cipher)|
    ensures DecryptMain(c, mk, pre + mk.begin + ToHex(cipher) + mk.end + post, userId)
            == Success(pre + (mk.open + c.utf8(c.aes(MainKey(userId), cipher)) + mk.close) + post)
  {
    var ct := ToHex(cipher);
    var key := MainKey(userId);
    var callback := Decryptor(c, mk, key);
    var text := mk.open + c.utf8(c.aes(key, cipher)) + mk.close;
    OnlyBlock(pre, mk.begin, ct, mk.end, post, 1);
    SubBlocksOnly(mk, callback, pre, ct, post);
    FromHexToHex(cipher);
    MainBlockHex(c, mk, key, mk.begin + ct + mk.end, ct, cipher);
    SubstMiddle(SubBlocks(mk, callback, pre + mk.begin + ct + mk.end + post), pre, callback(mk.begin + ct + mk.end, ct), text, post);
  }
}

=== FILE: privacy.dfy ===
/** Decryption of privacy blocks: ciphertext the diary service stores
    between two fixed marker strings, encrypted with AES-128 in ECB mode
    (FIPS-197 with the ECB mode of NIST SP 800-38A) under a key derived from
    the author's numeric account id. Two generations of the decryptor are
    modelled: the newer one in `plan.py` (`DecryptPlan`, in this module)
    and the older one in `main.py` (`DecryptMain`, in `MainPrivacy`, with
    its block-by-block substitution in `MainSubstitution`). This module
    also holds what both share: the block search and the key bytes. They
    differ in marker text, key derivation, decoding order, padding and
    error handling. */
module Privacy {
  import opened Wrappers
  import opened Text
  import opened Bytes

  /** The library code the decryptor calls and the model leaves closed:
      `aes(key, data)` is AES-ECB decryption of block-aligned data,
      `base64` is `base64.b64decode` (`None` where it raises) and
      `utf8` is `bytes.decode('utf-8', errors='ignore')`. */
  datatype Crypto = Crypto(
    aes: (seq<byte>, seq<byte>) -> seq<byte>,
    base64: string -> Option<seq<byte>>,
    utf8: seq<byte> -> string)

  /** `AES.new(key, AES.MODE_ECB)` accepts 16-, 24- and 32-byte keys. */
  predicate ValidAesKey(key: seq<byte>) {
    |key| == 16 || |key| == 24 || |key| == 32
  }

  /** `cipher.decrypt(data)`: ECB mode raises unless the data is a whole
      number of 16-byte blocks. */
  function Decrypt(c: Crypto, key: seq<byte>, data: seq<byte>): (r: Option<seq<byte>>)
    ensures r.Some? <==> |data| % 16 == 0
  {
    if |data| % 16 == 0 then Some(c.aes(key, data)) else None
  }

  /** The marker strings of one generation of the format: the ciphertext
      stands between `begin` and `end`, and the decrypted text is put
      between `open` and `close`. */
  datatype Markers = Markers(begin: string, end: string, open: string, close: string)

  /** Markers a block can be found with; the end marker does not start
      with whitespace. */
  predicate Usable(mk: Markers) {
    mk.begin != [] && mk.end != [] && !IsSpace(mk.end[0])
  }

  /** The markers of `plan.py`: ASCII commas, the plaintext on lines of its
      own. */
  const PlanMarkers: Markers := Markers(
    "[以下是隐私区域密文,请不要做任何编辑,否则可能导致解密失败]",
    "[以上是隐私日记,请不要编辑密文]",
    "[隐私内容开始]\n",
    "\n[隐私内容结束]")

  /** The markers of `main.py`: full-width commas, no line breaks. */
  const MainMarkers: Markers := Markers(
    "[以下是隐私区域密文，请不要做任何编辑，否则可能导致解密失败]",
    "[以上是隐私日记，请不要编辑密文]",
    "[隐私区域开始]",
    "[隐私区域结束]")

  /** Both generations' markers are usable, and they differ. */
  lemma MarkersUsable()
    ensures Usable(PlanMarkers) && Usable(MainMarkers)
    ensures PlanMarkers.begin != MainMarkers.begin && PlanMarkers.end != MainMarkers.end
  {
    assert PlanMarkers.begin[10] != MainMarkers.begin[10];
    assert PlanMarkers.end[8] != MainMarkers.end[8];
  }

  // ---------------------------------------------------------------------
  // Finding blocks: the patterns `begin(.*?)end` and `begin([\s\S]+?)end`
  // ---------------------------------------------------------------------

  /** The leftmost match of `begin(.{minBody,}?)end` with `.` matching
      everything: the index of the begin marker and of the end marker. The
      body is as short as possible. */
  function FindBlock(s: string, begin: string, end: string, minBody: nat): (r: Option<(nat, nat)>)
    requires begin != [] && end != []
    ensures r.Some? ==> r.value.0 + |begin| + minBody <= r.value.1 && r.value.1 + |end| <= |s|
  {
    match IndexFrom(s, begin, 0)
    case None => None
    case Some(i) =>
      match IndexFrom(s, end, i + |begin| + minBody)
      case None => None
      case Some(j) => Some((i, j))
  }

  /** The block found is the leftmost begin marker with the nearest end
      marker far enough after it; nothing is found exactly when no end
      marker stands far enough after any begin marker. */
  lemma FindBlockSpec(s: string, begin: string, end: string, minBody: nat)
    requires begin != [] && end != []
    ensures var r := FindBlock(s, begin, end, minBody);
            && (r.Some? ==> OccursAt(s, begin, r.value.0) && OccursAt(s, end, r.value.1))
            && (r.Some? ==> forall k :: 0 <= k < r.value.0 ==> !OccursAt(s, begin, k))
            && (r.Some? ==> forall k :: r.value.0 + |begin| + minBody <= k < r.value.1 ==> !OccursAt(s, end, k))
            && (r.None? <==> forall i, j :: OccursAt(s, begin, i) && OccursAt(s, end, j) ==> j < i + |begin| + minBody)
  {
    IndexFromSpec(s, begin, 0);
    match IndexFrom(s, begin, 0)
    case None =>
    case Some(i) =>
      IndexFromSpec(s, end, i + |begin| + minBody);
      match IndexFrom(s, end, i + |begin| + minBody)
      case None =>
        forall i', j | OccursAt(s, begin, i') && OccursAt(s, end, j)
          ensures j < i' + |begin| + minBody
        {
          assert i <= i';
        }
      case Some(j) =>
  }

  /** `re.findall` of that pattern: the bodies of all blocks, in order. */
  function FindAllBodies(s: string, begin: string, end: string, minBody: nat): seq<string>
    requires begin != [] && end != []
    decreases |s|
  {
    match FindBlock(s, begin, end, minBody)
    case None => []
    case Some((i, j)) => [s[i + |begin|..j]] + FindAllBodies(s[j + |end|..], begin, end, minBody)
  }

  // ---------------------------------------------------------------------
  // Keys
  // ---------------------------------------------------------------------

  function Zeros(n: nat): (z: seq<byte>)
    ensures |z| == n && forall i :: 0 <= i < n ==> z[i] == 0
  {
    seq(n, _ => 0)
  }

  /** The UTF-8 bytes of `str(user_id)`. */
  function IdBytes(userId: int): seq<byte> {
    Utf8Encode(IntToString(userId))
  }

  /** `plan.py`'s key: `str(user_id)` as UTF-8, zero-padded on the right
      when shorter than 16 bytes and cut to its first 16 bytes when longer. */
  function PlanKey(userId: int): (k: seq<byte>)
    ensures |k| == 16
    ensures var t := IdBytes(userId);
            && (forall i :: 0 <= i < 16 && i < |t| ==> k[i] == t[i])
            && (forall i :: |t| <= i < 16 ==> k[i] == 0)
  {
    var t := IdBytes(userId);
    if |t| < 16 then t + Zeros(16 - |t|) else t[..16]
  }

  /** `main.py`'s key: `str(user_id)` as UTF-8 left-justified to 16 bytes
      with zero bytes, never cut. */
  function MainKey(userId: int): (k: seq<byte>)
    ensures |k| == if |IdBytes(userId)| < 16 then 16 else |IdBytes(userId)|
    ensures var t := IdBytes(userId);
            && (forall i :: 0 <= i < |t| ==> k[i] == t[i])
            && (forall i :: |t| <= i < |k| ==> k[i] == 0)
  {
    var t := IdBytes(userId);
    if |t| < 16 then t + Zeros(16 - |t|) else t
  }

  /** The two derivations agree exactly on ids of at most 16 bytes; for a
      longer id only `main.py`'s key is too long for AES-128. */
  lemma KeysAgree(userId: int)
    ensures |IdBytes(userId)| <= 16 ==> PlanKey(userId) == MainKey(userId)
    ensures |IdBytes(userId)| > 16 ==> PlanKey(userId) != MainKey(userId)
  {
    var t := IdBytes(userId);
    if |t| <= 16 {
      assert |MainKey(userId)| == 16;
    }
  }

  /** The scenario of an account with id 12345. */
  lemma KeyOf12345()
    ensures PlanKey(12345) == [49, 50, 51, 52, 53, 0, 0, 0, 0, 0, 0, 0, 0, 0, 0, 0]
    ensures MainKey(12345) == PlanKey(12345)
  {
    IdBytes12345();
  }

  /** `str(12345).encode()` is the five ASCII digits. */
  lemma IdBytes12345()
    ensures IdBytes(12345) == [49, 50, 51, 52, 53]
  {
    Text12345();
    Utf8EncodeAscii("12345");
  }

  /** `str(12345)`. */
  lemma Text12345()
    ensures IntToString(12345) == "12345"
  {
    assert NatToString(1) == "1";
    assert NatToString(12) == "12";
    assert NatToString(123) == "123";
    assert NatToString(1234) == "1234";
  }

  // ---------------------------------------------------------------------
  // plan.py
  // ---------------------------------------------------------------------

  /** `plan.py` decodes the stripped ciphertext as base64 and falls back to
      hexadecimal only when base64 raises. */
  function PlanDecode(c: Crypto, ct: string): (r: Option<seq<byte>>)
    ensures c.base64(ct).Some? ==> r == c.base64(ct)
    ensures c.base64(ct).None? ==> r == FromHex(ct)
  {
    match c.base64(ct)
    case Some(b) => Some(b)
    case None => FromHex(ct)
  }

  /** The padding rule: when the last byte `p` is at most 16 the slice
      `[:-p]` is taken, which for `p == 0` is empty and for `p` beyond the
      length is empty too; an empty input raises inside the `try` and is
      kept. */
  function StripPad(d: seq<byte>): (r: seq<byte>)
    ensures |r| <= |d| && r == d[..|r|]
    ensures d == [] ==> r == []
    ensures d != [] && d[|d| - 1] > 16 ==> r == d
    ensures d != [] && d[|d| - 1] <= 16 && (d[|d| - 1] == 0 || d[|d| - 1] > |d|) ==> r == []
    ensures d != [] && 0 < d[|d| - 1] <= 16 && d[|d| - 1] <= |d| ==> |r| == |d| - d[|d| - 1]
  {
    if d == [] then d
    else
      var p := d[|d| - 1];
      if p > 16 then d
      else if p == 0 || p > |d| then []
      else d[..|d| - p]
  }

  /** PKCS#7 padding to a whole number of 16-byte blocks. */
  function Pad(m: seq<byte>): (r: seq<byte>)
    ensures |r| % 16 == 0 && |r| > |m|
  {
    var p := 16 - |m| % 16;
    m + seq(p, _ => p)
  }

  /** Stripping undoes PKCS#7 padding. */
  lemma StripPadOfPad(m: seq<byte>)
    ensures StripPad(Pad(m)) == m
  {
    var p := 16 - |m| % 16;
    assert Pad(m)[|Pad(m)| - 1] == p;
    assert Pad(m)[..|Pad(m)| - p] == m;
  }

  /** A decryption ending in a zero byte yields no text at all. */
  lemma StripPadZero(d: seq<byte>)
    requires d != [] && d[|d| - 1] == 0
    ensures StripPad(d) == []
  {
  }

  /** What one pass of the `for cipher_text in matches` loop does. */
  datatype Step = Continue(content: string) | Raised

  /** The loop leaves an exception to the outer handler exactly when the
      block decodes to bytes that are not a whole number of AES blocks. */
  predicate PlanRaises(c: Crypto, body: string) {
    var ct := Strip(body);
    ct != [] && PlanDecode(c, ct).Some? && |PlanDecode(c, ct).value| % 16 != 0
  }

  /** One block: strip the ciphertext, decode it, decrypt it, drop the
      padding, decode the text and replace every occurrence of the
      re-assembled block (built from the STRIPPED ciphertext) by the
      plaintext wrapper. */
  function PlanBlock(c: Crypto, mk: Markers, key: seq<byte>, content: string, body: string): (r: Step)
    ensures r.Raised? <==> PlanRaises(c, body)
    ensures Strip(body) == [] || PlanDecode(c, Strip(body)).None? ==> r == Continue(content)
  {
    var ct := Strip(body);
    if ct == [] then Continue(content)
    else
      match PlanDecode(c, ct)
      case None => Continue(content)
      case Some(bytes) =>
        match Decrypt(c, key, bytes)
        case None => Raised
        case Some(plain) =>
          var text := Strip(c.utf8(StripPad(plain)));
          Continue(ReplaceAll(content, mk.begin + ct + mk.end, mk.open + text + mk.close))
  }

  /** The loop over all found bodies; an exception ends it and the handler
      returns the content as far as it had been rewritten. */
  function PlanBlocks(c: Crypto, mk: Markers, key: seq<byte>, content: string, bodies: seq<string>): string
    decreases |bodies|
  {
    if bodies == [] then content
    else
      match PlanBlock(c, mk, key, content, bodies[0])
      case Raised => content
      case Continue(next) => PlanBlocks(c, mk, key, next, bodies[1..])
  }

  /** `DiaryDownloader.decrypt_privacy`. The account id is `None` when the
      service did not send one; `None` and `0` are falsy. */
  function DecryptPlan(c: Crypto, mk: Markers, content: string, userId: Option<int>): (r: string)
    requires Usable(mk)
    ensures content == [] || userId == None || userId == Some(0) ==> r == content
    ensures (forall i, j :: OccursAt(content, mk.begin, i) && OccursAt(content, mk.end, j) ==> j < i + |mk.begin|)
            ==> r == content
  {
    if content == [] || userId.None? || userId.value == 0 then content
    else
      FindBlockSpec(content, mk.begin, mk.end, 0);
      var bodies := FindAllBodies(content, mk.begin, mk.end, 0);
      if bodies == [] then content
      else PlanBlocks(c, mk, PlanKey(userId.value), content, bodies)
  }

  /** A block that is empty after stripping or that neither base64 nor hex
      can decode is skipped, and the blocks after it are still processed. */
  lemma UndecodableBlockSkipped(c: Crypto, mk: Markers, key: seq<byte>, content: string, body: string, rest: seq<string>)
    requires Strip(body) == [] || PlanDecode(c, Strip(body)).None?
    ensures PlanBlocks(c, mk, key, content, [body] + rest) == PlanBlocks(c, mk, key, content, rest)
  {
    assert ([body] + rest)[1..] == rest;
  }

  /** When a block decodes to misaligned bytes the decrypt raises: the
      blocks before it stay replaced, it and every later block stay as
      they were. */
  lemma {:induction false} MisalignedBlockStops(c: Crypto, mk: Markers, key: seq<byte>, content: string,
                                                done: seq<string>, body: string, rest: seq<string>)
    requires forall i :: 0 <= i < |done| ==> !PlanRaises(c, done[i])
    requires PlanRaises(c, body)
    ensures PlanBlocks(c, mk, key, content, done + [body] + rest) == PlanBlocks(c, mk, key, content, done)
    decreases |done|
  {
    Regroup3(done, [body], rest);
    if done == [] {
      assert done + ([body] + rest) == [body] + rest;
    } else {
      assert !PlanRaises(c, done[0]);
      var next := PlanBlock(c, mk, key, content, done[0]).content;
      DropHead(done, [body] + rest);
      Regroup3(done[1..], [body], rest);
      MisalignedBlockStops(c, mk, key, next, done[1..], body, rest);
    }
  }

  /** An occurrence of `a + b` is an occurrence of `a`. */
  lemma OccursPrefix(s: string, a: string, b: string, k: int)
    ensures OccursAt(s, a + b, k) ==> OccursAt(s, a, k)
  {
    if OccursAt(s, a + b, k) {
      assert s[k..k + |a|] == (a + b)[..|a|];
    }
  }

  /** Where `p` occurs inside a suffix it occurs in the whole text. */
  lemma OccursInSuffix(s: string, p: string, n: nat, k: int)
    requires n <= |s| && OccursAt(s[n..], p, k)
    ensures OccursAt(s, p, n + k)
  {
    assert s[n..][k..k + |p|] == s[n + k..n + k + |p|];
  }

  /** The search finds the block at `(i, j)` when no begin marker comes
      before `i` and no end marker comes between the body's shortest end and
      `j`. */
  lemma FindBlockAt(s: string, begin: string, end: string, minBody: nat, i: nat, j: nat)
    requires begin != [] && end != []
    requires OccursAt(s, begin, i) && OccursAt(s, end, j) && i + |begin| + minBody <= j
    requires forall k :: 0 <= k < i ==> !OccursAt(s, begin, k)
    requires forall k :: i + |begin| + minBody <= k < j ==> !OccursAt(s, end, k)
    ensures FindBlock(s, begin, end, minBody) == Some((i, j))
  {
    IndexFromSpec(s, begin, 0);
    IndexFromSpec(s, end, i + |begin| + minBody);
    assert IndexFrom(s, begin, 0) == Some(i);
    assert IndexFrom(s, end, i + |begin| + minBody) == Some(j);
  }

  /** A text without a begin marker has no block. */
  lemma NoBlock(s: string, begin: string, end: string, minBody: nat)
    requires begin != [] && end != []
    requires forall k :: !OccursAt(s, begin, k)
    ensures FindBlock(s, begin, end, minBody) == None
    ensures FindAllBodies(s, begin, end, minBody) == []
  {
    IndexFromSpec(s, begin, 0);
    assert IndexFrom(s, begin, 0) == None;
  }

  /** A text with a single begin marker and a single end marker after it
      holds exactly one block, and nothing is found after that block. */
  lemma OnlyBlock(pre: string, begin: string, body: string, end: string, post: string, minBody: nat)
    requires begin != [] && end != [] && |body| >= minBody
    requires forall k :: OccursAt(pre + begin + body + end + post, begin, k) ==> k == |pre|
    requires forall k :: OccursAt(pre + begin + body + end + post, end, k) ==> k == |pre| + |begin| + |body|
    ensures var s := pre + begin + body + end + post;
            var i, j := |pre|, |pre| + |begin| + |body|;
            && FindBlock(s, begin, end, minBody) == Some((i, j))
            && s[..i] == pre && s[i..j + |end|] == begin + body + end
            && s[i + |begin|..j] == body && s[j + |end|..] == post
            && FindBlock(post, begin, end, minBody) == None
            && FindAllBodies(s, begin, end, minBody) == [body]
  {
    var s := pre + begin + body + end + post;
    var i, j := |pre|, |pre| + |begin| + |body|;
    Slices5(pre, begin, body, end, post);
    Occurs5(pre, begin, body, end, post);
    FindBlockAt(s, begin, end, minBody, i, j);
    forall k ensures !OccursAt(post, begin, k) {
      if OccursAt(post, begin, k) {
        OccursInSuffix(s, begin, j + |end|, k);
      }
    }
    NoBlock(post, begin, end, minBody);
  }

  /** A body with whitespace around it differs from its stripped form
      followed by a non-space character at some position where the body
      has a space. */
  lemma SpaceMismatch(body: string, end: string) returns (x: nat)
    requires end != [] && !IsSpace(end[0]) && Strip(body) != body
    ensures x < |body| && x < |Strip(body) + end|
    ensures IsSpace(body[x]) && !IsSpace((Strip(body) + end)[x])
  {
    var ct := Strip(body);
    var k0 :| SurroundedBySpace(body, ct, k0);
    if k0 > 0 {
      x := 0;
    } else {
      x := |ct|;
      assert ct == body[..|ct|];
    }
  }

  /** When the body has whitespace around it, the block rebuilt from the
      stripped body does not occur in a text whose only begin marker is the
      block's own. */
  lemma StrippedBlockAbsent(pre: string, begin: string, body: string, end: string, post: string)
    requires begin != [] && end != [] && !IsSpace(end[0]) && Strip(body) != body
    requires forall k :: OccursAt(pre + begin + body + end + post, begin, k) ==> k == |pre|
    ensures !Contains(pre + begin + body + end + post, begin + Strip(body) + end)
  {
    var s := pre + begin + body + end + post;
    var ct := Strip(body);
    var target := begin + (ct + end);
    Regroup3(begin, ct, end);
    var x := SpaceMismatch(body, end);
    IndexMiddle5(pre, begin, body, end, post, x);
    IndexRight(begin, ct + end, x);
    forall k ensures !OccursAt(s, target, k) {
      OccursPrefix(s, begin, ct + end, k);
    }
  }

  /** A block whose ciphertext has whitespace around it is never replaced:
      the search string is rebuilt from the stripped ciphertext and so does
      not occur where the only begin marker stands. */
  lemma PaddedBlockUnchanged(c: Crypto, mk: Markers, key: seq<byte>, pre: string, body: string, post: string)
    requires Usable(mk)
    requires Strip(body) != body
    requires forall k :: OccursAt(pre + mk.begin + body + mk.end + post, mk.begin, k) ==> k == |pre|
    ensures var content := pre + mk.begin + body + mk.end + post;
            PlanBlock(c, mk, key, content, body) in {Raised, Continue(content)}
  {
    var content := pre + mk.begin + body + mk.end + post;
    var ct := Strip(body);
    StrippedBlockAbsent(pre, mk.begin, body, mk.end, post);
    if ct != [] && PlanDecode(c, ct).Some? && |PlanDecode(c, ct).value| % 16 == 0 {
      var text := Strip(c.utf8(StripPad(c.aes(key, PlanDecode(c, ct).value))));
      ReplaceAllAbsent(content, mk.begin + ct + mk.end, mk.open + text + mk.close);
    }
  }

  /** Replacing the block in a text whose only begin marker is the
      block's own replaces just that block. */
  lemma ReplaceOnlyBlock(pre: string, begin: string, body: string, end: string, post: string, rep: string)
    requires begin != []
    requires forall k :: OccursAt(pre + begin + body + end + post, begin, k) ==> k == |pre|
    ensures ReplaceAll(pre + begin + body + end + post, begin + body + end, rep) == pre + rep + post
  {
    var target := begin + (body + end);
    assert begin + body + end == target;
    assert pre + begin + body + end + post == pre + target + post;
    forall k | OccursAt(pre + target + post, target, k) ensures k == |pre| {
      OccursPrefix(pre + target + post, begin, body + end, k);
    }
    ReplaceAllOnce(pre, post, target, rep);
  }

  /** A well-formed block alone in the found list is decrypted into place. */
  lemma PlanSingleBlock(c: Crypto, mk: Markers, userId: int, content: string, ct: string, m: seq<byte>)
    requires Usable(mk)
    requires userId != 0 && content != [] && ct != [] && Strip(ct) == ct
    requires FindAllBodies(content, mk.begin, mk.end, 0) == [ct]
    requires PlanDecode(c, ct).Some? && |PlanDecode(c, ct).value| % 16 == 0
    requires c.aes(PlanKey(userId), PlanDecode(c, ct).value) == Pad(m)
    ensures DecryptPlan(c, mk, content, Some(userId))
            == ReplaceAll(content, mk.begin + ct + mk.end, mk.open + Strip(c.utf8(m)) + mk.close)
  {
    var key := PlanKey(userId);
    StripPadOfPad(m);
    assert DecryptPlan(c, mk, content, Some(userId)) == PlanBlocks(c, mk, key, content, [ct]);
    var next := ReplaceAll(content, mk.begin + ct + mk.end, mk.open + Strip(c.utf8(m)) + mk.close);
    assert PlanBlock(c, mk, key, content, ct) == Continue(next);
    assert [ct][1..] == [];
    assert PlanBlocks(c, mk, key, next, []) == next;
    assert PlanBlocks(c, mk, key, content, [ct]) == next;
  }

  /** A diary body holding one well-formed block decrypts to the plaintext
      wrapper, the text around it unchanged: the round trip of the
      exporter's decryption against the service's encryption. */
  lemma PlanRoundTrip(c: Crypto, mk: Markers, userId: int, pre: string, ct: string, post: string, m: seq<byte>)
    requires Usable(mk)
    requires userId != 0 && ct != [] && Strip(ct) == ct
    requires forall k :: OccursAt(pre + mk.begin + ct + mk.end + post, mk.begin, k) ==> k == |pre|
    requires forall k :: OccursAt(pre + mk.begin + ct + mk.end + post, mk.end, k) ==> k == |pre| + |mk.begin| + |ct|
    requires PlanDecode(c, ct).Some? && |PlanDecode(c, ct).value| % 16 == 0
    requires c.aes(PlanKey(userId), PlanDecode(c, ct).value) == Pad(m)
    ensures DecryptPlan(c, mk, pre + mk.begin + ct + mk.end + post, Some(userId))
            == pre + (mk.open + Strip(c.utf8(m)) + mk.close) + post
  {
    var content := pre + mk.begin + ct + mk.end + post;
    var rep := mk.open + Strip(c.utf8(m)) + mk.close;
    OnlyBlock(pre, mk.begin, ct, mk.end, post, 0);
    PlanSingleBlock(c, mk, userId, content, ct, m);
    ReplaceOnlyBlock(pre, mk.begin, ct, mk.end, post, rep);
  }
}

=== FILE: render.dfy ===
/** The HTML step (`trans.py`): every Markdown file under `markdown/`, in
    sorted path order, loses its first line, has its image targets pointed
    at `./Pictures/`, is converted to HTML and wrapped in an `<article>`
    carrying the date and weekday read from the file name; the articles,
    joined by line breaks, replace the template's `{{CONTENT_HTML}}`.
    The Markdown converter and today's date are parameters. */
module Render {
  import opened Wrappers
  import opened Text
  import opened Dates
  import opened Images
  import opened Sorting
  import opened Export

  // ---------------------------------------------------------------------
  // re.sub(r'^\s*.*\n', '', md, count=1)
  // ---------------------------------------------------------------------

  /** The first index at or after `from` holding `c`. */
  function NextIndex(s: string, c: char, from: nat): (r: Option<nat>)
    ensures r.Some? ==> from <= r.value < |s| && s[r.value] == c
    ensures r.Some? ==> forall i :: from <= i < r.value ==> s[i] != c
    ensures r.None? ==> forall i :: from <= i < |s| ==> s[i] != c
    decreases |s| - from
  {
    if from >= |s| then None
    else if s[from] == c then Some(from)
    else NextIndex(s, c, from + 1)
  }

  /** The last index before `upto` holding `c`. */
  function LastIndexBefore(s: string, c: char, upto: nat): (r: Option<nat>)
    requires upto <= |s|
    ensures r.Some? ==> r.value < upto && s[r.value] == c
    ensures r.Some? ==> forall i :: r.value < i < upto ==> s[i] != c
    ensures r.None? ==> forall i :: 0 <= i < upto ==> s[i] != c
    decreases upto
  {
    if upto == 0 then None
    else if s[upto - 1] == c then Some(upto - 1)
    else LastIndexBefore(s, c, upto - 1)
  }

  /** The end of the whitespace run starting at `k`. */
  function SpaceRunEnd(s: string, k: nat): (n: nat)
    requires k <= |s|
    ensures k <= n <= |s|
    ensures forall i :: k <= i < n ==> IsSpace(s[i])
    ensures n == |s| || !IsSpace(s[n])
    decreases |s| - k
  {
    if k < |s| && IsSpace(s[k]) then SpaceRunEnd(s, k + 1) else k
  }

  /** The length of the leading whitespace run, what `\s*` takes first. */
  function LeadingSpace(s: string): (n: nat)
    ensures n <= |s|
    ensures forall i :: 0 <= i < n ==> IsSpace(s[i])
    ensures n == |s| || !IsSpace(s[n])
  {
    SpaceRunEnd(s, 0)
  }

  /** `p` as a whole matches `\s*.*\n`: whitespace, then a run without a
      line break, then a line break. */
  predicate LineMatch(p: string) {
    |p| >= 1 && p[|p| - 1] == '\n' && NoBreakFrom(p[..|p| - 1], LeadingSpace(p[..|p| - 1]))
  }

  /** No line break at or after index `k`. */
  predicate NoBreakFrom(x: string, k: nat) {
    forall i :: k <= i < |x| ==> x[i] != '\n'
  }

  /** The first-line strip. Without `MULTILINE` the pattern is anchored at
      the very start; greedy `\s*` first swallows all leading whitespace,
      line breaks included, and gives characters back only when no line
      break follows. */
  function StripFirstLine(s: string): (r: string)
    ensures |r| <= |s| && r == s[|s| - |r|..]
    ensures '\n' !in s ==> r == s
  {
    var w := LeadingSpace(s);
    match NextIndex(s, '\n', w)
    case Some(p) => s[p + 1..]
    case None =>
      match LastIndexBefore(s, '\n', w)
      case Some(q) => s[q + 1..]
      case None => s
  }

  /** The leading whitespace of a prefix is that of the whole, cut to the
      prefix. */
  lemma LeadingSpacePrefix(s: string, m: nat)
    requires m <= |s|
    ensures LeadingSpace(s[..m]) == if m <= LeadingSpace(s) then m else LeadingSpace(s)
  {
    var w := LeadingSpace(s);
    var x := s[..m];
    var n := LeadingSpace(x);
    if m > w {
      assert x[w] == s[w];
    }
  }

  /** The first `cut` characters are the longest prefix matching
      `\s*.*\n`, or no prefix matches when `cut` is 0. */
  ghost predicate LongestLine(s: string, cut: nat)
    requires cut <= |s|
  {
    && (cut > 0 ==> LineMatch(s[..cut]))
    && forall n :: cut < n <= |s| ==> !LineMatch(s[..n])
  }

  /** The text removed is the longest prefix matching `\s*.*\n`, and
      nothing is removed when no prefix matches. */
  lemma StripFirstLineSpec(s: string)
    ensures LongestLine(s, |s| - |StripFirstLine(s)|)
  {
    if NextIndex(s, '\n', LeadingSpace(s)).Some? {
      LineAfterSpace(s);
    } else if LastIndexBefore(s, '\n', LeadingSpace(s)).Some? {
      LineInSpace(s);
    } else {
      NoLineBreak(s);
    }
  }

  /** A text without a line break has no prefix that matches. */
  lemma NoLineBreak(s: string)
    requires NextIndex(s, '\n', LeadingSpace(s)).None?
    requires LastIndexBefore(s, '\n', LeadingSpace(s)).None?
    ensures StripFirstLine(s) == s
    ensures LongestLine(s, |s| - |StripFirstLine(s)|)
  {
    forall n | 0 < n <= |s| ensures !LineMatch(s[..n]) {
      assert s[..n][n - 1] == s[n - 1];
    }
  }

  /** With a line break after the leading whitespace, the match runs to the
      first such break. */
  lemma LineAfterSpace(s: string)
    requires NextIndex(s, '\n', LeadingSpace(s)).Some?
    ensures var p := NextIndex(s, '\n', LeadingSpace(s)).value;
            StripFirstLine(s) == s[p + 1..] && LongestLine(s, |s| - |StripFirstLine(s)|)
  {
    var p := NextIndex(s, '\n', LeadingSpace(s)).value;
    assert |s| - |StripFirstLine(s)| == p + 1;
    FirstBreakLine(s, p);
  }

  /** The prefix through the first line break after the leading
      whitespace is the longest match. */
  lemma FirstBreakLine(s: string, p: nat)
    requires NextIndex(s, '\n', LeadingSpace(s)) == Some(p)
    ensures p < |s| && LongestLine(s, p + 1)
  {
    assert p > LeadingSpace(s) by {
      assert IsSpace(s[p]);
    }
    FirstBreakMatches(s, p);
    forall n | p + 1 < n <= |s| ensures !LineMatch(s[..n]) {
      BreakInside(s, p, n);
    }
  }

  /** The prefix through that line break matches. */
  lemma FirstBreakMatches(s: string, p: nat)
    requires LeadingSpace(s) < p < |s| && s[p] == '\n'
    requires forall i :: LeadingSpace(s) <= i < p ==> s[i] != '\n'
    ensures LineMatch(s[..p + 1])
  {
    var y := s[..p];
    assert NoBreakFrom(y, LeadingSpace(y)) by {
      LeadingSpacePrefix(s, p);
      forall i | LeadingSpace(y) <= i < |y| ensures y[i] != '\n' {
        assert y[i] == s[i];
      }
    }
    LineMatchBreak(y);
    assert s[..p + 1] == y + "\n";
  }

  /** A line without a break after its leading whitespace, then a break,
      matches. */
  lemma LineMatchBreak(y: string)
    requires NoBreakFrom(y, LeadingSpace(y))
    ensures LineMatch(y + "\n")
  {
    assert (y + "\n")[..|y|] == y;
  }

  /** A prefix running past a line break after the leading whitespace
      does not match. */
  lemma BreakInside(s: string, p: nat, n: nat)
    requires LeadingSpace(s) < p && p + 1 < n <= |s| && s[p] == '\n'
    ensures !LineMatch(s[..n])
  {
    assert s[..n][..n - 1] == s[..n - 1];
    LeadingSpacePrefix(s, n - 1);
    assert s[..n - 1][p] == '\n';
  }

  /** With no line break after the leading whitespace, the match gives
      back whitespace up to the last line break inside it. */
  lemma LineInSpace(s: string)
    requires NextIndex(s, '\n', LeadingSpace(s)).None?
    requires LastIndexBefore(s, '\n', LeadingSpace(s)).Some?
    ensures var q := LastIndexBefore(s, '\n', LeadingSpace(s)).value;
            StripFirstLine(s) == s[q + 1..] && LongestLine(s, |s| - |StripFirstLine(s)|)
  {
    var q := LastIndexBefore(s, '\n', LeadingSpace(s)).value;
    assert |s| - |StripFirstLine(s)| == q + 1;
    assert s[..q + 1][..q] == s[..q];
    LeadingSpacePrefix(s, q);
    forall n | q + 1 < n <= |s| ensures !LineMatch(s[..n]) {
      assert s[..n][n - 1] == s[n - 1];
    }
  }

  /** A first line that neither is empty nor starts with whitespace is
      removed exactly, line break included. */
  lemma StripHeaderLine(header: string, rest: string)
    requires header != [] && !IsSpace(header[0]) && '\n' !in header
    ensures StripFirstLine(header + "\n" + rest) == rest
  {
    var s := header + "\n" + rest;
    assert s[0] == header[0];
    assert LeadingSpace(s) == 0;
    forall i | 0 <= i < |header| ensures s[i] != '\n' {
      assert s[i] == header[i];
    }
    assert s[|header|] == '\n';
    assert NextIndex(s, '\n', 0) == Some(|header|);
    assert s[|header| + 1..] == rest;
  }

  /** The HTML step drops exactly the `==date weekday==` line of a file
      written by `plan.py`, and keeps the blank line after it. */
  lemma PlanHeaderDropped(dateStr: string, weekday: string, title: string,
                          weather: string, mood: string, body: string)
    requires '\n' !in dateStr && '\n' !in weekday
    ensures var ls := PlanLines(dateStr, weekday, title, weather, mood, body);
            StripFirstLine(Join(ls, "\n")) == Join(ls[1..], "\n")
  {
    var ls := PlanLines(dateStr, weekday, title, weather, mood, body);
    var header := ls[0];
    assert header == "==" + dateStr + " " + weekday + "==";
    assert header[0] == '=';
    assert '\n' !in header;
    assert Join(ls, "\n") == header + "\n" + Join(ls[1..], "\n");
    StripHeaderLine(header, Join(ls[1..], "\n"));
  }

  // ---------------------------------------------------------------------
  // Image targets
  // ---------------------------------------------------------------------

  /** `os.path.basename`: what follows the last `/`. */
  function Basename(p: string): (r: string)
    ensures |r| <= |p| && r == p[|p| - |r|..] && '/' !in r
    ensures r == p || p[|p| - |r| - 1] == '/'
  {
    match LastIndexBefore(p, '/', |p|)
    case Some(k) => p[k + 1..]
    case None => p
  }

  /** Where the HTML step points an image. */
  function NewTarget(t: string): string {
    "./Pictures/" + Basename(t)
  }

  /** Replaces every occurrence of each listed target in turn, each one
      throughout the text as it stands after the previous ones. */
  function ReplaceTargets(md: string, ts: seq<string>): string
    decreases |ts|
  {
    if ts == [] then md else ReplaceTargets(ReplaceAll(md, ts[0], NewTarget(ts[0])), ts[1..])
  }

  /** The loop over `re.findall(...)`: the targets are found once, up
      front, and each is then replaced with `str.replace`. */
  function RewriteTargets(md: string): (r: string)
    ensures Targets(md) == [] ==> r == md
  {
    ReplaceTargets(md, Targets(md))
  }

  /** A diary with one image, whose target occurs nowhere else, gets that
      image's target replaced by `./Pictures/<basename>` and nothing else
      changed. */
  lemma OneImage(pre: string, alt: string, target: string, post: string)
    requires '!' !in pre && '!' !in post && target != []
    requires forall i :: 0 <= i < |alt| ==> alt[i] != ']' && alt[i] != '\n'
    requires forall i :: 0 <= i < |target| ==> target[i] != ')' && target[i] != '\n'
    requires forall i :: OccursAt(pre + Image(alt, target) + post, target, i) ==> i == |pre| + |alt| + 4
    ensures RewriteTargets(pre + Image(alt, target) + post) == pre + Image(alt, NewTarget(target)) + post
  {
    var md := pre + Image(alt, target) + post;
    OneImageTarget(pre, alt, target, post);
    assert RewriteTargets(md) == ReplaceTargets(md, [target]);
    assert [target][1..] == [];
    ReplaceInImage(pre, alt, target, NewTarget(target), post);
  }

  /** The targets are collected before any replacement and each replacement
      is global, so an image used twice is rewritten twice and both links
      end up as `./Pictures/./Pictures/<name>`: the rewrite is not
      idempotent. */
  lemma RepeatedTarget(alt1: string, alt2: string, x: char)
    requires forall i :: 0 <= i < |alt1| ==> alt1[i] != ']' && alt1[i] != '\n' && alt1[i] != x
    requires forall i :: 0 <= i < |alt2| ==> alt2[i] != ']' && alt2[i] != '\n' && alt2[i] != x
    requires x !in "./Pictures/()![]\n"
    ensures RewriteTargets(Image(alt1, [x]) + Image(alt2, [x]))
            == Image(alt1, "./Pictures/" + "./Pictures/" + [x]) + Image(alt2, "./Pictures/" + "./Pictures/" + [x])
  {
    var md := Image(alt1, [x]) + Image(alt2, [x]);
    PairTargets(alt1, alt2, [x]);
    assert NewTarget([x]) == "./Pictures/" + [x];
    ReplaceTargetsTwice(md, [x]);
    PairReplacedTwice(alt1, alt2, x);
  }

  /** The same `plan.py` link twice (one picture placed twice in a diary):
      both links end up as `././Pictures/<id>.jpg`, which still names the
      same file relative to the page. */
  lemma RepeatedPlanLink(d: string)
    requires AllDecimal(d)
    ensures RewriteTargets(PlanLink(d) + PlanLink(d))
            == Image("图片" + d, "./" + "./" + PlanTarget(d)) + Image("图片" + d, "./" + "./" + PlanTarget(d))
  {
    var t, md := PlanTarget(d), PlanLink(d) + PlanLink(d);
    PlanLinkPair(d);
    PlanLinkShape(d);
    PlanTargetMoved(d);
    ReplaceTargetsTwice(md, t);
    PairPrefixedTwice("图片" + d, t);
  }

  /** Two copies of a `plan.py` link give its target twice. */
  lemma PlanLinkPair(d: string)
    requires AllDecimal(d)
    ensures Targets(PlanLink(d) + PlanLink(d)) == [PlanTarget(d), PlanTarget(d)]
  {
    TargetsLink(d, PlanLink(d));
    TargetsLink(d, "");
    assert PlanLink(d) + "" == PlanLink(d);
    TargetsNone("");
  }

  /** A `plan.py` link is an image whose target starts with a character
      its alt text lacks. */
  lemma PlanLinkShape(d: string)
    requires AllDecimal(d)
    ensures PlanLink(d) == Image("图片" + d, PlanTarget(d))
    ensures |PlanTarget(d)| > 1 && PlanTarget(d)[0] == 'P' && 'P' !in "图片" + d
  {
    forall i | 0 <= i < |d| ensures d[i] != 'P' {
      assert IsDecimal(d[i]);
    }
  }

  /** The HTML step moves a `plan.py` target under `./`. */
  lemma PlanTargetMoved(d: string)
    requires AllDecimal(d)
    ensures NewTarget(PlanTarget(d)) == "./" + PlanTarget(d)
  {
    var name := d + ".jpg";
    forall i | 0 <= i < |d| ensures d[i] != '/' {
      assert IsDecimal(d[i]);
    }
    assert '/' !in name;
    assert PlanTarget(d) == "Pictures" + "/" + name;
    BasenameAfterSlash("Pictures", name);
  }

  /** Replacing a target by `./` and itself twice over a pair of images
      with that target prefixes both with `././`. */
  lemma PairPrefixedTwice(alt: string, t: string)
    requires |t| > 1 && t[0] !in alt && t[0] !in "![]()./"
    ensures var nt := "./" + t;
            ReplaceAll(ReplaceAll(Image(alt, t) + Image(alt, t), t, nt), t, nt)
            == Image(alt, "./" + "./" + t) + Image(alt, "./" + "./" + t)
  {
    var nt := "./" + t;
    var a, b, c := "![" + alt + "](", ")" + "![" + alt + "](", ")";
    assert t[0] !in a && t[0] !in b;
    ImagePairShape(alt, alt, t);
    ReplaceTwiceHeadFree(a, b, c, t, nt);
    ImagePairNested(alt, alt, "./", t);
    var a', b' := a + "./", b + "./";
    assert t[0] !in a' && t[0] !in b';
    ReplaceTwiceHeadFree(a', b', c, t, nt);
  }

  /** Two images with the same target give that target twice. */
  lemma PairTargets(alt1: string, alt2: string, t: string)
    requires forall i :: 0 <= i < |alt1| ==> alt1[i] != ']' && alt1[i] != '\n'
    requires forall i :: 0 <= i < |alt2| ==> alt2[i] != ']' && alt2[i] != '\n'
    requires forall i :: 0 <= i < |t| ==> t[i] != ')' && t[i] != '\n'
    ensures Targets(Image(alt1, t) + Image(alt2, t)) == [t, t]
  {
    TargetsOfImage(alt1, t, Image(alt2, t));
    TargetsOfImage(alt2, t, []);
    assert Image(alt2, t) + [] == Image(alt2, t);
  }

  /** Replacing a one-character target twice in a pair of images nests the
      prefix twice in both. */
  lemma PairReplacedTwice(alt1: string, alt2: string, x: char)
    requires x !in alt1 && x !in alt2 && x !in "./Pictures/()![]"
    ensures var md, rep := Image(alt1, [x]) + Image(alt2, [x]), "./Pictures/" + [x];
            ReplaceAll(ReplaceAll(md, [x], rep), [x], rep)
            == Image(alt1, "./Pictures/" + "./Pictures/" + [x]) + Image(alt2, "./Pictures/" + "./Pictures/" + [x])
  {
    var rep := "./Pictures/" + [x];
    var a, b, c := "![" + alt1 + "](", ")" + "![" + alt2 + "](", ")";
    assert x !in a && x !in b && x !in c;
    ImagePairShape(alt1, alt2, [x]);
    ReplaceTwice(a, b, c, x, rep);
    var a', b' := a + "./Pictures/", b + "./Pictures/";
    assert x !in a' && x !in b';
    ImagePairNested(alt1, alt2, "./Pictures/", [x]);
    ReplaceTwice(a', b', c, x, rep);
  }

  lemma ReplaceTargetsTwice(md: string, t: string)
    ensures ReplaceTargets(md, [t, t]) == ReplaceAll(ReplaceAll(md, t, NewTarget(t)), t, NewTarget(t))
  {
    var once := ReplaceAll(md, t, NewTarget(t));
    assert [t, t][1..] == [t] && [t][1..] == [];
    assert ReplaceTargets(md, [t, t]) == ReplaceTargets(once, [t]);
    assert ReplaceTargets(once, [t]) == ReplaceTargets(ReplaceAll(once, t, NewTarget(t)), []);
  }

  lemma ImagePairShape(alt1: string, alt2: string, t: string)
    ensures Image(alt1, t) + Image(alt2, t) == ("![" + alt1 + "](") + t + (")" + "![" + alt2 + "](") + t + ")"
  {
  }

  lemma ImagePairNested(alt1: string, alt2: string, p: string, t: string)
    ensures ("![" + alt1 + "](") + (p + t) + (")" + "![" + alt2 + "](") + (p + t) + ")"
            == ("![" + alt1 + "](" + p) + t + (")" + "![" + alt2 + "](" + p) + t + ")"
    ensures ("![" + alt1 + "](" + p) + (p + t) + (")" + "![" + alt2 + "](" + p) + (p + t) + ")"
            == Image(alt1, p + p + t) + Image(alt2, p + p + t)
  {
  }

  // ---------------------------------------------------------------------
  // The article
  // ---------------------------------------------------------------------

  const WeekdayLabels: seq<string> := ["周一", "周二", "周三", "周四", "周五", "周六", "周日"]

  /** `os.path.splitext(name)[0]`: the name without its last extension; a
      name whose only dots lead it has none. */
  function Stem(name: string): (r: string)
    ensures |r| <= |name| && r == name[..|r|]
  {
    match LastIndexBefore(name, '.', |name|)
    case None => name
    case Some(k) =>
      if exists i :: 0 <= i < k && name[i] != '.' then name[..k] else name
  }

  /** The date a file stands for: its name parsed as `%Y-%m-%d`, else
      today's date. */
  function StemDate(stem: string, today: Date): (d: Date)
    requires Valid(today)
    ensures Valid(d)
    ensures ParseDate(stem).Some? ==> d == ParseDate(stem).value
    ensures ParseDate(stem).None? ==> d == today
  {
    match ParseDate(stem)
    case Some(d) => d
    case None => today
  }

  /** The `<article>` of one diary. */
  function Article(date: string, weekday: string, html: string): string {
    "\n<article class=\"diary\">\n  <header class=\"meta\">\n    <div class=\"date\">" + date
    + "</div>\n    <div class=\"weekday\">" + weekday
    + "</div>\n  </header>\n  <h1 class=\"title\"></h1>\n  <section class=\"content\">" + html
    + "</section>\n</article>\n"
  }

  /** One Markdown file (its path and text) as an article. */
  function RenderFile(markdown: string -> string, today: Date, path: string, text: string): string
    requires Valid(today)
  {
    var date := StemDate(Stem(Basename(path)), today);
    Article(FormatDate(date), WeekdayLabels[Weekday(date)], markdown(RewriteTargets(StripFirstLine(text))))
  }

  /** A file named after a zero-padded date shows that very date text and
      the weekday of that date; `today` plays no part. */
  lemma RenderDatedFile(markdown: string -> string, today: Date, folder: string, dateStr: string, text: string)
    requires Valid(today)
    requires IsoShaped(dateStr) && ParseDate(dateStr).Some?
    ensures var d := ParseDate(dateStr).value;
            RenderFile(markdown, today, folder + "/" + dateStr + ".md", text)
            == Article(dateStr, WeekdayLabels[Weekday(d)], markdown(RewriteTargets(StripFirstLine(text))))
  {
    var path := folder + "/" + dateStr + ".md";
    IsoHasNoSeparator(dateStr);
    BasenameAfterSlash(folder, dateStr + ".md");
    assert path == folder + "/" + (dateStr + ".md");
    StemOfMarkdown(dateStr);
    assert Stem(Basename(path)) == dateStr;
    FormatParse(dateStr);
  }

  /** A `%Y-%m-%d` text holds neither a `/` nor a `.`. */
  lemma IsoHasNoSeparator(s: string)
    requires IsoShaped(s)
    ensures '/' !in s && '.' !in s
  {
    forall i | 0 <= i < |s| ensures s[i] != '/' && s[i] != '.' {
      if i < 4 { assert s[..4][i] == s[i]; }
      else if 4 < i < 7 { assert s[5..7][i - 5] == s[i]; }
      else if 7 < i { assert s[8..][i - 8] == s[i]; }
    }
  }

  /** The base name of `folder/name` is `name` when `name` has no `/`. */
  lemma BasenameAfterSlash(folder: string, name: string)
    requires '/' !in name
    ensures Basename(folder + "/" + name) == name
  {
    var path := folder + "/" + name;
    assert path[|folder|] == '/';
    forall i | |folder| < i < |path| ensures path[i] != '/' {
      assert path[i] == name[i - |folder| - 1];
    }
    assert LastIndexBefore(path, '/', |path|) == Some(|folder|);
    assert path[|folder| + 1..] == name;
  }

  /** Dropping the `.md` of a dotless, non-empty stem gives the stem. */
  lemma StemOfMarkdown(stem: string)
    requires stem != [] && '.' !in stem
    ensures Stem(stem + ".md") == stem
  {
    var name := stem + ".md";
    assert name[|stem|] == '.' && name[0] == stem[0];
    forall i | |stem| < i < |name| ensures name[i] != '.' {
    }
    assert LastIndexBefore(name, '.', |name|) == Some(|stem|);
    assert name[..|stem|] == stem;
  }

  /** An unparsable file name falls back to today's date. */
  lemma RenderUndatedFile(markdown: string -> string, today: Date, path: string, text: string)
    requires Valid(today) && ParseDate(Stem(Basename(path))).None?
    ensures RenderFile(markdown, today, path, text)
            == Article(FormatDate(today), WeekdayLabels[Weekday(today)],
                       markdown(RewriteTargets(StripFirstLine(text))))
  {
  }

  // ---------------------------------------------------------------------
  // The document
  // ---------------------------------------------------------------------

  function FilePath(f: (string, string)): string {
    f.0
  }

  /** The articles of the files, in the given order. */
  function Articles(markdown: string -> string, today: Date, files: seq<(string, string)>): seq<string>
    requires Valid(today)
  {
    seq(|files|, i requires 0 <= i < |files| => RenderFile(markdown, today, files[i].0, files[i].1))
  }

  /** `TEMPLATE.replace("{{CONTENT_HTML}}", "\n".join(articles))`. */
  function FillTemplate(template: string, articles: seq<string>): string {
    ReplaceAll(template, "{{CONTENT_HTML}}", Join(articles, "\n"))
  }

  /** The whole page: the files (path and text, as `glob` lists them) in
      sorted path order. */
  function Document(markdown: string -> string, today: Date, template: string,
                    files: seq<(string, string)>): (r: string)
    requires Valid(today)
    ensures (forall i :: !OccursAt(template, "{{CONTENT_HTML}}", i)) ==> r == template
  {
    var articles := Articles(markdown, today, SortBy(files, FilePath, false));
    FillNoSlot(template, articles);
    FillTemplate(template, articles)
  }

  /** A template with a single slot gets the articles exactly there. */
  lemma FillOneSlot(pre: string, post: string, articles: seq<string>)
    requires forall i :: OccursAt(pre + "{{CONTENT_HTML}}" + post, "{{CONTENT_HTML}}", i) ==> i == |pre|
    ensures FillTemplate(pre + "{{CONTENT_HTML}}" + post, articles) == pre + Join(articles, "\n") + post
  {
    ReplaceAllOnce(pre, post, "{{CONTENT_HTML}}", Join(articles, "\n"));
  }

  /** A template without a slot is written out unchanged. */
  lemma FillNoSlot(template: string, articles: seq<string>)
    ensures (forall i :: !OccursAt(template, "{{CONTENT_HTML}}", i)) ==> FillTemplate(template, articles) == template
  {
    if forall i :: !OccursAt(template, "{{CONTENT_HTML}}", i) {
      ReplaceAllAbsent(template, "{{CONTENT_HTML}}", Join(articles, "\n"));
    }
  }

  /** Where `plan.py` puts the diary whose service date is the text `s`, as
      `glob` lists it: the folder is named after the parsed date, the file
      after the text exactly as the service sent it. */
  function PlanPath(s: string): string
    requires ParseDate(s).Some?
  {
    "markdown/" + MonthKey(ParseDate(s).value) + "/" + s + ".md"
  }

  /** Saving under the working directory puts a diary at `PlanPath` of its
      own date text. */
  lemma PlanSavePath(d: Diary)
    requires d.createddate != [] && ParseDate(d.createddate).Some?
    ensures PlanSave(d, "").Some?
    ensures PlanSave(d, "").value.filePath == PlanPath(d.createddate)
  {
    var date := ParseDate(d.createddate).value;
    var ym := MonthKey(date);
    NatToStringDigits(date.year);
    assert ym[0] == NatToString(date.year)[0];
    assert PathJoin("", "markdown") == "markdown";
    assert PathJoin("markdown", ym) == "markdown/" + ym;
    var name := d.createddate + ".md";
    assert name[0] == d.createddate[0];
    assert PathJoin("markdown/" + ym, name) == "markdown/" + ym + "/" + name;
  }

  /** For zero-padded date texts from year 1000 on, path order is date
      order. */
  lemma PlanPathOrder(s: string, t: string)
    requires IsoShaped(s) && ParseDate(s).Some? && ParseDate(s).value.year >= 1000
    requires IsoShaped(t) && ParseDate(t).Some? && ParseDate(t).value.year >= 1000
    ensures LexLess(PlanPath(s), PlanPath(t)) <==> Before(ParseDate(s).value, ParseDate(t).value)
  {
    var d, e := ParseDate(s).value, ParseDate(t).value;
    FormatParse(s);
    FormatParse(t);
    MonthKeyShape(d);
    MonthKeyShape(e);
    PathOfDateText(s, t);
    FormatOrder(d, e);
  }

  /** A date text without zero padding is still accepted by `strptime`,
      but its file then sorts by characters: 12 March lands before 5 March. */
  lemma UnpaddedNamesMisorder()
    ensures ParseDate("2024-3-5") == Some(Date(2024, 3, 5))
    ensures ParseDate("2024-3-12") == Some(Date(2024, 3, 12))
    ensures Before(Date(2024, 3, 5), Date(2024, 3, 12))
    ensures LexLess(PlanPath("2024-3-12"), PlanPath("2024-3-5"))
  {
    UnpaddedParses();
    Year2024();
    assert PadDigits(3, 2) == "03";
    assert MonthKey(Date(2024, 3, 5)) == "2024-03" == MonthKey(Date(2024, 3, 12));
    var dir := "markdown/" + "2024-03" + "/" + "2024-3-";
    assert PlanPath("2024-3-12") == dir + "12.md";
    assert PlanPath("2024-3-5") == dir + "5.md";
    LexSameHead(dir, "12.md", "5.md");
  }

  lemma UnpaddedParses()
    ensures ParseDate("2024-3-5") == Some(Date(2024, 3, 5))
    ensures ParseDate("2024-3-12") == Some(Date(2024, 3, 12))
  {
    var s, t := "2024-3-5", "2024-3-12";
    Year2024();
    assert s[..4] == "2024" && t[..4] == "2024";
    assert MonthField(s) == Some((3, 7)) && s[7..] == "5";
    assert MonthField(t) == Some((3, 7)) && t[7..] == "12";
    assert DayField("5") == Some(5) && DayField("12") == Some(12);
  }

  lemma Year2024()
    ensures AllDecimal("2024") && DecimalValue("2024") == 2024
    ensures NatToString(2024) == "2024"
  {
    assert "2024"[..3] == "202" && "202"[..2] == "20" && "20"[..1] == "2" && "2"[..0] == "";
    assert DecimalValue("2") == 2;
    assert DecimalValue("20") == 20;
    assert DecimalValue("202") == 202;
    assert NatToString(2) == "2";
    assert NatToString(20) == "20";
    assert NatToString(202) == "202";
  }

  /** Paths built as `markdown/<first 7 characters>/<text>.md` from texts
      of one length compare as the texts do. */
  lemma PathOfDateText(f: string, g: string)
    requires |f| == |g| == 10
    ensures LexLess("markdown/" + f[..7] + "/" + f + ".md", "markdown/" + g[..7] + "/" + g + ".md")
            <==> LexLess(f, g)
  {
    var u, v := f[..7] + "/" + f, g[..7] + "/" + g;
    assert "markdown/" + f[..7] + "/" + f == "markdown/" + u;
    assert "markdown/" + g[..7] + "/" + g == "markdown/" + v;
    LexSameTail("markdown/" + u, "markdown/" + v, ".md");
    LexSameHead("markdown/", u, v);
    MonthThenDate(f, g);
  }

  /** `<first 7 characters>/<text>` compares as the text does. */
  lemma MonthThenDate(f: string, g: string)
    requires |f| == |g| == 10
    ensures LexLess(f[..7] + "/" + f, g[..7] + "/" + g) <==> LexLess(f, g)
  {
    LexConcat(f[..7] + "/", f, g[..7] + "/", g);
    LexSameTail(f[..7], g[..7], "/");
    assert f[..7] + "/" == g[..7] + "/" ==> f[..7] == g[..7] by {
      if f[..7] + "/" == g[..7] + "/" {
        assert (f[..7] + "/")[..7] == f[..7];
      }
    }
    assert f == f[..7] + f[7..] && g == g[..7] + g[7..];
    LexConcat(f[..7], f[7..], g[..7], g[7..]);
  }


  /** Files sorted by path, each at its `plan.py` location, come in date
      order: the articles run from the oldest diary to the newest. */
  lemma SortedPathsChronological(files: seq<(string, string)>, texts: seq<string>)
    requires |files| == |texts|
    requires forall i :: 0 <= i < |texts| ==> IsoShaped(texts[i]) && ParseDate(texts[i]).Some?
    requires forall i :: 0 <= i < |texts| ==> ParseDate(texts[i]).value.year >= 1000 && files[i].0 == PlanPath(texts[i])
    requires Sorted(files, FilePath, false)
    ensures forall i, j :: 0 <= i < j < |texts| ==> NotAfter(ParseDate(texts[i]).value, ParseDate(texts[j]).value)
  {
    forall i, j | 0 <= i < j < |texts| ensures NotAfter(ParseDate(texts[i]).value, ParseDate(texts[j]).value) {
      assert !Precedes(FilePath(files[j]), FilePath(files[i]), false);
      PlanPathOrder(texts[j], texts[i]);
    }
  }

  /** The page lists every file once, in sorted path order. */
  lemma DocumentOrder(markdown: string -> string, today: Date, template: string, files: seq<(string, string)>)
    requires Valid(today)
    ensures var sorted := SortBy(files, FilePath, false);
            && multiset(sorted) == multiset(files)
            && Sorted(sorted, FilePath, false)
            && Document(markdown, today, template, files)
               == FillTemplate(template, Articles(markdown, today, sorted))
  {
    SortBySorted(files, FilePath, false);
  }
}

=== FILE: sorting.dfy ===
/** Python's `list.sort(key=..., reverse=...)` on string keys: a stable
    sort, also when reversed (records with equal keys keep their original
    order either way). Modelled as an insertion sort. */
module Sorting {
  import opened Text

  /** `a` strictly goes before `b`: ascending, or descending when `desc`. */
  predicate Precedes(a: string, b: string, desc: bool) {
    if desc then LexLess(b, a) else LexLess(a, b)
  }

  lemma PrecedesIrreflexive(a: string, desc: bool)
    ensures !Precedes(a, a, desc)
  {
    LexIrreflexive(a);
  }

  lemma PrecedesTransitive(a: string, b: string, c: string, desc: bool)
    requires Precedes(a, b, desc) && Precedes(b, c, desc)
    ensures Precedes(a, c, desc)
  {
    if desc {
      LexTransitive(c, b, a);
    } else {
      LexTransitive(a, b, c);
    }
  }

  lemma PrecedesTotal(a: string, b: string, desc: bool)
    ensures a == b || Precedes(a, b, desc) || Precedes(b, a, desc)
  {
    LexTotal(a, b);
  }

  lemma PrecedesAsymmetric(a: string, b: string, desc: bool)
    requires Precedes(a, b, desc)
    ensures !Precedes(b, a, desc)
  {
    if Precedes(b, a, desc) {
      PrecedesTransitive(a, b, a, desc);
      PrecedesIrreflexive(a, desc);
    }
  }

  /** No element goes strictly before an earlier one. */
  ghost predicate Sorted<T>(xs: seq<T>, key: T -> string, desc: bool) {
    forall i, j :: 0 <= i < j < |xs| ==> !Precedes(key(xs[j]), key(xs[i]), desc)
  }

  /** The elements with key `k`, in order. */
  function KeyFilter<T>(xs: seq<T>, key: T -> string, k: string): (r: seq<T>)
    ensures forall x :: x in r ==> x in xs && key(x) == k
    decreases |xs|
  {
    if xs == [] then []
    else (if key(xs[0]) == k then [xs[0]] else []) + KeyFilter(xs[1..], key, k)
  }

  /** Inserts `x` before the first element it strictly precedes, so after
      every element with an equal key. */
  function Insert<T>(x: T, ys: seq<T>, key: T -> string, desc: bool): (r: seq<T>)
    ensures multiset(r) == multiset(ys) + multiset{x}
    decreases |ys|
  {
    if ys == [] then [x]
    else if Precedes(key(x), key(ys[0]), desc) then [x] + ys
    else
      assert ys == [ys[0]] + ys[1..];
      [ys[0]] + Insert(x, ys[1..], key, desc)
  }

  /** `sorted(xs, key=key, reverse=desc)`. */
  function SortBy<T>(xs: seq<T>, key: T -> string, desc: bool): (r: seq<T>)
    ensures multiset(r) == multiset(xs)
    decreases |xs|
  {
    if xs == [] then []
    else
      assert xs == xs[..|xs| - 1] + [xs[|xs| - 1]];
      Insert(xs[|xs| - 1], SortBy(xs[..|xs| - 1], key, desc), key, desc)
  }

  lemma SortedTail<T>(ys: seq<T>, key: T -> string, desc: bool)
    requires ys != [] && Sorted(ys, key, desc)
    ensures Sorted(ys[1..], key, desc)
  {
    forall i, j | 0 <= i < j < |ys[1..]| ensures !Precedes(key(ys[1..][j]), key(ys[1..][i]), desc) {
      assert ys[1..][i] == ys[i + 1] && ys[1..][j] == ys[j + 1];
    }
  }

  /** What strictly precedes the first element of a sorted sequence
      strictly precedes all of it. */
  lemma PrecedesAll<T>(k: string, ys: seq<T>, key: T -> string, desc: bool)
    requires ys != [] && Precedes(k, key(ys[0]), desc) && Sorted(ys, key, desc)
    ensures forall j :: 0 <= j < |ys| ==> Precedes(k, key(ys[j]), desc)
  {
    forall j | 0 < j < |ys| ensures Precedes(k, key(ys[j]), desc) {
      assert !Precedes(key(ys[j]), key(ys[0]), desc);
      PrecedesTotal(key(ys[j]), key(ys[0]), desc);
      if key(ys[j]) != key(ys[0]) {
        PrecedesTransitive(k, key(ys[0]), key(ys[j]), desc);
      }
    }
  }

  lemma InsertFrontSorted<T>(x: T, ys: seq<T>, key: T -> string, desc: bool)
    requires ys != [] && Precedes(key(x), key(ys[0]), desc) && Sorted(ys, key, desc)
    ensures Sorted([x] + ys, key, desc)
  {
    PrecedesAll(key(x), ys, key, desc);
    var r := [x] + ys;
    forall i, j | 0 <= i < j < |r| ensures !Precedes(key(r[j]), key(r[i]), desc) {
      if i == 0 {
        assert r[j] == ys[j - 1];
        PrecedesAsymmetric(key(x), key(ys[j - 1]), desc);
      } else {
        assert r[i] == ys[i - 1] && r[j] == ys[j - 1];
      }
    }
  }

  lemma ConsSorted<T>(y: T, rest: seq<T>, key: T -> string, desc: bool)
    requires Sorted(rest, key, desc)
    requires forall z :: z in rest ==> !Precedes(key(z), key(y), desc)
    ensures Sorted([y] + rest, key, desc)
  {
    var r := [y] + rest;
    forall i, j | 0 <= i < j < |r| ensures !Precedes(key(r[j]), key(r[i]), desc) {
      if i == 0 {
        assert r[j] == rest[j - 1] && rest[j - 1] in rest;
      } else {
        assert r[i] == rest[i - 1] && r[j] == rest[j - 1];
      }
    }
  }

  lemma {:induction false} InsertSorted<T>(x: T, ys: seq<T>, key: T -> string, desc: bool)
    requires Sorted(ys, key, desc)
    ensures Sorted(Insert(x, ys, key, desc), key, desc)
    decreases |ys|
  {
    if ys == [] {
    } else if Precedes(key(x), key(ys[0]), desc) {
      InsertFrontSorted(x, ys, key, desc);
    } else {
      var rest := Insert(x, ys[1..], key, desc);
      SortedTail(ys, key, desc);
      InsertSorted(x, ys[1..], key, desc);
      forall z | z in rest ensures !Precedes(key(z), key(ys[0]), desc) {
        assert z in multiset(rest);
        if z != x {
          assert z in multiset(ys[1..]);
          var j :| 0 <= j < |ys[1..]| && ys[1..][j] == z;
          assert ys[j + 1] == z;
        }
      }
      ConsSorted(ys[0], rest, key, desc);
    }
  }

  /** The result is sorted. */
  lemma {:induction false} SortBySorted<T>(xs: seq<T>, key: T -> string, desc: bool)
    ensures Sorted(SortBy(xs, key, desc), key, desc)
    decreases |xs|
  {
    if xs != [] {
      SortBySorted(xs[..|xs| - 1], key, desc);
      InsertSorted(xs[|xs| - 1], SortBy(xs[..|xs| - 1], key, desc), key, desc);
    }
  }

  lemma {:induction false} KeyFilterAppend<T>(xs: seq<T>, x: T, key: T -> string, k: string)
    ensures KeyFilter(xs + [x], key, k) == KeyFilter(xs, key, k) + (if key(x) == k then [x] else [])
    decreases |xs|
  {
    if xs == [] {
      assert ([x])[1..] == [];
    } else {
      assert (xs + [x])[1..] == xs[1..] + [x];
      KeyFilterAppend(xs[1..], x, key, k);
    }
  }

  /** No element of a sorted sequence that `x`'s key strictly precedes
      has `x`'s key. */
  lemma KeyFilterAfter<T>(x: T, ys: seq<T>, key: T -> string, desc: bool)
    requires ys != [] && Precedes(key(x), key(ys[0]), desc) && Sorted(ys, key, desc)
    ensures KeyFilter(ys, key, key(x)) == []
  {
    PrecedesAll(key(x), ys, key, desc);
    PrecedesIrreflexive(key(x), desc);
  }

  /** Inserting `x` appends it to the elements with its own key and leaves
      every other key's elements alone. */
  lemma {:induction false} InsertKeyFilter<T>(x: T, ys: seq<T>, key: T -> string, desc: bool, k: string)
    requires Sorted(ys, key, desc)
    ensures KeyFilter(Insert(x, ys, key, desc), key, k)
            == KeyFilter(ys, key, k) + (if key(x) == k then [x] else [])
    decreases |ys|
  {
    var extra := if key(x) == k then [x] else [];
    if ys == [] {
      assert [x][1..] == [];
    } else if Precedes(key(x), key(ys[0]), desc) {
      assert ([x] + ys)[1..] == ys;
      if key(x) == k {
        KeyFilterAfter(x, ys, key, desc);
      }
    } else {
      SortedTail(ys, key, desc);
      InsertKeyFilter(x, ys[1..], key, desc, k);
      var rest := Insert(x, ys[1..], key, desc);
      var head := if key(ys[0]) == k then [ys[0]] else [];
      DropHead([ys[0]], rest);
      assert KeyFilter([ys[0]] + rest, key, k) == head + KeyFilter(rest, key, k);
      Regroup3(head, KeyFilter(ys[1..], key, k), extra);
    }
  }

  /** Stability: for every key, the elements with that key come out in
      the order they went in. */
  lemma {:induction false} SortByStable<T>(xs: seq<T>, key: T -> string, desc: bool, k: string)
    ensures KeyFilter(SortBy(xs, key, desc), key, k) == KeyFilter(xs, key, k)
    decreases |xs|
  {
    if xs != [] {
      var init := xs[..|xs| - 1];
      var last := xs[|xs| - 1];
      assert init + [last] == xs;
      KeyFilterAppend(init, last, key, k);
      var sorted := SortBy(init, key, desc);
      assert SortBy(xs, key, desc) == Insert(last, sorted, key, desc);
      SortByStable(init, key, desc, k);
      SortBySorted(init, key, desc);
      InsertKeyFilter(last, sorted, key, desc, k);
    }
  }
}

=== FILE: text.dfy ===
/** The fragment of Python's `str` behaviour the exporter relies on:
    `find`, `replace`, `strip`, `split`/`join`, comparison, `int()` of a
    digit string and `str()` / `%0Nd` of a number. Strings are sequences of
    code points, as in Python 3. */
module Text {
  import opened Wrappers

  /** Python's `str.isspace`, which is also what `str.strip()` removes and
      what `\s` matches in a `str` regular expression. */
  predicate IsSpace(c: char) {
    || ('\t' <= c <= '\r')
    || ('\U{1c}' <= c <= ' ')
    || c == '\U{85}' || c == '\U{a0}' || c == '\U{1680}'
    || ('\U{2000}' <= c <= '\U{200a}')
    || c == '\U{2028}' || c == '\U{2029}' || c == '\U{202f}' || c == '\U{205f}'
    || c == '\U{3000}'
  }

  // ---------------------------------------------------------------------
  // Concatenation
  // ---------------------------------------------------------------------

  /** The head and tail of a concatenation with a non-empty left part. */
  lemma DropHead<T>(a: seq<T>, b: seq<T>)
    requires a != []
    ensures (a + b)[0] == a[0] && (a + b)[1..] == a[1..] + b
    ensures [a[0]] + (a[1..] + b) == a + b
  {
  }

  /** Concatenation regrouped to the right. */
  lemma Regroup3<T>(a: seq<T>, b: seq<T>, c: seq<T>)
    ensures a + b + c == a + (b + c)
  {
  }

  /** Concatenation regrouped to the right. */
  lemma Regroup5<T>(a: seq<T>, b: seq<T>, c: seq<T>, d: seq<T>, e: seq<T>)
    ensures a + b + c + d + e == a + (b + (c + (d + e)))
  {
  }

  /** Equal parts may be exchanged in a four-part concatenation. */
  lemma Rename4<T>(x: seq<T>, a: seq<T>, a': seq<T>, b: seq<T>, c: seq<T>, c': seq<T>, d: seq<T>)
    requires x == a + b + c + d && a == a' && c == c'
    ensures x == a' + b + c' + d
  {
  }

  /** A sequence cut around the element at `j`, with a further cut at `i`. */
  lemma Reassemble<T>(s: seq<T>, i: nat, j: nat)
    requires i <= j < |s|
    ensures s == s[..i] + s[i..j] + [s[j]] + s[j + 1..]
  {
    assert s[..j] == s[..i] + s[i..j];
    assert s == s[..j] + [s[j]] + s[j + 1..];
  }

  /** The five parts of a concatenation, as slices of it. */
  lemma Slices5<T>(a: seq<T>, b: seq<T>, c: seq<T>, d: seq<T>, e: seq<T>)
    ensures var s, i, j := a + b + c + d + e, |a|, |a| + |b| + |c|;
            && s[..i] == a && s[i..j + |d|] == b + c + d
            && s[i + |b|..j] == c && s[j + |d|..] == e
  {
    var s := a + b + c + d + e;
    assert s == a + (b + c + d) + e;
  }

  /** The second and fourth parts of a five-part concatenation occur at
      their places. */
  lemma Occurs5(a: string, b: string, c: string, d: string, e: string)
    ensures var s := a + b + c + d + e;
            OccursAt(s, b, |a|) && OccursAt(s, d, |a| + |b| + |c|)
  {
    var s := a + b + c + d + e;
    assert s == a + b + (c + d + e);
    assert s[|a|..|a| + |b|] == b;
    assert s == (a + b + c) + d + e;
    assert s[|a| + |b| + |c|..|a| + |b| + |c| + |d|] == d;
  }

  /** An element of the right part of a concatenation. */
  lemma IndexRight<T>(a: seq<T>, b: seq<T>, x: nat)
    requires x < |b|
    ensures (a + b)[|a| + x] == b[x]
  {
  }

  /** An element of the middle part of a five-part concatenation. */
  lemma IndexMiddle5<T>(a: seq<T>, b: seq<T>, c: seq<T>, d: seq<T>, e: seq<T>, x: nat)
    requires x < |c|
    ensures (a + b + c + d + e)[|a| + |b| + x] == c[x]
  {
    assert a + b + c + d + e == (a + b) + c + (d + e);
  }

  /** An equal middle part may stand in for another. */
  lemma SubstMiddle<T>(x: seq<T>, a: seq<T>, m: seq<T>, n: seq<T>, b: seq<T>)
    requires x == a + m + b && m == n
    ensures x == a + n + b
  {
  }

  /** An equal last part may stand in for another. */
  lemma SubstEnd<T>(x: seq<T>, a: seq<T>, y: seq<T>, z: seq<T>)
    requires x == a + y && y == z
    ensures x == a + z
  {
  }

  // ---------------------------------------------------------------------
  // Occurrences and search
  // ---------------------------------------------------------------------

  /** `p` occurs in `s` starting at index `i`. */
  predicate OccursAt(s: string, p: string, i: int) {
    0 <= i && i + |p| <= |s| && s[i..i + |p|] == p
  }

  ghost predicate Contains(s: string, p: string) {
    exists i :: OccursAt(s, p, i)
  }

  /** `p` occurs in `s` at `i`, compared character by character. */
  predicate MatchesAt(s: string, p: string, i: nat)
    requires i + |p| <= |s|
    decreases |p|
  {
    p == [] || (s[i] == p[0] && MatchesAt(s, p[1..], i + 1))
  }

  lemma {:induction false} MatchesAtOccurs(s: string, p: string, i: nat)
    requires i + |p| <= |s|
    ensures MatchesAt(s, p, i) <==> OccursAt(s, p, i)
    decreases |p|
  {
    if p != [] {
      MatchesAtOccurs(s, p[1..], i + 1);
      assert s[i..i + |p|] == [s[i]] + s[i + 1..i + 1 + |p[1..]|];
      assert p == [p[0]] + p[1..];
    }
  }

  /** `s.find(p, from)`: the first index at or after `from` where `p` occurs. */
  function IndexFrom(s: string, p: string, from: nat): (r: Option<nat>)
    ensures r.Some? ==> from <= r.value && r.value + |p| <= |s|
    decreases |s| - from
  {
    if from + |p| > |s| then None
    else if MatchesAt(s, p, from) then Some(from)
    else IndexFrom(s, p, from + 1)
  }

  /** An occurrence with none before it from `from` on is the one found. */
  lemma FirstOccurrence(s: string, p: string, from: nat, at: nat)
    requires from <= at && OccursAt(s, p, at)
    requires forall i :: from <= i < at ==> !OccursAt(s, p, i)
    ensures IndexFrom(s, p, from) == Some(at)
  {
    IndexFromSpec(s, p, from);
  }

  /** The index found is an occurrence with none before it from `from` on,
      and nothing is found exactly when there is no occurrence from `from`
      on. */
  lemma {:induction false} IndexFromSpec(s: string, p: string, from: nat)
    ensures var r := IndexFrom(s, p, from);
            && (r.Some? ==> OccursAt(s, p, r.value))
            && (r.Some? ==> forall j :: from <= j < r.value ==> !OccursAt(s, p, j))
            && (r.None? ==> forall j :: from <= j ==> !OccursAt(s, p, j))
    decreases |s| - from
  {
    if from + |p| <= |s| {
      MatchesAtOccurs(s, p, from);
      if !MatchesAt(s, p, from) {
        IndexFromSpec(s, p, from + 1);
      }
    }
  }

  // ---------------------------------------------------------------------
  // str.replace
  // ---------------------------------------------------------------------

  /** `s.replace(pat, rep)`: every occurrence of a non-empty `pat`, found
      left to right without overlap, is replaced by `rep`; an empty `pat`
      puts `rep` before every character and once more at the end. */
  function ReplaceAll(s: string, pat: string, rep: string): string
    decreases |s|
  {
    if pat == [] then InsertAround(s, rep)
    else if |s| < |pat| then s
    else if s[..|pat|] == pat then rep + ReplaceAll(s[|pat|..], pat, rep)
    else [s[0]] + ReplaceAll(s[1..], pat, rep)
  }

  function InsertAround(s: string, rep: string): string
    decreases |s|
  {
    if s == [] then rep else rep + [s[0]] + InsertAround(s[1..], rep)
  }

  /** The number of occurrences `ReplaceAll` replaces (Python's `s.count(pat)`). */
  function Count(s: string, pat: string): nat
    requires pat != []
    decreases |s|
  {
    if |s| < |pat| then 0
    else if s[..|pat|] == pat then 1 + Count(s[|pat|..], pat)
    else Count(s[1..], pat)
  }

  /** Replacing a string that does not occur changes nothing. */
  lemma {:induction false} ReplaceAllAbsent(s: string, pat: string, rep: string)
    requires pat != [] && !Contains(s, pat)
    ensures ReplaceAll(s, pat, rep) == s
    decreases |s|
  {
    if |s| >= |pat| {
      assert !OccursAt(s, pat, 0);
      assert !Contains(s[1..], pat) by {
        forall i | OccursAt(s[1..], pat, i) ensures false {
          assert s[1..][i..i + |pat|] == s[i + 1..i + 1 + |pat|];
          assert OccursAt(s, pat, i + 1);
        }
      }
      ReplaceAllAbsent(s[1..], pat, rep);
    }
  }

  /** Each replaced occurrence changes the length by `|rep| - |pat|`. */
  lemma {:induction false} ReplaceAllLength(s: string, pat: string, rep: string)
    requires pat != []
    ensures |ReplaceAll(s, pat, rep)| == |s| + Count(s, pat) * (|rep| - |pat|)
    decreases |s|
  {
    var d := |rep| - |pat|;
    if |s| < |pat| {
    } else if s[..|pat|] == pat {
      var rest := s[|pat|..];
      var c := Count(rest, pat);
      ReplaceAllLength(rest, pat, rep);
      assert ReplaceAll(s, pat, rep) == rep + ReplaceAll(rest, pat, rep);
      assert Count(s, pat) == 1 + c;
      assert |rest| == |s| - |pat|;
      Distribute(c, d);
    } else {
      ReplaceAllLength(s[1..], pat, rep);
      assert ReplaceAll(s, pat, rep) == [s[0]] + ReplaceAll(s[1..], pat, rep);
      assert Count(s, pat) == Count(s[1..], pat);
    }
  }

  lemma Distribute(c: int, d: int)
    ensures (1 + c) * d == d + c * d
  {
  }

  /** With no occurrence at the front, the first character is copied. */
  lemma ReplaceAllCopy(s: string, pat: string, rep: string)
    requires pat != [] && s != [] && !OccursAt(s, pat, 0)
    ensures ReplaceAll(s, pat, rep) == [s[0]] + ReplaceAll(s[1..], pat, rep)
  {
    if |s| < |pat| {
      ReplaceAllShort(s[1..], pat, rep);
    }
  }

  lemma ReplaceAllShort(s: string, pat: string, rep: string)
    requires pat != [] && |s| < |pat|
    ensures ReplaceAll(s, pat, rep) == s
  {
  }

  lemma NoOccurrenceShift(a: string, b: string, pat: string)
    requires a != []
    requires forall i :: 0 <= i < |a| ==> !OccursAt(a + b, pat, i)
    ensures forall i :: 0 <= i < |a| - 1 ==> !OccursAt(a[1..] + b, pat, i)
  {
    var s := a + b;
    assert a[1..] + b == s[1..];
    forall i | 0 <= i < |a| - 1 ensures !OccursAt(s[1..], pat, i) {
      assert !OccursAt(s, pat, i + 1);
      if i + |pat| <= |s| - 1 {
        assert s[1..][i..i + |pat|] == s[i + 1..i + 1 + |pat|];
      }
    }
  }

  /** A prefix in which no occurrence of `pat` starts is copied unchanged. */
  lemma {:induction false} ReplaceAllSkip(a: string, b: string, pat: string, rep: string)
    requires pat != []
    requires forall i :: 0 <= i < |a| ==> !OccursAt(a + b, pat, i)
    ensures ReplaceAll(a + b, pat, rep) == a + ReplaceAll(b, pat, rep)
    decreases |a|
  {
    if a != [] {
      var s := a + b;
      DropHead(a, b);
      assert !OccursAt(s, pat, 0);
      ReplaceAllCopy(s, pat, rep);
      NoOccurrenceShift(a, b, pat);
      ReplaceAllSkip(a[1..], b, pat, rep);
      DropHead(a, ReplaceAll(b, pat, rep));
    } else {
      assert a + b == b;
    }
  }

  /** An occurrence at the front is replaced and the scan resumes after it. */
  lemma ReplaceAllFront(rest: string, pat: string, rep: string)
    requires pat != []
    ensures ReplaceAll(pat + rest, pat, rep) == rep + ReplaceAll(rest, pat, rep)
  {
    assert (pat + rest)[..|pat|] == pat;
    assert (pat + rest)[|pat|..] == rest;
  }

  /** A pattern whose first character is absent from the prefix `a` is
      first found right after it. */
  lemma ReplaceAfterHeadFree(a: string, pat: string, rest: string, rep: string)
    requires pat != [] && pat[0] !in a
    ensures ReplaceAll(a + (pat + rest), pat, rep) == a + (rep + ReplaceAll(rest, pat, rep))
  {
    var s := a + (pat + rest);
    forall i | 0 <= i < |a| ensures !OccursAt(s, pat, i) {
      assert s[i] == a[i];
      if i + |pat| <= |s| {
        assert s[i..i + |pat|][0] == s[i];
      }
    }
    ReplaceAllSkip(a, pat + rest, pat, rep);
    ReplaceAllFront(rest, pat, rep);
  }

  /** A pattern occurring exactly twice, each time after text without its
      first character, with too little left after the second. */
  lemma ReplaceTwiceHeadFree(a: string, b: string, c: string, pat: string, rep: string)
    requires pat != [] && pat[0] !in a && pat[0] !in b && |c| < |pat|
    ensures ReplaceAll(a + pat + b + pat + c, pat, rep) == a + rep + b + rep + c
  {
    Regroup5(a, pat, b, pat, c);
    ReplaceAfterHeadFree(a, pat, b + (pat + c), rep);
    ReplaceAfterHeadFree(b, pat, c, rep);
    ReplaceAllShort(c, pat, rep);
    Regroup5(a, rep, b, rep, c);
  }

  /** The first occurrence of a one-character pattern. */
  lemma ReplaceCharFirst(a: string, b: string, x: char, rep: string)
    requires x !in a
    ensures ReplaceAll(a + ([x] + b), [x], rep) == a + (rep + ReplaceAll(b, [x], rep))
  {
    ReplaceCharSplit(a, [x] + b, x, rep);
    ReplaceCharAbsent(a, x, rep);
    ReplaceAllFront(b, [x], rep);
  }

  /** A one-character pattern occurring exactly twice. */
  lemma ReplaceTwice(a: string, b: string, c: string, x: char, rep: string)
    requires x !in a && x !in b && x !in c
    ensures ReplaceAll(a + [x] + b + [x] + c, [x], rep) == a + rep + b + rep + c
  {
    Regroup5(a, [x], b, [x], c);
    ReplaceCharFirst(a, b + ([x] + c), x, rep);
    ReplaceCharFirst(b, c, x, rep);
    ReplaceCharAbsent(c, x, rep);
    Regroup5(a, rep, b, rep, c);
  }

  /** Replacing a single character distributes over concatenation. */
  lemma {:induction false} ReplaceCharSplit(s: string, t: string, x: char, rep: string)
    ensures ReplaceAll(s + t, [x], rep) == ReplaceAll(s, [x], rep) + ReplaceAll(t, [x], rep)
    decreases |s|
  {
    if s == [] {
      assert s + t == t;
    } else {
      var st := s + t;
      DropHead(s, t);
      assert st[..1] == [s[0]] && s[..1] == [s[0]];
      ReplaceCharSplit(s[1..], t, x, rep);
      var head := if s[0] == x then rep else [s[0]];
      assert ReplaceAll(st, [x], rep) == head + ReplaceAll(st[1..], [x], rep);
      assert ReplaceAll(s, [x], rep) == head + ReplaceAll(s[1..], [x], rep);
      Regroup3(head, ReplaceAll(s[1..], [x], rep), ReplaceAll(t, [x], rep));
    }
  }

  /** A character that does not occur is not replaced. */
  lemma {:induction false} ReplaceCharAbsent(s: string, x: char, rep: string)
    requires x !in s
    ensures ReplaceAll(s, [x], rep) == s
    decreases |s|
  {
    if s != [] {
      assert s[..1] == [s[0]];
      assert x !in s[1..];
      ReplaceCharAbsent(s[1..], x, rep);
    }
  }

  /** A single occurrence, with no other one anywhere, is spliced out:
      this is what `template.replace(placeholder, body)` does to a template
      holding the placeholder once. */
  lemma {:induction false} ReplaceAllOnce(pre: string, post: string, pat: string, rep: string)
    requires pat != []
    requires forall i :: OccursAt(pre + pat + post, pat, i) ==> i == |pre|
    ensures ReplaceAll(pre + pat + post, pat, rep) == pre + rep + post
  {
    var s := pre + pat + post;
    Regroup3(pre, pat, post);
    Regroup3(pre, rep, post);
    ReplaceAllSkip(pre, pat + post, pat, rep);
    ReplaceAllFront(post, pat, rep);
    assert !Contains(post, pat) by {
      forall i | OccursAt(post, pat, i) ensures false {
        assert s[|pre| + |pat| + i..|pre| + |pat| + i + |pat|] == post[i..i + |pat|];
        assert OccursAt(s, pat, |pre| + |pat| + i);
      }
    }
    ReplaceAllAbsent(post, pat, rep);
  }

  // ---------------------------------------------------------------------
  // Reading a file in text mode
  // ---------------------------------------------------------------------

  /** What `open(path, 'r')` reads with universal newlines: `\r\n` and a
      lone `\r` both read as `\n`, and everything else as stored. */
  function Newlines(s: string): (r: string)
    ensures '\r' !in r
    ensures |r| <= |s|
    decreases |s|
  {
    if s == [] then []
    else if s[0] == '\r' && |s| >= 2 && s[1] == '\n' then "\n" + Newlines(s[2..])
    else if s[0] == '\r' then "\n" + Newlines(s[1..])
    else [s[0]] + Newlines(s[1..])
  }

  /** Text without a carriage return reads back exactly as stored; with the
      contract of `Newlines` this makes reading back a second time change
      nothing. */
  lemma {:induction false} NewlinesPlain(s: string)
    requires '\r' !in s
    ensures Newlines(s) == s
    decreases |s|
  {
    if s != [] {
      assert s[0] != '\r';
      assert forall i :: 0 <= i < |s[1..]| ==> s[1..][i] == s[i + 1];
      NewlinesPlain(s[1..]);
      assert s == [s[0]] + s[1..];
    }
  }

  /** Both Windows and old Mac line endings read as one line break each. */
  lemma NewlinesExample()
    ensures Newlines("a\r\nb\rc") == "a\nb\nc"
  {
    assert "a\r\nb\rc"[1..] == "\r\nb\rc";
    assert "\r\nb\rc"[2..] == "b\rc";
    assert "b\rc"[1..] == "\rc";
    assert "\rc"[1..] == "c";
    assert "c"[1..] == "";
  }

  // ---------------------------------------------------------------------
  // str.strip
  // ---------------------------------------------------------------------

  function TrimStart(s: string): (r: string)
    ensures |r| <= |s| && r == s[|s| - |r|..]
    ensures forall i :: 0 <= i < |s| - |r| ==> IsSpace(s[i])
    ensures r == [] || !IsSpace(r[0])
    decreases |s|
  {
    if s != [] && IsSpace(s[0]) then TrimStart(s[1..]) else s
  }

  function TrimEnd(s: string): (r: string)
    ensures |r| <= |s| && r == s[..|r|]
    ensures forall i :: |r| <= i < |s| ==> IsSpace(s[i])
    ensures r == [] || !IsSpace(r[|r| - 1])
    decreases |s|
  {
    if s != [] && IsSpace(s[|s| - 1]) then TrimEnd(s[..|s| - 1]) else s
  }

  /** `s.strip()`: the longest infix with no whitespace at either end that
      is surrounded by whitespace only. */
  function Strip(s: string): (r: string)
    ensures r == [] || (!IsSpace(r[0]) && !IsSpace(r[|r| - 1]))
    ensures exists k :: SurroundedBySpace(s, r, k)
    ensures (s == [] || (!IsSpace(s[0]) && !IsSpace(s[|s| - 1]))) ==> r == s
  {
    var t := TrimStart(s);
    var r := TrimEnd(t);
    var k := |s| - |t|;
    assert SurroundedBySpace(s, r, k);
    r
  }

  /** `s` is `r` with only whitespace before index `k` and after `r`. */
  predicate SurroundedBySpace(s: string, r: string, k: int) {
    && 0 <= k <= |s| - |r| && r == s[k..k + |r|]
    && (forall i :: 0 <= i < k ==> IsSpace(s[i]))
    && (forall i :: k + |r| <= i < |s| ==> IsSpace(s[i]))
  }

  // ---------------------------------------------------------------------
  // str.split / str.join
  // ---------------------------------------------------------------------

  /** The index of the first `c` in `s`. */
  function FirstIndexOf(s: string, c: char): (i: nat)
    requires c in s
    ensures i < |s| && s[i] == c && c !in s[..i]
  {
    if s[0] == c then 0 else FirstIndexOf(s[1..], c) + 1
  }

  /** `s.split(sep)` for a one-character separator. */
  function Split(s: string, sep: char): (r: seq<string>)
    ensures |r| >= 1
    ensures forall i :: 0 <= i < |r| ==> sep !in r[i]
    decreases |s|
  {
    if sep !in s then [s]
    else
      var i := FirstIndexOf(s, sep);
      [s[..i]] + Split(s[i + 1..], sep)
  }

  /** `sep.join(ls)`. */
  function Join(ls: seq<string>, sep: string): string
    decreases |ls|
  {
    if |ls| == 0 then ""
    else if |ls| == 1 then ls[0]
    else ls[0] + sep + Join(ls[1..], sep)
  }

  /** Joining the pieces of a split gives back the string. */
  lemma {:induction false} JoinSplit(s: string, sep: char)
    ensures Join(Split(s, sep), [sep]) == s
    decreases |s|
  {
    if sep in s {
      var i := FirstIndexOf(s, sep);
      var rest := Split(s[i + 1..], sep);
      var ls := Split(s, sep);
      assert s == s[..i] + [sep] + s[i + 1..];
      assert ls == [s[..i]] + rest;
      assert ls[1..] == rest;
      assert Join(ls, [sep]) == s[..i] + [sep] + Join(rest, [sep]);
      JoinSplit(s[i + 1..], sep);
    }
  }

  /** Splitting a join of separator-free pieces gives back the pieces. */
  lemma {:induction false} SplitJoin(ls: seq<string>, sep: char)
    requires |ls| >= 1
    requires forall i :: 0 <= i < |ls| ==> sep !in ls[i]
    ensures Split(Join(ls, [sep]), sep) == ls
    decreases |ls|
  {
    if |ls| > 1 {
      var tail := Join(ls[1..], [sep]);
      assert Join(ls, [sep]) == ls[0] + [sep] + tail;
      SplitAt(ls[0], tail, sep);
      SplitJoin(ls[1..], sep);
      assert ls == [ls[0]] + ls[1..];
    }
  }

  /** A separator-free piece followed by a separator is split off first. */
  lemma SplitAt(a: string, b: string, sep: char)
    requires sep !in a
    ensures Split(a + [sep] + b, sep) == [a] + Split(b, sep)
  {
    var s := a + [sep] + b;
    assert s[|a|] == sep;
    var i := FirstIndexOf(s, sep);
    assert i <= |a| ==> s[..i] == a[..i];
    assert i == |a|;
    assert s[..i] == a;
    assert s[i + 1..] == b;
  }

  // ---------------------------------------------------------------------
  // String comparison (Python's `<` on str)
  // ---------------------------------------------------------------------

  /** Python's `a < b` on strings: code point by code point, and a proper
      prefix sorts first. */
  predicate LexLess(a: string, b: string)
    decreases |a|
  {
    if |a| == 0 then |b| > 0
    else if |b| == 0 then false
    else if a[0] != b[0] then a[0] < b[0]
    else LexLess(a[1..], b[1..])
  }

  lemma {:induction false} LexIrreflexive(a: string)
    ensures !LexLess(a, a)
    decreases |a|
  {
    if |a| > 0 {
      LexIrreflexive(a[1..]);
    }
  }

  lemma {:induction false} LexTransitive(a: string, b: string, c: string)
    requires LexLess(a, b) && LexLess(b, c)
    ensures LexLess(a, c)
    decreases |a|
  {
    if |a| > 0 && a[0] == b[0] && b[0] == c[0] {
      LexTransitive(a[1..], b[1..], c[1..]);
    }
  }

  lemma {:induction false} LexTotal(a: string, b: string)
    ensures a == b || LexLess(a, b) || LexLess(b, a)
    decreases |a|
  {
    if |a| > 0 && |b| > 0 && a[0] == b[0] {
      LexTotal(a[1..], b[1..]);
      if a[1..] == b[1..] {
        assert a == [a[0]] + a[1..] && b == [b[0]] + b[1..];
      }
    }
  }

  lemma {:induction false} LexAsymmetric(a: string, b: string)
    requires LexLess(a, b)
    ensures !LexLess(b, a)
  {
    if LexLess(b, a) {
      LexTransitive(a, b, a);
      LexIrreflexive(a);
    }
  }

  /** Comparing strings with equally long heads compares the heads first. */
  lemma {:induction false} LexConcat(a: string, x: string, b: string, y: string)
    requires |a| == |b|
    ensures LexLess(a + x, b + y) <==> LexLess(a, b) || (a == b && LexLess(x, y))
    decreases |a|
  {
    if |a| > 0 {
      assert (a + x)[0] == a[0] && (b + y)[0] == b[0];
      assert (a + x)[1..] == a[1..] + x && (b + y)[1..] == b[1..] + y;
      LexConcat(a[1..], x, b[1..], y);
      if a[0] == b[0] && a[1..] == b[1..] {
        assert a == [a[0]] + a[1..] && b == [b[0]] + b[1..];
      }
      if a == b {
        assert a[1..] == b[1..];
      }
    } else {
      assert a + x == x && b + y == y;
    }
  }

  /** A common tail does not change the order of equally long heads. */
  lemma LexSameTail(a: string, b: string, x: string)
    requires |a| == |b|
    ensures LexLess(a + x, b + x) <==> LexLess(a, b)
  {
    LexConcat(a, x, b, x);
    LexIrreflexive(x);
  }

  /** A common head does not change the order. */
  lemma LexSameHead(p: string, a: string, b: string)
    ensures LexLess(p + a, p + b) <==> LexLess(a, b)
  {
    LexConcat(p, a, p, b);
    LexIrreflexive(p);
  }

  // ---------------------------------------------------------------------
  // Digits: int() of a digit string, str() and %0Nd of a number
  // ---------------------------------------------------------------------

  predicate IsDigit(c: char) {
    '0' <= c <= '9'
  }

  /** The characters `\d` and `int()` accept as far as this model goes:
      ASCII and full-width digits. */
  predicate IsDecimal(c: char) {
    IsDigit(c) || '０' <= c <= '９'
  }

  predicate AllDigits(ds: string) {
    forall i :: 0 <= i < |ds| ==> IsDigit(ds[i])
  }

  predicate AllDecimal(ds: string) {
    forall i :: 0 <= i < |ds| ==> IsDecimal(ds[i])
  }

  function DigitValue(c: char): nat
    requires IsDecimal(c)
  {
    if IsDigit(c) then c as int - '0' as int else c as int - '０' as int
  }

  /** `int(ds)` for a string of decimal digits. */
  function DecimalValue(ds: string): nat
    requires AllDecimal(ds)
    decreases |ds|
  {
    if |ds| == 0 then 0
    else DecimalValue(ds[..|ds| - 1]) * 10 + DigitValue(ds[|ds| - 1])
  }

  function DigitChar(d: nat): (c: char)
    requires d < 10
    ensures IsDigit(c) && DigitValue(c) == d
  {
    ('0' as int + d) as char
  }

  function Pow10(w: nat): (p: nat)
    ensures p >= 1
  {
    if w == 0 then 1 else 10 * Pow10(w - 1)
  }

  /** `str(n)`. */
  function NatToString(n: nat): string
    decreases n
  {
    if n < 10 then [DigitChar(n)] else NatToString(n / 10) + [DigitChar(n % 10)]
  }

  /** `str(n)` for any integer. */
  function IntToString(n: int): string {
    if n < 0 then "-" + NatToString(-n) else NatToString(n)
  }

  /** `f"{n:0{w}d}"` for a number that fits in `w` digits. */
  function PadDigits(n: nat, w: nat): (r: string)
    ensures |r| == w
    decreases w
  {
    if w == 0 then [] else PadDigits(n / 10, w - 1) + [DigitChar(n % 10)]
  }

  lemma {:induction false} NatToStringDigits(n: nat)
    ensures |NatToString(n)| >= 1 && AllDecimal(NatToString(n))
    ensures forall i :: 0 <= i < |NatToString(n)| ==> IsDigit(NatToString(n)[i])
    decreases n
  {
    if n >= 10 {
      NatToStringDigits(n / 10);
    }
  }

  lemma {:induction false} PadDigitsDigits(n: nat, w: nat)
    ensures forall i :: 0 <= i < w ==> IsDigit(PadDigits(n, w)[i])
    ensures AllDecimal(PadDigits(n, w))
    decreases w
  {
    if w > 0 {
      PadDigitsDigits(n / 10, w - 1);
    }
  }

  /** `int(str(n)) == n`. */
  lemma {:induction false} NatToStringValue(n: nat)
    ensures AllDecimal(NatToString(n)) && DecimalValue(NatToString(n)) == n
    decreases n
  {
    NatToStringDigits(n);
    if n >= 10 {
      var s := NatToString(n);
      NatToStringValue(n / 10);
      assert s[..|s| - 1] == NatToString(n / 10);
    }
  }

  /** Zero-padding loses nothing for a number that fits. */
  lemma {:induction false} PadDigitsValue(n: nat, w: nat)
    requires n < Pow10(w)
    ensures AllDecimal(PadDigits(n, w)) && DecimalValue(PadDigits(n, w)) == n
    decreases w
  {
    PadDigitsDigits(n, w);
    if w > 0 {
      var s := PadDigits(n, w);
      PadDigitsValue(n / 10, w - 1);
      assert s[..|s| - 1] == PadDigits(n / 10, w - 1);
    }
  }

  /** Zero-padded numbers of one width compare as strings the way they
      compare as numbers. */
  lemma {:induction false} PadDigitsOrder(n: nat, m: nat, w: nat)
    requires n < Pow10(w) && m < Pow10(w)
    ensures LexLess(PadDigits(n, w), PadDigits(m, w)) <==> n < m
    decreases w
  {
    if w == 0 {
      assert n == 0 && m == 0;
    } else {
      var a, b := PadDigits(n / 10, w - 1), PadDigits(m / 10, w - 1);
      var x, y := DigitChar(n % 10), DigitChar(m % 10);
      PadDigitsOrder(n / 10, m / 10, w - 1);
      LexConcat(a, [x], b, [y]);
      PadDigitsValue(n / 10, w - 1);
      PadDigitsValue(m / 10, w - 1);
      assert a == b <==> n / 10 == m / 10;
      assert LexLess([x], [y]) <==> n % 10 < m % 10 by {
        assert [x][1..] == [] && [y][1..] == [];
        LexIrreflexive([]);
      }
    }
  }

  /** A string of ASCII digits is the zero-padded form of its value. */
  lemma {:induction false} PadDigitsOfDigits(ds: string)
    requires AllDigits(ds)
    ensures AllDecimal(ds) && PadDigits(DecimalValue(ds), |ds|) == ds
    decreases |ds|
  {
    if |ds| > 0 {
      var init := ds[..|ds| - 1];
      var n := DecimalValue(ds);
      PadDigitsOfDigits(init);
      assert n / 10 == DecimalValue(init) && n % 10 == DigitValue(ds[|ds| - 1]);
      assert ds == init + [ds[|ds| - 1]];
    }
  }

  /** `str(year)` of a four-digit year is its `%04d` form. */
  lemma NatToStringFourDigits(n: nat)
    requires 1000 <= n < 10000
    ensures NatToString(n) == PadDigits(n, 4)
  {
    assert NatToString(n / 1000) == [DigitChar(n / 1000)];
    assert NatToString(n / 100) == NatToString(n / 1000) + [DigitChar((n / 100) % 10)];
    assert NatToString(n / 10) == NatToString(n / 100) + [DigitChar((n / 10) % 10)];
    assert PadDigits(n / 1000, 1) == [DigitChar(n / 1000)];
  }
}

=== FILE: wrappers.dfy ===
/** Failure-carrying datatypes used across the model, in place of Python's
    `None` returns and raised exceptions. */
module Wrappers {

  datatype Option<+T> = None | Some(value: T)

  /** A run-ending error surfaced to the caller (in the source, an exception
      that nothing catches). */
  datatype Error =
    | InvalidKeyLength(length: nat)    // AES.new refuses the key
    | UnparsableDate(text: string)     // datetime.strptime raises
    | InvalidDate                      // datetime.date(...) raises

  datatype Result<+T> = Success(value: T) | Failure(error: Error)
}
